=== FILE: README.md ===
# Vertical garden dashboard: a verified model

This project models, in Dafny, the pure logic of a small garden-monitoring
system:

- **The backend relay.** It takes microcontroller readings over HTTP,
  classifies each one, writes it to the `sensor_readings` table and
  broadcasts it to every open WebSocket client.
- **The current dashboard.** This covers:
  - its state store and the socket manager that feeds it;
  - the history and trend shaping;
  - the CSV/JSON export;
  - the threshold colours and freshness labels;
  - the sample-data generator.
- **The older app under `src/`.** This covers its store, export, history
  hook, sample generator and offline action queue.

Every operation is a pure function over immutable datatypes. Each comes with
lemmas that relate it to an inverse, to a reference definition or to an
invariant it keeps.

## Modules

| file | module | models |
|---|---|---|
| `common.dfy` | `Common` | `Option`, the NPK triple, the clamp `Math.max(lo, Math.min(hi, x))` and rounding to one decimal |
| `json.dfy` | `JsonValue` | parsed JavaScript values: property read (the last duplicate key wins), truthiness, `typeof … === 'number'`, object spread |
| `sorting.dfy` | `Sorting` | `Array.prototype.sort` with a numeric key, as a stable insertion sort |
| `csv.dfy` | `Csv` | `join` and `split` on one character |
| `relay.dfy` | `Relay` | `Backend/src/server.ts`: the ingestion handler, `broadcast`, connection and `message` handling |
| `store.dfy` | `GardenStore` | `Frontend/src/contexts/GardenContext.tsx`: the state, `initialState` and `gardenReducer` |
| `socket.dfy` | `SocketManager` | `Frontend/src/hooks/useWebSocket.ts` as an event-driven state machine |
| `pipeline.dfy` | `Pipeline` | end to end: a stored reading, as broadcast, routed into the store |
| `raw_history.dfy` | `RawHistory` | the history row and the series each row supplies |
| `history.dfy` | `HistoryBuckets` | `processRawData` and `handleExport` of `Frontend/src/pages/History.tsx` |
| `trend.dfy` | `Trend` | `processRawData`, `filteredData` and the `timeRange` state of `Frontend/src/components/TrendChart.tsx` |
| `export.dfy` | `ExportCsv` | `Frontend/src/utils/exportData.ts` |
| `status.dfy` | `Status` | `getStatusColor`, `formatLastSync` and the advice trigger of SensorCard and NPKTile, and `getSectionColor` of VisualGarden |
| `sample.dfy` | `SampleData` | `Frontend/src/utils/generateSampleData.ts` |
| `legacy_store.dfy` | `LegacyStore` | `src/contexts/GardenContext.tsx` |
| `legacy_export.dfy` | `LegacyExport` | `src/utils/exportData.ts` |
| `legacy_sample.dfy` | `LegacySample` | `src/utils/generateSampleData.ts` |
| `legacy_history.dfy` | `LegacyHistory` | `src/hooks/useSensorHistory.ts` |
| `offline_queue.dfy` | `OfflineQueue` | `src/hooks/useBackgroundSync.ts` over the IndexedDB store of `src/hooks/useIndexedDB.ts` |

## Modelling choices

- **Parameters for the world outside.** The environment supplies:
  - the server clock (`Relay.Clock`);
  - the outcome of the MySQL insert (`InsertOk`/`InsertFail`);
  - the outcome of each IndexedDB request;
  - the browser's socket events and timer callbacks (`SocketManager.Event`).
- **Uninterpreted functions.** `Date.now()`, `new Date(t).getHours()`, `Math.sin`, `Math.random`, the locale renderings (`toLocaleString` and friends) and `toFixed(1)` are function-typed parameters. Each bound proved about them holds whatever they return, with one exception: `LegacySample.NutrientsUnclamped` requires the `Math.random()` draws to lie in [0, 1), as the language guarantees.
- **Numbers.** They are mathematical reals and timestamps are integer milliseconds.
  - `Number(x.toFixed(1))` rounds the magnitude to the nearest tenth, ties up, and keeps the sign, so ties go away from zero.
  - `Math.floor` of a division by a positive constant is Dafny's `/`, which is floor division for positive divisors.
- **The server's ingestion handler** is the ordered list of its effects: write, broadcast, reply.
  - A client is its OPEN flag and the ordered list of messages sent to it, so per-client FIFO is list append.
- **The socket hook.** Its state records:
  - the held socket's ready state;
  - the sockets that unmount detached but that are still due a close event;
  - the number of pending reconnect timers;
  - the actions dispatched and the frames sent.
  - The app renders under `<React.StrictMode>` (`Frontend/src/main.tsx:21`). In a development build React then runs the effect's cleanup and setup a second time on the same mounted hook. This is the event `Rerun`.

### Notable behaviour of the code

- **A body with a truthy but unknown `type` gets 400.**
  - `Backend/src/server.ts:133-136` has a 200 "Data received but not stored (unknown type)" branch that no input reaches (`Relay.NotStoredUnreachable`).
- **A malformed socket frame sent to the server is answered with an `error` message to the sender** (`Backend/src/server.ts:29-45`, `Relay.BadFrameRepliesToSender`).
  - On the client a malformed frame is only logged (`SocketManager.RouteOthers`).
- **The advisory popup has no single-slot guard.**
  - A tile whose value is low dispatches `SHOW_ADVICE_POPUP` even while another nutrient's popup is open (`Status.NoSingleSlot`).
  - The reducer has no case for that action, or for `HIDE_ADVICE_POPUP`, so both leave the state unchanged (`GardenStore.Unhandled`).
- **The dashboard throws on its first render.**
  - The store's state has no `thresholds` or `advicePopup` member (`Frontend/src/contexts/GardenContext.tsx:17-22`), yet components read through both.
  - Reads such as `thresholds[adviceThresholdKey]` (`Frontend/src/components/NPKTile.tsx:19`), `thresholds.moistureLow` (`Frontend/src/components/VisualGarden.tsx:16`) and the thresholds read in `Frontend/src/components/SensorCard.tsx:41` go through an undefined object, so each throws a TypeError.
  - So does `const { nutrient } = state.advicePopup` (`Frontend/src/components/KitchenAdvicePopup.tsx:14`), which `Frontend/src/App.tsx:24` renders unconditionally.
  - The model takes `thresholds` and `advicePopup` as parameters. It describes what the components would do once both exist in the state. A single threshold key missing from a present thresholds object reads as `undefined`, and every comparison with `undefined` is false.

## Model

| member | source | states |
|---|---|---|
| `Relay.Handle` | Backend/src/server.ts:71-137 | every request ends in exactly one reply, and the reply is its last effect |
| `Relay.RowFor` | Backend/src/server.ts:89-115 | a row is produced only for an object body; it carries the server time, is complete for its kind, and its kind is the posted `type` |
| `Relay.MissingTypeRejected` | Backend/src/server.ts:79-82 | an absent body or a falsy `type` gets 400, with no write and no broadcast |
| `Relay.MoistureRow` | Backend/src/server.ts:90-95 | a moisture post yields a row iff `id` is truthy and `value` is a number; the row holds the posted id (not only A or B) and the value in `value_1` |
| `Relay.ClimateRow` | Backend/src/server.ts:96-101 | dht11 yields a row iff temp and humidity are both numbers; they go to `value_1` and `value_2` |
| `Relay.NutrientRow` | Backend/src/server.ts:102-109 | npk yields a row iff n, p and k are all numbers; they go to `value_1`..`value_3` |
| `Relay.UnknownTypeNoRow` | Backend/src/server.ts:111-114 | any other type produces no row |
| `Relay.NoRowRejected` | Backend/src/server.ts:129-132 | a truthy type that produced no row (bad fields or an unknown kind) gets 400 naming the type, with nothing written or broadcast |
| `Relay.NotStoredUnreachable` | Backend/src/server.ts:129-136 | the 200 "not stored" reply is never sent; every 200 is a stored reading |
| `Relay.AcceptedOrdering` | Backend/src/server.ts:117-128 | a valid reading whose insert succeeds is written, then broadcast once as `sensor_update`, then answered 200; a failed insert is answered 500 with no broadcast |
| `Relay.BroadcastNeedsWrite` | Backend/src/server.ts:117-124 | a broadcast happens only after a successful write; a request writes iff it is answered "stored" |
| `Relay.PayloadStamped` | Backend/src/server.ts:122 | the broadcast is tagged `sensor_update`; its payload is the posted object with `timestamp` replaced by the server time and every other key as posted |
| `Relay.Fanout` | Backend/src/server.ts:58-66 | every OPEN client gets the message appended; every other client is untouched; no client is added or removed |
| `Relay.FanoutAllOrder` | Backend/src/server.ts:58-66 | per-client FIFO: an open client receives successive broadcasts in call order, a closed one receives none |
| `Relay.SendTo` | Backend/src/server.ts:44 | a direct send reaches only its target, and only while the target is OPEN |
| `Relay.Connect` | Backend/src/server.ts:20-24 | the connection is added to the client set, starts OPEN, and holds only the welcome message, whose `type` is `info`; every other client and the table are unchanged |
| `Relay.ConnectThenBroadcasts` | Backend/src/server.ts:20-24 | a new client receives the welcome first and then every later broadcast in call order; the other clients receive exactly what they would have received without it |
| `Relay.Receive` | Backend/src/server.ts:26-46 | handling a frame never touches the table and never adds or removes clients |
| `Relay.IngestEffect` | Backend/src/server.ts:117-124 | an accepted reading grows the table by its row, and every open client receives its broadcast |
| `Relay.IngestRejectUnchanged` | Backend/src/server.ts:79-136 | rejected and failed requests leave the table and every client unchanged |
| `Relay.BadFrameRepliesToSender` | Backend/src/server.ts:42-45 | an unparseable frame, a null frame, or a toggle without `payload` gets `error` sent to the sender only |
| `Relay.ToggleBroadcast` | Backend/src/server.ts:35-40 | a toggle command with a payload is broadcast to all open clients as `irrigation_state` carrying `payload.status` |
| `Relay.OtherFramesIgnored` | Backend/src/server.ts:29-41 | any other parsed, non-null frame changes nothing |
| `GardenStore.Reduce` | Frontend/src/contexts/GardenContext.tsx:62-123 | each field changes only under its own actions: `darkMode` under TOGGLE_DARK_MODE, `lastSync` under SET_LAST_SYNC, `irrigation` under the two irrigation actions, the readings under UPDATE_SENSOR_DATA |
| `GardenStore.InitialStateZero` | Frontend/src/contexts/GardenContext.tsx:39-55 | initially irrigation and dark mode are off, every reading is 0 and the last sync is null |
| `GardenStore.ToggleIrrigationInvolution` | Frontend/src/contexts/GardenContext.tsx:64-70 | the toggle negates only `irrigation`; applying it twice restores the state |
| `GardenStore.SetIrrigationIdempotent` | Frontend/src/contexts/GardenContext.tsx:71-75 | SET_IRRIGATION_STATE stores its payload, changes nothing else, and twice is the same as once |
| `GardenStore.ToggleDarkModeInvolution` | Frontend/src/contexts/GardenContext.tsx:76-81 | the dark-mode toggle changes only `darkMode` and undoes itself |
| `GardenStore.MoistureTargets` | Frontend/src/contexts/GardenContext.tsx:86-90 | id A changes only moistureA, id B only moistureB, and any other id changes nothing |
| `GardenStore.ClimateAndNutrientTargets` | Frontend/src/contexts/GardenContext.tsx:91-101 | dht11 writes temperature and humidity together; npk replaces all three nutrients; neither touches moisture |
| `GardenStore.Unhandled` | Frontend/src/contexts/GardenContext.tsx:102-121 | an unknown payload kind, an unknown action and the two advice-popup actions return the identical state |
| `GardenStore.SetLastSyncOnly` | Frontend/src/contexts/GardenContext.tsx:113-117 | SET_LAST_SYNC changes only `lastSync` |
| `GardenStore.IrrigationStaysBoolean` | Frontend/src/contexts/GardenContext.tsx:64-75 | over any run of actions the irrigation flag stays a boolean, as long as every SET_IRRIGATION_STATE carries one |
| `GardenStore.NonBooleanStatusStored` | Frontend/src/contexts/GardenContext.tsx:71-75 | a non-boolean or missing status from the relay is stored as is |
| `SocketManager.Connect` | Frontend/src/hooks/useWebSocket.ts:10-18 | afterwards the hook always holds a live socket; a live socket is kept, otherwise a new one starts CONNECTING; nothing but the held socket changes |
| `SocketManager.ConnectIdempotent` | Frontend/src/hooks/useWebSocket.ts:11-14 | calling `connect` twice opens at most one socket |
| `SocketManager.ConnectGuard` | Frontend/src/hooks/useWebSocket.ts:12-14 | a reconnect timer that fires while a socket is live only consumes the timer |
| `SocketManager.StepInv` | Frontend/src/hooks/useWebSocket.ts:8-89 | every event, StrictMode's re-run included, keeps the weak invariant: while mounted, `isConnected` implies the held socket is OPEN or a detached socket has yet to report its close. Every other event also keeps the exact one: while mounted, `isConnected` is exactly "the held socket is OPEN" and nothing is detached |
| `SocketManager.RunInv` | Frontend/src/hooks/useWebSocket.ts:8-89 | after any sequence of enabled events the weak invariant holds; after a sequence without the development re-run (a production build) the exact one holds |
| `SocketManager.RerunDesyncs` | Frontend/src/hooks/useWebSocket.ts:55-88 | after StrictMode's re-run the exact invariant fails both ways: a detached socket's late unclean close leaves an OPEN held socket with `isConnected` false and a reconnect pending, and a re-run of an open connection leaves `isConnected` true while the new socket is only connecting |
| `SocketManager.OpenAndCloseFlag` | Frontend/src/hooks/useWebSocket.ts:20-57 | onopen sets `isConnected`; onclose clears it |
| `SocketManager.CloseSchedules` | Frontend/src/hooks/useWebSocket.ts:55-64 | an unclean close schedules exactly one reconnect, a clean close none |
| `SocketManager.Route` | Frontend/src/hooks/useWebSocket.ts:27-53 | a frame dispatches at most two actions |
| `SocketManager.RouteKnown` | Frontend/src/hooks/useWebSocket.ts:33-40 | `sensor_update` dispatches UPDATE_SENSOR_DATA and then SET_LAST_SYNC with the receive time; `irrigation_state` dispatches its status |
| `SocketManager.RouteOthers` | Frontend/src/hooks/useWebSocket.ts:41-52 | `info`, `error`, unknown types and unparseable frames dispatch nothing and keep the socket |
| `SocketManager.UnmountCloses` | Frontend/src/hooks/useWebSocket.ts:82-88 | unmount closes the held socket with code 1000 and drops the reference |
| `SocketManager.ReconnectAfterUnmount` | Frontend/src/hooks/useWebSocket.ts:55-88 | a reconnect pending at unmount still fires afterwards and opens a new socket |
| `SocketManager.DetachedUncleanReconnects` | Frontend/src/hooks/useWebSocket.ts:55-88 | a socket that was still connecting at unmount and then closes uncleanly schedules a reconnect too |
| `SocketManager.SendOnlyWhenOpen` | Frontend/src/hooks/useWebSocket.ts:92-101 | a command goes out only on an OPEN socket; otherwise it is dropped, not queued |
| `SocketManager.IrrigationCommandShape` | Frontend/src/hooks/useWebSocket.ts:104-110 | the irrigation command reads back as `control`/`toggle_irrigation` with `payload.status` equal to the requested status |
| `Pipeline.RelayPayloadDecodes` | Backend/src/server.ts:122 | the payload of every broadcast decodes, on the dashboard, to exactly the reading the server stored |
| `Pipeline.StateMessageReads` | Backend/src/server.ts:39 | the relayed `irrigation_state` message reads back its type and status |
| `Pipeline.RouteSensorUpdate` | Frontend/src/hooks/useWebSocket.ts:34-37 | a recognised sensor frame, routed and reduced, applies the reading and then sets the sync time |
| `Pipeline.BroadcastApplies` | Backend/src/server.ts:117-124 | routing the broadcast of an accepted reading applies that reading to the store and stamps the sync time, and nothing else changes |
| `Pipeline.SensorUpdateReachesStore` | Backend/src/server.ts:117-124 | an accepted reading reaches every open dashboard as one message, which brings the store up to date with it |
| `Pipeline.ProbeAReachesStore` | Frontend/src/contexts/GardenContext.tsx:86-90 | a reading from probe A ends up as `moistureA`, leaves probe B's reading alone and stamps the sync time |
| `Pipeline.IrrigationRoundTrip` | Frontend/src/hooks/useWebSocket.ts:104-110 | a dashboard's irrigation command comes back to every open client as `irrigation_state`, and routing it sets the store's flag to the requested status |
| `Pipeline.ReduceTwo` | Frontend/src/hooks/useWebSocket.ts:35-36 | two dispatches in a row reduce in order |
| `RawHistory.Reading` | Frontend/src/pages/History.tsx:159-174 | a series is read only from a row of its kind (and, for moisture, its probe id), and from one of the row's value slots |
| `RawHistory.OtherKindsSilent` | Frontend/src/pages/History.tsx:159-174 | a row of any other kind supplies no series |
| `RawHistory.MoistureProbes` | Frontend/src/pages/History.tsx:160-163 | a moisture row supplies at most one moisture series, and none when its id is neither A nor B |
| `HistoryBuckets.NewEntry` | Frontend/src/pages/History.tsx:149-156 | a new bucket takes its label and the creating row's date; nutrients start at 0 and the other series start missing |
| `HistoryBuckets.Merge` | Frontend/src/pages/History.tsx:159-174 | merging a row overwrites exactly the series it has a non-null reading for; nulls never overwrite |
| `HistoryBuckets.IndexOf` | Frontend/src/pages/History.tsx:148 | the lookup finds an entry with the label, or reports that no entry has it |
| `HistoryBuckets.AbsorbUnique` | Frontend/src/pages/History.tsx:148-157 | one step of the loop keeps labels unique and adds at most one entry |
| `HistoryBuckets.AbsorbCovers` | Frontend/src/pages/History.tsx:141-157 | one step keeps every seen label owning an entry, dated by its first row |
| `HistoryBuckets.AbsorbFaithful` | Frontend/src/pages/History.tsx:141-175 | one step keeps each entry holding the latest non-null reading of each series in its bucket |
| `HistoryBuckets.AbsorbDates` | Frontend/src/pages/History.tsx:139-157 | with rows in time order, one step keeps the entries in date order |
| `HistoryBuckets.BucketizeSound` | Frontend/src/pages/History.tsx:141-175 | the loop invariant holds over all the rows |
| `HistoryBuckets.ProcessSpec` | Frontend/src/pages/History.tsx:135-179 | the caller's rows come back sorted and only permuted; there is one entry per label; every row's label has an entry, dated by the earliest row with that label; each entry holds the latest non-null reading per series; entries are in date order |
| `HistoryBuckets.OneEntryPerLabel` | Frontend/src/pages/History.tsx:136-157 | two entries with the same label are the same entry |
| `HistoryBuckets.FlatRow` | Frontend/src/pages/History.tsx:221-230 | an export row keeps the label, and each column holds the entry's value for that series, null when missing |
| `HistoryBuckets.Flatten` | Frontend/src/pages/History.tsx:221-230 | one export row per entry, in order |
| `HistoryBuckets.HandleExport` | Frontend/src/pages/History.tsx:216-257 | an empty history exports nothing; otherwise the chosen format is written |
| `HistoryBuckets.JsonExportRows` | Frontend/src/pages/History.tsx:221-248 | the JSON export reads back as one row per entry, in order, with each series value in its column |
| `HistoryBuckets.CsvExportLines` | Frontend/src/pages/History.tsx:221-246 | the CSV export has a header line plus one line per entry |
| `Trend.Select` | Frontend/src/components/TrendChart.tsx:120-154 | the output is exactly one point per row with a non-null reading of the target, in row order, each with its own row's time: it equals the reference series built from the ascending list of those rows' positions |
| `Trend.ProcessSpec` | Frontend/src/components/TrendChart.tsx:117-158 | the series is a permutation of the reference series (one point per row with a reading, so repeated rows are kept), ascending by time, and a point occurs iff some row yields it |
| `Trend.Days` | Frontend/src/components/TrendChart.tsx:190-201 | a window spans 1, 7 or 30 days |
| `Trend.KeepFromSpec` | Frontend/src/components/TrendChart.tsx:203 | the filter keeps a point exactly when its time is at or after the start, and keeps order |
| `Trend.WindowSuffix` | Frontend/src/components/TrendChart.tsx:203 | on time-sorted data the window is a suffix |
| `Trend.WindowsNested` | Frontend/src/components/TrendChart.tsx:186-204 | each window keeps exactly the points no older than its day count; 1 day ⊆ 7 days ⊆ 30 days |
| `Trend.Click` | Frontend/src/components/TrendChart.tsx:111 | a range click never changes the range the filter reads |
| `Trend.AlwaysOneDay` | Frontend/src/components/TrendChart.tsx:109-111 | whatever is clicked, the filter's range stays one day, while the last click lands in the other state slot |
| `Trend.ShownWindow` | Frontend/src/components/TrendChart.tsx:186-204 | after any clicks the chart shows the one-day window |
| `ExportCsv.Cells` | Frontend/src/utils/exportData.ts:38-47 | every record has as many cells as the header |
| `ExportCsv.HeaderAvoids` | Frontend/src/utils/exportData.ts:26-35 | no header cell contains a comma or a line break |
| `ExportCsv.CsvLines` | Frontend/src/utils/exportData.ts:50-53 | the text splits into the header line then one line per record, in order; an empty export is the header alone |
| `ExportCsv.RowFields` | Frontend/src/utils/exportData.ts:52 | a record line without commas in its cells reads back as exactly its eight cells |
| `ExportCsv.CommaBreaksRow` | Frontend/src/utils/exportData.ts:38-52 | cells are not quoted, so a label containing a comma gives a line of more than eight fields |
| `ExportCsv.FormatValueEmpty` | Frontend/src/utils/exportData.ts:20-22 | a reading cell is empty iff the reading is null; otherwise it is the one-decimal rendering |
| `ExportCsv.NullCell` | Frontend/src/utils/exportData.ts:20-22 | `formatValue` gives the empty string exactly for null |
| `ExportCsv.ExportJson` | Frontend/src/utils/exportData.ts:73 | the JSON document is an array of one element per record |
| `ExportCsv.ReadingRoundTrip` | Frontend/src/utils/exportData.ts:73 | a number or null reads back as written |
| `ExportCsv.ClimateReads` | Frontend/src/utils/exportData.ts:73 | a written record's timestamp and climate members read back by key |
| `ExportCsv.SoilReads` | Frontend/src/utils/exportData.ts:73 | a written record's moisture and nutrient members read back by key |
| `ExportCsv.RowRoundTrip` | Frontend/src/utils/exportData.ts:73 | a written record reads back as the same record |
| `ExportCsv.ExportJsonRoundTrip` | Frontend/src/utils/exportData.ts:70-75 | the JSON export keeps every record, unchanged and in order |
| `Status.StatusColorCases` | Frontend/src/components/SensorCard.tsx:46-48 | red iff below low, yellow iff not below low and above high, green iff within the bounds inclusive |
| `Status.MissingThresholds` | Frontend/src/components/SensorCard.tsx:41-48 | missing thresholds never colour a card |
| `Status.CardKeys` | Frontend/src/components/SensorCard.tsx:25-39 | each card kind reads two different threshold keys |
| `Status.CardKeysDistinct` | Frontend/src/components/SensorCard.tsx:25-39 | no two card kinds share a threshold key |
| `Status.CardColorReads` | Frontend/src/components/SensorCard.tsx:19-49 | changing a threshold that is not the card's own does not recolour it |
| `Status.NutrientKeys` | Frontend/src/components/NPKTile.tsx:18-24 | the tile's keys are the lower-cased nutrient name followed by `AdviceLow`, `Low` or `High` |
| `Status.Advice` | Frontend/src/components/NPKTile.tsx:26-32 | the only action the effect can dispatch is SHOW_ADVICE_POPUP for its own nutrient |
| `Status.AdviceFires` | Frontend/src/components/NPKTile.tsx:26-32 | the popup is requested iff the value is below a present advice threshold and the popup does not already show this nutrient |
| `Status.NoSingleSlot` | Frontend/src/components/NPKTile.tsx:28 | another nutrient's open popup does not stop a low tile from requesting its own |
| `Status.FormatLastSyncIntervals` | Frontend/src/components/SensorCard.tsx:51-60 | "Just now" for a diff under a minute (negative included); otherwise whole minutes, hours or days elapsed, each the largest not over the diff |
| `Status.NeverSynced` | Frontend/src/components/SensorCard.tsx:52 | "Never" when the last sync is null or 0 |
| `Status.Decimal` | Frontend/src/components/SensorCard.tsx:56-59 | the count is rendered as a non-empty string of digits whose first digit is not `0` for any count of ten or more; with `Status.DecimalRoundTrip` this is exactly the text `${n}` gives |
| `Status.DecimalRoundTrip` | Frontend/src/components/SensorCard.tsx:56-59 | the rendered count reads back as the number |
| `Status.SectionMatchesCard` | Frontend/src/components/VisualGarden.tsx:6-10 | a garden section is red, blue or green exactly when a moisture card is red, yellow or green |
| `Status.GardenColors` | Frontend/src/components/VisualGarden.tsx:16-17 | both sections read the same thresholds, so equal readings get equal colours; a section is red iff its reading is below a present low threshold |
| `SampleData.PointsPerHour` | Frontend/src/utils/generateSampleData.ts:19-22 | the rate is always positive |
| `SampleData.Spacing` | Frontend/src/utils/generateSampleData.ts:18-25 | days 1, 7 and 30 give 96 points 15 min apart, 168 hourly and 180 four-hourly; any other positive count is hourly; zero or fewer days give no points |
| `SampleData.Bounded` | Frontend/src/utils/generateSampleData.ts:9-11 | rounding after the clamp stays inside the clamp's bounds |
| `SampleData.Point` | Frontend/src/utils/generateSampleData.ts:30-31 | the point of loop index i is i intervals before now |
| `SampleData.PointInRanges` | Frontend/src/utils/generateSampleData.ts:38-61 | for any noise: temperature in [18, 28], humidity in [40, 80], moisture in [30, 90], each nutrient in [20, 80] |
| `SampleData.Generate` | Frontend/src/utils/generateSampleData.ts:13-85 | the output has the point count, one point per loop index from the oldest, evenly spaced and strictly increasing up to now, every reading in range |
| `SampleData.LoopOutput` | Frontend/src/utils/generateSampleData.ts:30-65 | what the loop pushed is in range and in time order, ending at now |
| `SampleData.Timeline` | Frontend/src/utils/generateSampleData.ts:30-31 | the timestamps are one interval apart, strictly increasing, and the last is now |
| `SampleData.BaseNpkRises` | Frontend/src/utils/generateSampleData.ts:50-51 | the nutrient base rises along the output, despite the "decrease" comment |
| `Common.Clamp` | Frontend/src/utils/generateSampleData.ts:40 | the clamp lies within its bounds, is the identity inside them and is the nearer bound outside |
| `Common.Round1` | Frontend/src/utils/generateSampleData.ts:9-11 | the result is a whole number of tenths, at most half a tenth away; the half-open bounds make it the unique such tenth, so a tie moves a non-negative value up and a negative one down |
| `Common.Round1Odd` | Frontend/src/utils/generateSampleData.ts:9-11 | rounding is symmetric about zero: rounding `-x` gives minus the rounding of `x` |
| `Common.Round1Within` | Frontend/src/utils/generateSampleData.ts:9-11 | rounding keeps a value inside any interval whose ends are whole tenths |
| `JsonValue.With` | Backend/src/server.ts:122 | after the spread, the overriding key reads back as the new value |
| `JsonValue.WithOthers` | Backend/src/server.ts:122 | the spread leaves every other key as it was |
| `JsonValue.GetWith` | Backend/src/server.ts:122 | an object built by the spread reads back by key: the new value for the overriding key, the original for others |
| `JsonValue.ReplaceAll` | Backend/src/server.ts:122 | an existing key takes the new value in place; all other members are kept |
| `Sorting.SortBy` | Frontend/src/pages/History.tsx:139 | the sort returns the same elements, ascending by key |
| `Sorting.SortStable` | Frontend/src/pages/History.tsx:139 | the sort is stable: for every key, the elements with that key keep their input order |
| `Sorting.SortSorted` | Frontend/src/pages/History.tsx:178 | sorting already-sorted data changes nothing |
| `Sorting.SortMembers` | Frontend/src/components/TrendChart.tsx:157 | sorting keeps exactly the same members |
| `Csv.SplitJoin` | Frontend/src/utils/exportData.ts:52 | when no cell holds the separator, splitting the joined line gives the cells back |
| `Csv.SplitJoinOverflow` | Frontend/src/utils/exportData.ts:52 | without quoting, a cell holding the separator makes the line read back with more fields than were joined |
| `Csv.DocumentLines` | Frontend/src/utils/exportData.ts:50-53 | the document splits into the header line followed by one line per row |
| `Csv.SplitLength` | Frontend/src/utils/exportData.ts:53 | a split has one more piece than the text has separators |
| `LegacyStore.Reduce` | src/contexts/GardenContext.tsx:50-75 | each field changes only under its own action |
| `LegacyStore.InitialStateZero` | src/contexts/GardenContext.tsx:34-48 | initially zero readings, both flags off and no alerts |
| `LegacyStore.UpdateReplaces` | src/contexts/GardenContext.tsx:52-56 | UPDATE_SENSOR_DATA replaces the whole reading record and nothing else |
| `LegacyStore.TogglesInvolutive` | src/contexts/GardenContext.tsx:57-71 | each toggle negates only its own flag and undoes itself |
| `LegacyStore.AddAlertPrepends` | src/contexts/GardenContext.tsx:62-66 | the new alert comes first, followed by the old list |
| `LegacyStore.UnknownUnchanged` | src/contexts/GardenContext.tsx:72-73 | an unknown action returns the state unchanged |
| `LegacyStore.AlertsAccumulate` | src/contexts/GardenContext.tsx:62-66 | alerts are only ever added: after any actions the old alerts form the tail, preceded by one alert per ADD_ALERT |
| `LegacyExport.Cells` | src/utils/exportData.ts:31-39 | a record has seven cells like the header, the first being the rendered date |
| `LegacyExport.CsvLines` | src/utils/exportData.ts:42-45 | the text is the header line then one line per record, in order |
| `LegacyExport.RecordFields` | src/utils/exportData.ts:31-44 | a record line reads back as its seven cells when none contains a comma, and as more than seven fields when the rendered date contains one |
| `LegacyExport.ExportJson` | src/utils/exportData.ts:62-65 | the JSON export has one element per record |
| `LegacyExport.JsonChangesOnlyTimestamp` | src/utils/exportData.ts:62-65 | each exported record has its timestamp re-rendered and every other member unchanged, in the original order |
| `LegacyHistory.RangeDays` | src/hooks/useSensorHistory.ts:37-41 | the range maps to 1, 7 or 30 days |
| `LegacyHistory.InWindow` | src/hooks/useSensorHistory.ts:63 | each point no older than the range is kept exactly as often as it occurs; older points are dropped; nothing is added |
| `LegacyHistory.Load` | src/hooks/useSensorHistory.ts:30-79 | per run of the fetch, data from the sample source is the sample generator's output for the range |
| `LegacyHistory.LoadSpec` | src/hooks/useSensorHistory.ts:44-72 | per run of the fetch: development builds never read storage; a non-array or a rejected read falls back to samples; otherwise every stored point inside the range appears exactly as often as it is stored, nothing else appears, and the data ascends by time |
| `LegacyHistory.ChartOf` | src/hooks/useSensorHistory.ts:98-104 | each chart value is a whole number of tenths within half a tenth of the reading (or of the N/P/K mean) |
| `LegacyHistory.ChartView` | src/hooks/useSensorHistory.ts:98-110 | one chart point per loaded point, in order; `isEmpty` iff there are none |
| `LegacyHistory.LabelsByRange` | src/hooks/useSensorHistory.ts:84-90 | labels are clock times in the 24-hour range and dates otherwise |
| `LegacySample.Point` | src/utils/generateSampleData.ts:19-51 | the point of loop index i is i half-hours before now, with temperature, humidity and moisture clamped |
| `LegacySample.Generated` | src/utils/generateSampleData.ts:13-55 | one point per loop index, from the oldest to the newest |
| `LegacySample.GeneratedTimeline` | src/utils/generateSampleData.ts:16-20 | 48 points per day, half an hour apart, strictly increasing, ending at now |
| `LegacySample.NutrientsUnclamped` | src/utils/generateSampleData.ts:40-50 | nutrients are base plus noise with no clamp, but the missing clamp is never observable: with `Math.random()` draws in [0, 1), every nutrient lies strictly between 37.5 and 52.5 |
| `OfflineQueue.Enqueue` | src/hooks/useBackgroundSync.ts:72-88 | queueing is refused online; offline it appends the action stamped now, or fails with the error recorded and the queue unchanged |
| `OfflineQueue.EnqueueKeys` | src/hooks/useIndexedDB.ts:50-63 | queueing keeps timestamps distinct; with the store open, an offline enqueue fails iff the timestamp is already queued |
| `OfflineQueue.Process` | src/hooks/useBackgroundSync.ts:23-69 | per run of `processQueue`: nothing happens offline; online the pending flag always ends false; a failed read touches neither the queue nor the handled list |
| `OfflineQueue.ProcessGuards` | src/hooks/useBackgroundSync.ts:25-34 | processing runs only online; a failed read records the error; an empty queue is left untouched |
| `OfflineQueue.ProcessOnline` | src/hooks/useBackgroundSync.ts:36-62 | within one run of `processQueue`, each queued action is visited once, in ascending timestamp order; the queue is cleared whenever the final clear succeeds, whatever the actions did |
| `OfflineQueue.OrderByTimestamp` | src/hooks/useBackgroundSync.ts:37-40 | with distinct keys the processing order is strictly increasing in time |
| `OfflineQueue.StrictSort` | src/hooks/useBackgroundSync.ts:37 | sorting actions with distinct timestamps orders them strictly |

## Left out

- The HTTP and socket servers themselves are left out: Express, CORS, body parsing, `server.listen`, the `ws` library and the MySQL pool (`Backend/src/db.ts`, `Backend/src/config.ts`). They are I/O. The insert is modelled only as an Ok/Fail outcome, and a frame by its parsed value.
- The health route and the history SQL endpoint (`Backend/src/server.ts:142-158`) are left out. They hold no logic beyond an opaque query.
- JSON text encoding is left out (`JSON.stringify`, `JSON.parse` on text, pretty-printing), and so is the ISO rendering of `Date`. Messages are compared as parsed values, and the server time travels as an opaque ISO string.
- Floating point is not modelled. Numbers are reals, so rounding errors, NaN and infinities are out of scope.
- `Common.Round1` models `Number(x.toFixed(1))` with exact reals: magnitude rounded half up, sign restored. The binary floating-point representation that `toFixed` sees is not modelled, and neither is the `-0` that a small negative value rounds to.
- `SocketManager.DecodeUpdate` treats a sensor payload of a known kind but without numeric fields as unrecognised. The source would instead store the non-number in the state. A null or missing payload makes `gardenReducer` read `payload.type` (`Frontend/src/contexts/GardenContext.tsx:86`) on null, which the model does not capture. `dispatch` only queues the action, so the reducer runs during the provider's render, outside `onmessage`'s `try` (`Frontend/src/hooks/useWebSocket.ts:28-52`). The TypeError is thrown at render, and no error boundary catches it. Payloads the relay produces always carry an object with numeric fields (`Pipeline.RelayPayloadDecodes`).
- `SocketManager.Connect` does not model the `console.log` before the socket is created, or the `catch` that only logs when creation throws (`Frontend/src/hooks/useWebSocket.ts:72-74`): creation is taken to succeed, so the held socket is always replaced.
- `SocketManager.ConnectGuard` does not model a `WebSocket` constructor that throws (caught at `Frontend/src/hooks/useWebSocket.ts:72-74`). The model assumes creation succeeds.
- SocketManager.StepInv: the exact invariant (`isConnected` iff the held socket is OPEN) is proved only for events other than StrictMode's development re-run. Under the re-run only the weak invariant holds, and `SocketManager.RerunDesyncs` exhibits the exact one failing.
- SocketManager.RunInv: likewise, the exact invariant is proved for runs without the development re-run (production builds). Runs that include it keep only the weak invariant.
- The socket's CLOSING state and `onerror` are not modelled separately. An error is followed by a close event, which the model handles.
- The loading and error states of the history and trend fetches are left out, because they are network I/O.
- All React rendering is left out: the dashboards, tooltips, charts, popups, valve control and layouts.
- The Blob, object-URL and link-click download steps of both export files are left out, and so is the download file name. They are browser I/O.
- `Frontend/src/hooks/useSensorHistory.ts` is left out. It is random mocking, and History does not use it.
- `src/hooks/useStorageEstimate.ts` is left out because its unit choice rests on a floating-point logarithm.
- Both Settings pages are left out. They are forms over local storage, which is not part of this model.
- Opening the IndexedDB database and its upgrade handler are left out. Only two things are modelled: the timestamp key path, and the rejection of a request when the database is not open.
- `OfflineQueue.Enqueue` uses one clock reading for the action and its store key. The store re-stamps the record with its own `Date.now()` (`src/hooks/useIndexedDB.ts:59`), which in the model is the same instant.
- OfflineQueue.ProcessOnline: the model covers one run of `processQueue`. In the source the effect depends on `getQueue` and `clearQueue` (`src/hooks/useBackgroundSync.ts:69`), which `useIndexedDB` re-creates on every render (`src/hooks/useIndexedDB.ts:50-96`). So the effect runs again after every render while online, including the render caused by its own `setIsPending(true)` (`src/hooks/useBackgroundSync.ts:28`). A second run can read the queue before the first run's clear (`src/hooks/useBackgroundSync.ts:56`) and handle the same actions again. Overlapping runs are not modelled, so "visited once" holds per run only.
- LegacyHistory.Load: the model covers one run of `fetchHistory`. In the source it re-runs whenever `getData` changes (`src/hooks/useSensorHistory.ts:82`), and `useIndexedDB` re-creates `getData` on every render (`src/hooks/useIndexedDB.ts:66`), so sample data is regenerated after every render. Repeated runs are not modelled.
- `OfflineQueue.Process` takes the outcome of handling each action as a parameter. The source only logs, so in practice every action succeeds.
- `SampleData.Generate` and `LegacySample.Generated` take the day count as an integer; a fractional count is not modelled. The `catch` that returns an empty list when `toISOString` throws on an out-of-range date is also not modelled.
- The icon generators and the build and style configuration are left out, because they are tooling.

=== FILE: common.dfy ===
/** Small shared vocabulary: optional values, the N/P/K triple and the
    numeric helpers (clamping, rounding to one decimal) that several
    components of the dashboard use. */
module Common {

  /** A value that may be missing (`null` or `undefined` in the source). */
  datatype Option<+T> = None | Some(value: T) {
    function GetOr(default: T): T {
      match this
      case Some(v) => v
      case None => default
    }
  }

  /** Nitrogen, phosphorus and potassium readings, in ppm. */
  datatype Npk = Npk(nitrogen: real, phosphorus: real, potassium: real)

  const ZeroNpk: Npk := Npk(0.0, 0.0, 0.0)

  /** `Math.max(lo, Math.min(hi, x))`. */
  function Clamp(lo: real, hi: real, x: real): (r: real)
    requires lo <= hi
    ensures lo <= r <= hi
    ensures lo <= x <= hi ==> r == x
    ensures x < lo ==> r == lo
    ensures hi < x ==> r == hi
  {
    if x < lo then lo else if hi < x then hi else x
  }

  /** `r` is a whole number of tenths. */
  predicate Tenth(r: real) {
    (r * 10.0).Floor as real == r * 10.0
  }

  /** The multiple of 0.1 nearest to a non-negative `x`, ties going up. */
  function RoundHalfUp(x: real): (r: real)
    requires x >= 0.0
    ensures Tenth(r)
    ensures 0.0 <= r
    ensures x - 0.05 < r <= x + 0.05
  {
    (x * 10.0 + 0.5).Floor as real / 10.0
  }

  /** The number `Number(x.toFixed(1))`: `toFixed` rounds the magnitude to
      the nearest tenth, ties going up, and then restores the sign, so ties
      go away from zero (exact arithmetic; floating point is not modelled). */
  function Round1(x: real): (r: real)
    ensures Tenth(r)
    ensures x >= 0.0 ==> x - 0.05 < r <= x + 0.05
    ensures x < 0.0 ==> x - 0.05 <= r < x + 0.05
  {
    if x < 0.0 then TenthNeg(RoundHalfUp(-x)); -RoundHalfUp(-x) else RoundHalfUp(x)
  }

  lemma TenthNeg(r: real)
    requires Tenth(r)
    ensures Tenth(-r)
  {
    var n := (r * 10.0).Floor;
    assert -r * 10.0 == (-n) as real;
  }

  /** Rounding is symmetric about zero: `(-x).toFixed(1)` is `x.toFixed(1)`
      with a minus sign. */
  lemma Round1Odd(x: real)
    ensures Round1(-x) == -Round1(x)
  {
    if x == 0.0 {
      assert Round1(0.0) == 0.0 by {
        assert (0.0 * 10.0 + 0.5).Floor == 0;
      }
    }
  }

  /** Rounding to a tenth keeps a value inside any interval whose ends are
      whole tenths: the clamp bounds of the sample generator stay valid after
      `roundToDecimal`. */
  lemma Round1Within(lo: int, hi: int, x: real)
    requires lo as real / 10.0 <= x <= hi as real / 10.0
    ensures lo as real / 10.0 <= Round1(x) <= hi as real / 10.0
  {
    if x >= 0.0 {
      HalfUpWithin(lo, hi, x);
    } else {
      HalfUpWithin(-hi, -lo, -x);
    }
  }

  lemma HalfUpWithin(lo: int, hi: int, x: real)
    requires 0.0 <= x && lo as real / 10.0 <= x <= hi as real / 10.0
    ensures lo as real / 10.0 <= RoundHalfUp(x) <= hi as real / 10.0
  {
    var f := (x * 10.0 + 0.5).Floor;
    assert lo as real <= x * 10.0 <= hi as real;
    assert lo <= f by {
      assert (lo as real) <= x * 10.0 + 0.5;
    }
    assert f <= hi by {
      assert x * 10.0 + 0.5 < hi as real + 1.0;
    }
  }
}

=== FILE: csv.dfy ===
/** Comma-separated text as both export utilities build it:
    `[header.join(','), ...rows.map(r => r.join(','))].join('\n')`.
    No cell is quoted or escaped. `Split` is the reading side: the fields a
    CSV reader that knows no quoting recovers from a line. */
module Csv {

  /** `parts.join(sep)`; the empty list joins to the empty string. */
  function Join(parts: seq<string>, sep: char): string
    decreases |parts|
  {
    if |parts| == 0 then ""
    else if |parts| == 1 then parts[0]
    else parts[0] + [sep] + Join(parts[1..], sep)
  }

  /** `s.split(sep)`: the pieces between separators, always at least one. */
  function Split(s: string, sep: char): (r: seq<string>)
    ensures |r| >= 1
    decreases |s|
  {
    if |s| == 0 then [""]
    else
      var rest := Split(s[1..], sep);
      if s[0] == sep then [""] + rest
      else [[s[0]] + rest[0]] + rest[1..]
  }

  /** Number of occurrences of `c` in `s`. */
  function Count(s: string, c: char): nat
    decreases |s|
  {
    if |s| == 0 then 0 else (if s[0] == c then 1 else 0) + Count(s[1..], c)
  }

  function CountAll(parts: seq<string>, c: char): nat
    decreases |parts|
  {
    if |parts| == 0 then 0 else Count(parts[0], c) + CountAll(parts[1..], c)
  }

  /** The whole document: header line, then one line per row, joined by a
      newline with no trailing newline. */
  function Document(header: seq<string>, rows: seq<seq<string>>): (text: string)
  {
    Join([Join(header, ',')] + Lines(rows), '\n')
  }

  function Lines(rows: seq<seq<string>>): (ls: seq<string>)
    ensures |ls| == |rows|
    ensures forall i :: 0 <= i < |rows| ==> ls[i] == Join(rows[i], ',')
  {
    seq(|rows|, i requires 0 <= i < |rows| => Join(rows[i], ','))
  }

  lemma {:induction false} CountAppend(a: string, b: string, c: char)
    ensures Count(a + b, c) == Count(a, c) + Count(b, c)
    decreases |a|
  {
    if |a| > 0 {
      assert (a + b)[1..] == a[1..] + b;
      CountAppend(a[1..], b, c);
    } else {
      assert a + b == b;
    }
  }

  /** The number of pieces is one more than the number of separators. */
  lemma {:induction false} SplitLength(s: string, sep: char)
    ensures |Split(s, sep)| == Count(s, sep) + 1
    decreases |s|
  {
    if |s| > 0 {
      SplitLength(s[1..], sep);
    }
  }

  /** Joining adds one separator between consecutive parts. */
  lemma {:induction false} JoinCount(parts: seq<string>, sep: char)
    requires |parts| >= 1
    ensures Count(Join(parts, sep), sep) == CountAll(parts, sep) + |parts| - 1
    decreases |parts|
  {
    if |parts| == 1 {
      assert CountAll(parts[1..], sep) == 0;
    } else {
      JoinCount(parts[1..], sep);
      var rest := Join(parts[1..], sep);
      assert Join(parts, sep) == parts[0] + ([sep] + rest);
      CountAppend(parts[0], [sep] + rest, sep);
      CountAppend([sep], Join(parts[1..], sep), sep);
      assert Count([sep], sep) == 1 by {
        assert [sep][1..] == [];
      }
    }
  }

  lemma {:induction false} SplitPlain(x: string, sep: char)
    requires sep !in x
    ensures Split(x, sep) == [x]
    decreases |x|
  {
    if |x| > 0 {
      SplitPlain(x[1..], sep);
      assert [x[0]] + x[1..] == x;
    }
  }

  lemma {:induction false} SplitAfter(x: string, y: string, sep: char)
    requires sep !in x
    ensures Split(x + [sep] + y, sep) == [x] + Split(y, sep)
    decreases |x|
  {
    var s := x + [sep] + y;
    if |x| == 0 {
      assert s[1..] == y;
    } else {
      assert s[1..] == x[1..] + [sep] + y;
      SplitAfter(x[1..], y, sep);
      assert [x[0]] + x[1..] == x;
    }
  }

  lemma {:induction false} NotInCount(x: string, c: char)
    requires Count(x, c) == 0
    ensures c !in x
    decreases |x|
  {
    if |x| > 0 {
      NotInCount(x[1..], c);
      assert x == [x[0]] + x[1..];
    }
  }

  lemma {:induction false} InCount(x: string, c: char)
    requires c !in x
    ensures Count(x, c) == 0
    decreases |x|
  {
    if |x| > 0 {
      assert x == [x[0]] + x[1..];
      InCount(x[1..], c);
    }
  }

  /** Round trip: when no part contains the separator, splitting the join
      gives back exactly the parts. */
  lemma {:induction false} SplitJoin(parts: seq<string>, sep: char)
    requires |parts| >= 1
    requires forall i :: 0 <= i < |parts| ==> sep !in parts[i]
    ensures Split(Join(parts, sep), sep) == parts
    decreases |parts|
  {
    if |parts| == 1 {
      SplitPlain(parts[0], sep);
    } else {
      SplitJoin(parts[1..], sep);
      SplitAfter(parts[0], Join(parts[1..], sep), sep);
      assert parts == [parts[0]] + parts[1..];
    }
  }

  lemma {:induction false} CountAllPositive(parts: seq<string>, k: int, c: char)
    requires 0 <= k < |parts| && c in parts[k]
    ensures CountAll(parts, c) >= 1
    decreases |parts|
  {
    if k == 0 {
      if Count(parts[0], c) == 0 {
        NotInCount(parts[0], c);
      }
    } else {
      CountAllPositive(parts[1..], k - 1, c);
    }
  }

  /** Without quoting, a part that contains the separator makes a reader
      see more pieces than were joined. */
  lemma SplitJoinOverflow(parts: seq<string>, sep: char, k: int)
    requires 0 <= k < |parts| && sep in parts[k]
    ensures |Split(Join(parts, sep), sep)| > |parts|
  {
    SplitLength(Join(parts, sep), sep);
    JoinCount(parts, sep);
    CountAllPositive(parts, k, sep);
  }

  /** A line joined from cells that avoid `c` avoids `c`, when `c` is not
      the comma. */
  lemma {:induction false} JoinAvoids(cells: seq<string>, c: char)
    requires c != ','
    requires forall k :: 0 <= k < |cells| ==> c !in cells[k]
    ensures c !in Join(cells, ',')
    decreases |cells|
  {
    if |cells| > 1 {
      JoinAvoids(cells[1..], c);
    }
  }

  /** The document reads back as its header line followed by one line per
      row, in order, when no cell holds a line break. */
  lemma DocumentLines(header: seq<string>, rows: seq<seq<string>>)
    requires forall k :: 0 <= k < |header| ==> '\n' !in header[k]
    requires forall i, k :: 0 <= i < |rows| && 0 <= k < |rows[i]| ==> '\n' !in rows[i][k]
    ensures Split(Document(header, rows), '\n') == [Join(header, ',')] + Lines(rows)
    ensures |Split(Document(header, rows), '\n')| == |rows| + 1
  {
    var lines := [Join(header, ',')] + Lines(rows);
    JoinAvoids(header, '\n');
    forall i | 0 <= i < |lines|
      ensures '\n' !in lines[i]
    {
      if i > 0 {
        assert lines[i] == Join(rows[i - 1], ',');
        JoinAvoids(rows[i - 1], '\n');
      }
    }
    SplitJoin(lines, '\n');
  }
}

=== FILE: export.dfy ===
/** The export utilities of the current frontend
    (Frontend/src/utils/exportData.ts): the CSV text and the JSON document
    built from flat history records. The download steps (Blob, object URL,
    link click) are left out. */
module ExportCsv {
  import opened Common
  import opened JsonValue
  import Csv

  /** One record as History hands it over: the formatted bucket label and
      each reading or null. */
  datatype ExportRow = ExportRow(timestamp: string, temperature: Option<real>, humidity: Option<real>,
                                 moistureA: Option<real>, moistureB: Option<real>, nitrogen: Option<real>,
                                 phosphorus: Option<real>, potassium: Option<real>)

  const Header: seq<string> :=
    ["Timestamp", "Temperature (°C)", "Humidity (%)", "Moisture A (%)", "Moisture B (%)",
     "Nitrogen (ppm)", "Phosphorus (ppm)", "Potassium (ppm)"]

  /** `formatValue`: the empty string for null, else `fixed1(v)`, standing
      for `v.toFixed(1)`. */
  function FormatValue(v: Option<real>, fixed1: real -> string): string {
    if v.Some? then fixed1(v.value) else ""
  }

  function Cells(row: ExportRow, fixed1: real -> string): (cells: seq<string>)
    ensures |cells| == |Header|
  {
    [row.timestamp, FormatValue(row.temperature, fixed1), FormatValue(row.humidity, fixed1),
     FormatValue(row.moistureA, fixed1), FormatValue(row.moistureB, fixed1),
     FormatValue(row.nitrogen, fixed1), FormatValue(row.phosphorus, fixed1),
     FormatValue(row.potassium, fixed1)]
  }

  /** The readings of a row in column order after the timestamp. */
  function Readings(row: ExportRow): seq<Option<real>> {
    [row.temperature, row.humidity, row.moistureA, row.moistureB, row.nitrogen, row.phosphorus, row.potassium]
  }

  function CellTable(rows: seq<ExportRow>, fixed1: real -> string): (t: seq<seq<string>>)
    ensures |t| == |rows|
    ensures forall i :: 0 <= i < |rows| ==> t[i] == Cells(rows[i], fixed1)
  {
    seq(|rows|, i requires 0 <= i < |rows| => Cells(rows[i], fixed1))
  }

  /** `csvContent` of `exportToCSV`. */
  function CsvContent(rows: seq<ExportRow>, fixed1: real -> string): string {
    Csv.Document(Header, CellTable(rows, fixed1))
  }

  /** No cell of the row contains `c` (the number renderer never emits it). */
  predicate CellsAvoid(row: ExportRow, fixed1: real -> string, c: char) {
    forall k :: 0 <= k < |Header| ==> c !in Cells(row, fixed1)[k]
  }

  lemma HeaderAvoids()
    ensures forall k :: 0 <= k < |Header| ==> ',' !in Header[k] && '\n' !in Header[k]
  {
  }

  /** The document splits into the header line followed by one line per
      record, in order, when no cell contains a newline. An empty export is
      the header line alone. */
  lemma CsvLines(rows: seq<ExportRow>, fixed1: real -> string)
    requires forall i :: 0 <= i < |rows| ==> CellsAvoid(rows[i], fixed1, '\n')
    ensures Csv.Split(CsvContent(rows, fixed1), '\n') ==
      [Csv.Join(Header, ',')] + Csv.Lines(CellTable(rows, fixed1))
    ensures |Csv.Split(CsvContent(rows, fixed1), '\n')| == |rows| + 1
    ensures rows == [] ==> CsvContent(rows, fixed1) == Csv.Join(Header, ',')
  {
    HeaderAvoids();
    var table := CellTable(rows, fixed1);
    forall i, k | 0 <= i < |table| && 0 <= k < |table[i]|
      ensures '\n' !in table[i][k]
    {
      assert table[i] == Cells(rows[i], fixed1);
    }
    Csv.DocumentLines(Header, table);
  }

  /** A record line reads back as exactly its eight cells when no cell
      contains a comma. */
  lemma RowFields(row: ExportRow, fixed1: real -> string)
    requires CellsAvoid(row, fixed1, ',')
    ensures Csv.Split(Csv.Join(Cells(row, fixed1), ','), ',') == Cells(row, fixed1)
    ensures |Csv.Split(Csv.Join(Cells(row, fixed1), ','), ',')| == 8
  {
    Csv.SplitJoin(Cells(row, fixed1), ',');
  }

  /** Cells are not quoted: a timestamp label containing a comma (the
      locale format "Apr 23, 10:50 AM" does) gives a line with more than
      eight fields. */
  lemma CommaBreaksRow(row: ExportRow, fixed1: real -> string)
    requires ',' in row.timestamp
    ensures |Csv.Split(Csv.Join(Cells(row, fixed1), ','), ',')| > 8
  {
    Csv.SplitJoinOverflow(Cells(row, fixed1), ',', 0);
  }

  /** A reading cell is empty exactly when the reading is null, given that
      the number renderer never returns the empty string. */
  lemma FormatValueEmpty(row: ExportRow, fixed1: real -> string, k: int)
    requires forall x :: fixed1(x) != ""
    requires 0 <= k < 7
    ensures Cells(row, fixed1)[k + 1] == "" <==> Readings(row)[k].None?
    ensures Readings(row)[k].Some? ==> Cells(row, fixed1)[k + 1] == fixed1(Readings(row)[k].value)
  {
    var v := Readings(row)[k];
    assert Cells(row, fixed1)[k + 1] == FormatValue(v, fixed1);
    NullCell(v, fixed1);
  }

  lemma NullCell(v: Option<real>, fixed1: real -> string)
    requires forall x :: fixed1(x) != ""
    ensures FormatValue(v, fixed1) == "" <==> v.None?
  {
    if v.Some? {
      var y: real := v.value;
      assert fixed1(y) != "";
    }
  }

  // ---------------------------------------------------------------------
  // JSON export

  function NumOrNull(v: Option<real>): Json {
    if v.Some? then JNum(v.value) else JNull
  }

  /** One record as `JSON.stringify` writes it. */
  function RowJson(row: ExportRow): Json {
    JObj([("timestamp", JStr(row.timestamp)), ("temperature", NumOrNull(row.temperature)),
          ("humidity", NumOrNull(row.humidity)), ("moistureA", NumOrNull(row.moistureA)),
          ("moistureB", NumOrNull(row.moistureB)), ("nitrogen", NumOrNull(row.nitrogen)),
          ("phosphorus", NumOrNull(row.phosphorus)), ("potassium", NumOrNull(row.potassium))])
  }

  /** The document of `exportToJSON`: the records as an array, in order. */
  function ExportJson(rows: seq<ExportRow>): (doc: Json)
    ensures doc.JArr? && |doc.items| == |rows|
  {
    JArr(seq(|rows|, i requires 0 <= i < |rows| => RowJson(rows[i])))
  }

  /** Reading a number-or-null member back. */
  function ReadingOf(x: Option<Json>): Option<Option<real>> {
    if x == Some(JNull) then Some(None)
    else if IsNumber(x) then Some(Some(x.value.n))
    else None
  }

  /** A reader for one exported record. */
  function RowFromJson(j: Json): Option<ExportRow> {
    var ts := Get(j, "timestamp");
    var t := ReadingOf(Get(j, "temperature"));
    var h := ReadingOf(Get(j, "humidity"));
    var a := ReadingOf(Get(j, "moistureA"));
    var b := ReadingOf(Get(j, "moistureB"));
    var n := ReadingOf(Get(j, "nitrogen"));
    var p := ReadingOf(Get(j, "phosphorus"));
    var k := ReadingOf(Get(j, "potassium"));
    if ts.Some? && ts.value.JStr? && t.Some? && h.Some? && a.Some? && b.Some? && n.Some? && p.Some? && k.Some? then
      Some(ExportRow(ts.value.s, t.value, h.value, a.value, b.value, n.value, p.value, k.value))
    else None
  }

  lemma ReadingRoundTrip(v: Option<real>)
    ensures ReadingOf(Some(NumOrNull(v))) == Some(v)
  {
  }

  lemma RowKeysDistinct(row: ExportRow)
    ensures DistinctKeys(RowJson(row).fields)
  {
  }

  /** The timestamp and climate members of a written record read back by
      their keys. */
  lemma ClimateReads(row: ExportRow)
    ensures Get(RowJson(row), "timestamp") == Some(JStr(row.timestamp))
    ensures Get(RowJson(row), "temperature") == Some(NumOrNull(row.temperature))
    ensures Get(RowJson(row), "humidity") == Some(NumOrNull(row.humidity))
  {
    var fs := RowJson(row).fields;
    RowKeysDistinct(row);
    FindDistinct(fs, 0);
    FindDistinct(fs, 1);
    FindDistinct(fs, 2);
  }

  /** The soil members of a written record read back by their keys. */
  lemma SoilReads(row: ExportRow)
    ensures Get(RowJson(row), "moistureA") == Some(NumOrNull(row.moistureA))
    ensures Get(RowJson(row), "moistureB") == Some(NumOrNull(row.moistureB))
    ensures Get(RowJson(row), "nitrogen") == Some(NumOrNull(row.nitrogen))
    ensures Get(RowJson(row), "phosphorus") == Some(NumOrNull(row.phosphorus))
    ensures Get(RowJson(row), "potassium") == Some(NumOrNull(row.potassium))
  {
    var fs := RowJson(row).fields;
    RowKeysDistinct(row);
    FindDistinct(fs, 3);
    FindDistinct(fs, 4);
    FindDistinct(fs, 5);
    FindDistinct(fs, 6);
    FindDistinct(fs, 7);
  }

  /** Round trip of one record: every member reads back unchanged. */
  lemma RowRoundTrip(row: ExportRow)
    ensures RowFromJson(RowJson(row)) == Some(row)
  {
    ClimateReads(row);
    SoilReads(row);
    ReadingRoundTrip(row.temperature);
    ReadingRoundTrip(row.humidity);
    ReadingRoundTrip(row.moistureA);
    ReadingRoundTrip(row.moistureB);
    ReadingRoundTrip(row.nitrogen);
    ReadingRoundTrip(row.phosphorus);
    ReadingRoundTrip(row.potassium);
  }

  /** `exportToJSON` keeps every record, unchanged and in order. */
  lemma ExportJsonRoundTrip(rows: seq<ExportRow>)
    ensures forall i :: 0 <= i < |rows| ==> RowFromJson(ExportJson(rows).items[i]) == Some(rows[i])
  {
    forall i | 0 <= i < |rows|
      ensures RowFromJson(ExportJson(rows).items[i]) == Some(rows[i])
    {
      RowRoundTrip(rows[i]);
    }
  }
}

=== FILE: history.dfy ===
/** `processRawData` of the History page (Frontend/src/pages/History.tsx):
    raw rows are sorted by time, then merged into one entry per display
    label, and the entries are sorted by date. The label is the locale
    rendering of a timestamp to the minute, given here as the parameter
    `bucket`. Also the export-row mapping of `handleExport`. */
module HistoryBuckets {
  import opened Common
  import opened RawHistory
  import opened Sorting
  import opened JsonValue
  import Csv
  import ExportCsv

  /** One chart point: its label, the date of the row that created it, and
      the readings merged into it. N, P and K start at zero; the others
      start missing. */
  datatype Entry = Entry(timestamp: string, date: int, temperature: Option<real>, humidity: Option<real>,
                         moistureA: Option<real>, moistureB: Option<real>, npk: Npk)

  function Date(e: Entry): int {
    e.date
  }

  /** The value an entry holds for a series. */
  function Value(e: Entry, s: Series): Option<real> {
    match s
    case Temperature => e.temperature
    case Humidity => e.humidity
    case MoistureA => e.moistureA
    case MoistureB => e.moistureB
    case Nitrogen => Some(e.npk.nitrogen)
    case Phosphorus => Some(e.npk.phosphorus)
    case Potassium => Some(e.npk.potassium)
  }

  /** The value of a series in a freshly created entry. */
  function Initial(s: Series): Option<real> {
    if s == Nitrogen || s == Phosphorus || s == Potassium then Some(0.0) else None
  }

  function NewEntry(stamp: string, date: int): (e: Entry)
    ensures e.timestamp == stamp && e.date == date
    ensures forall s :: Value(e, s) == Initial(s)
  {
    Entry(stamp, date, None, None, None, None, ZeroNpk)
  }

  /** The `switch (point.sensor_type)` applied to an entry: every series
      the row carries a non-null reading for is overwritten, every other one
      is kept. */
  function Merge(e: Entry, p: RawPoint): (r: Entry)
    ensures r.timestamp == e.timestamp && r.date == e.date
    ensures forall s :: Value(r, s) == if Reading(p, s).Some? then Reading(p, s) else Value(e, s)
  {
    if p.sensorType == "moisture" then
      e.(moistureA := if p.sensorId == Some("A") && p.value1.Some? then p.value1 else e.moistureA,
         moistureB := if p.sensorId == Some("B") && p.value1.Some? then p.value1 else e.moistureB)
    else if p.sensorType == "dht11" then
      e.(temperature := if p.value1.Some? then p.value1 else e.temperature,
         humidity := if p.value2.Some? then p.value2 else e.humidity)
    else if p.sensorType == "npk" then
      e.(npk := Npk(p.value1.GetOr(e.npk.nitrogen), p.value2.GetOr(e.npk.phosphorus),
                    p.value3.GetOr(e.npk.potassium)))
    else e
  }

  /** The position of the entry with this stamp (the `Map.get`). */
  function IndexOf(es: seq<Entry>, stamp: string): (r: Option<nat>)
    ensures r.Some? ==> r.value < |es| && es[r.value].timestamp == stamp
    ensures r.None? ==> forall i :: 0 <= i < |es| ==> es[i].timestamp != stamp
  {
    if |es| == 0 then None
    else if es[|es| - 1].timestamp == stamp then Some(|es| - 1)
    else IndexOf(es[..|es| - 1], stamp)
  }

  /** One iteration of the `forEach`: find or create the entry of the
      row's stamp (a new entry goes last, as a `Map` keeps insertion
      order), then merge the row into it. */
  function Absorb(es: seq<Entry>, p: RawPoint, bucket: int -> string): seq<Entry> {
    var stamp := bucket(p.time);
    match IndexOf(es, stamp)
    case Some(i) => es[i := Merge(es[i], p)]
    case None => es + [Merge(NewEntry(stamp, p.time), p)]
  }

  /** The entries after absorbing every row in order. */
  function Bucketize(ps: seq<RawPoint>, bucket: int -> string): seq<Entry>
    decreases |ps|
  {
    if |ps| == 0 then [] else Absorb(Bucketize(ps[..|ps| - 1], bucket), ps[|ps| - 1], bucket)
  }

  /** `processRawData`: the caller's array is left sorted (the sort is in
      place), and the entries are returned sorted by date. */
  function Process(raw: seq<RawPoint>, bucket: int -> string): (seq<RawPoint>, seq<Entry>) {
    var sorted := SortBy(raw, Time);
    (sorted, SortBy(Bucketize(sorted, bucket), Date))
  }

  // ---------------------------------------------------------------------
  // Reference definitions, stated over the rows alone

  /** The time of the first row with this stamp, if any. */
  function FirstTime(ps: seq<RawPoint>, bucket: int -> string, stamp: string): Option<int>
    decreases |ps|
  {
    if |ps| == 0 then None
    else
      var earlier := FirstTime(ps[..|ps| - 1], bucket, stamp);
      if earlier.Some? then earlier
      else if bucket(ps[|ps| - 1].time) == stamp then Some(ps[|ps| - 1].time)
      else None
  }

  /** The last non-null reading of series `s` among the rows with this
      stamp, if any. */
  function Latest(ps: seq<RawPoint>, bucket: int -> string, stamp: string, s: Series): Option<real>
    decreases |ps|
  {
    if |ps| == 0 then None
    else
      var p := ps[|ps| - 1];
      if bucket(p.time) == stamp && Reading(p, s).Some? then Reading(p, s)
      else Latest(ps[..|ps| - 1], bucket, stamp, s)
  }

  /** What an entry should hold: the latest non-null reading, or the
      initial value when there is none. */
  function Expected(ps: seq<RawPoint>, bucket: int -> string, stamp: string, s: Series): Option<real> {
    var l := Latest(ps, bucket, stamp, s);
    if l.Some? then l else Initial(s)
  }

  ghost predicate UniqueLabels(es: seq<Entry>) {
    forall i, j :: 0 <= i < j < |es| ==> es[i].timestamp != es[j].timestamp
  }

  /** Every stamp some row has owns an entry, and every entry's stamp is
      some row's stamp, dated by the first such row. */
  ghost predicate Covers(es: seq<Entry>, ps: seq<RawPoint>, bucket: int -> string) {
    && (forall stamp :: FirstTime(ps, bucket, stamp).Some? ==> IndexOf(es, stamp).Some?)
    && (forall i :: 0 <= i < |es| ==> FirstTime(ps, bucket, es[i].timestamp) == Some(es[i].date))
  }

  ghost predicate Faithful(es: seq<Entry>, ps: seq<RawPoint>, bucket: int -> string) {
    forall i, s :: 0 <= i < |es| ==> Value(es[i], s) == Expected(ps, bucket, es[i].timestamp, s)
  }

  // ---------------------------------------------------------------------
  // Facts about the reference definitions

  lemma {:induction false} NoLabelNoReading(ps: seq<RawPoint>, bucket: int -> string, stamp: string, s: Series)
    requires FirstTime(ps, bucket, stamp).None?
    ensures Latest(ps, bucket, stamp, s).None?
    decreases |ps|
  {
    if |ps| > 0 {
      NoLabelNoReading(ps[..|ps| - 1], bucket, stamp, s);
    }
  }

  lemma {:induction false} FirstTimeBound(ps: seq<RawPoint>, bucket: int -> string, stamp: string, bound: int)
    requires forall k :: 0 <= k < |ps| ==> ps[k].time <= bound
    ensures FirstTime(ps, bucket, stamp).Some? ==> FirstTime(ps, bucket, stamp).value <= bound
    decreases |ps|
  {
    if |ps| > 0 {
      FirstTimeBound(ps[..|ps| - 1], bucket, stamp, bound);
    }
  }

  /** Every row's stamp has a first time. */
  lemma {:induction false} FirstTimeOfRow(ps: seq<RawPoint>, bucket: int -> string, k: int)
    requires 0 <= k < |ps|
    ensures FirstTime(ps, bucket, bucket(ps[k].time)).Some?
    decreases |ps|
  {
    if k < |ps| - 1 {
      FirstTimeOfRow(ps[..|ps| - 1], bucket, k);
    }
  }

  // ---------------------------------------------------------------------
  // One step of the loop keeps the invariants

  lemma AbsorbUnique(es: seq<Entry>, p: RawPoint, bucket: int -> string)
    requires UniqueLabels(es)
    ensures UniqueLabels(Absorb(es, p, bucket))
    ensures |Absorb(es, p, bucket)| <= |es| + 1
  {
  }

  lemma AbsorbCovers(es: seq<Entry>, ps: seq<RawPoint>, p: RawPoint, bucket: int -> string)
    requires Covers(es, ps, bucket)
    ensures Covers(Absorb(es, p, bucket), ps + [p], bucket)
  {
    var ps' := ps + [p];
    var es' := Absorb(es, p, bucket);
    assert ps'[..|ps'| - 1] == ps;
    forall stamp | FirstTime(ps', bucket, stamp).Some?
      ensures IndexOf(es', stamp).Some?
    {
      if stamp != bucket(p.time) {
        var i := IndexOf(es, stamp).value;
        assert es'[i].timestamp == stamp;
      } else {
        match IndexOf(es, stamp)
        case Some(i) => assert es'[i].timestamp == stamp;
        case None => assert es'[|es|].timestamp == stamp;
      }
    }
  }

  lemma AbsorbFaithful(es: seq<Entry>, ps: seq<RawPoint>, p: RawPoint, bucket: int -> string)
    requires UniqueLabels(es) && Covers(es, ps, bucket) && Faithful(es, ps, bucket)
    ensures Faithful(Absorb(es, p, bucket), ps + [p], bucket)
  {
    var ps' := ps + [p];
    var es' := Absorb(es, p, bucket);
    var stamp := bucket(p.time);
    assert ps'[..|ps'| - 1] == ps;
    forall i, s | 0 <= i < |es'|
      ensures Value(es'[i], s) == Expected(ps', bucket, es'[i].timestamp, s)
    {
      assert Latest(ps', bucket, es'[i].timestamp, s) ==
        if bucket(p.time) == es'[i].timestamp && Reading(p, s).Some? then Reading(p, s)
        else Latest(ps, bucket, es'[i].timestamp, s);
      match IndexOf(es, stamp)
      case Some(j) =>
        if i == j {
          assert es'[i] == Merge(es[i], p);
        } else {
          assert es'[i] == es[i];
          assert es[i].timestamp != stamp;
        }
      case None =>
        if i == |es| {
          assert FirstTime(ps, bucket, stamp).None?;
          NoLabelNoReading(ps, bucket, stamp, s);
          assert es'[i] == Merge(NewEntry(stamp, p.time), p);
        } else {
          assert es'[i] == es[i];
        }
    }
  }

  /** With rows in time order, dates stay in order: a new entry is dated by
      the newest row, and every existing date is some earlier row's time. */
  lemma AbsorbDates(es: seq<Entry>, ps: seq<RawPoint>, p: RawPoint, bucket: int -> string)
    requires Covers(es, ps, bucket) && SortedBy(es, Date)
    requires forall k :: 0 <= k < |ps| ==> ps[k].time <= p.time
    ensures SortedBy(Absorb(es, p, bucket), Date)
  {
    forall i | 0 <= i < |es|
      ensures es[i].date <= p.time
    {
      FirstTimeBound(ps, bucket, es[i].timestamp, p.time);
    }
  }

  // ---------------------------------------------------------------------
  // The result of the loop

  /** The loop invariant, by induction over the rows. */
  lemma {:induction false} BucketizeSound(ps: seq<RawPoint>, bucket: int -> string)
    ensures UniqueLabels(Bucketize(ps, bucket))
    ensures Covers(Bucketize(ps, bucket), ps, bucket)
    ensures Faithful(Bucketize(ps, bucket), ps, bucket)
    ensures |Bucketize(ps, bucket)| <= |ps|
    ensures SortedBy(ps, Time) ==> SortedBy(Bucketize(ps, bucket), Date)
    decreases |ps|
  {
    if |ps| > 0 {
      var init := ps[..|ps| - 1];
      var p := ps[|ps| - 1];
      assert ps == init + [p];
      BucketizeSound(init, bucket);
      var es := Bucketize(init, bucket);
      AbsorbUnique(es, p, bucket);
      AbsorbCovers(es, init, p, bucket);
      AbsorbFaithful(es, init, p, bucket);
      if SortedBy(ps, Time) {
        assert SortedBy(init, Time);
        assert forall k :: 0 <= k < |init| ==> Time(init[k]) <= Time(p);
        AbsorbDates(es, init, p, bucket);
      }
    }
  }

  /** The properties of `processRawData`: the caller's rows come back
      sorted and permuted only; the entries have one per stamp, every row's
      stamp has exactly one entry, each entry is dated by the earliest row
      of its stamp and holds, per series, the latest non-null reading of
      its stamp (or the initial value); entries are in date order, and the
      final sort leaves the merge order unchanged. */
  lemma ProcessSpec(raw: seq<RawPoint>, bucket: int -> string)
    ensures SortedBy(Process(raw, bucket).0, Time)
    ensures multiset(Process(raw, bucket).0) == multiset(raw)
    ensures Process(raw, bucket).1 == Bucketize(Process(raw, bucket).0, bucket)
    ensures |Process(raw, bucket).1| <= |raw|
    ensures UniqueLabels(Process(raw, bucket).1)
    ensures SortedBy(Process(raw, bucket).1, Date)
    ensures forall k :: 0 <= k < |raw| ==> IndexOf(Process(raw, bucket).1, bucket(raw[k].time)).Some?
    ensures forall i :: 0 <= i < |Process(raw, bucket).1| ==>
      FirstTime(Process(raw, bucket).0, bucket, Process(raw, bucket).1[i].timestamp) == Some(Process(raw, bucket).1[i].date)
    ensures forall i, s :: 0 <= i < |Process(raw, bucket).1| ==>
      Value(Process(raw, bucket).1[i], s) ==
      Expected(Process(raw, bucket).0, bucket, Process(raw, bucket).1[i].timestamp, s)
  {
    var sorted := SortBy(raw, Time);
    var es := Bucketize(sorted, bucket);
    ProcessParts(raw, bucket);
    assert Process(raw, bucket) == (sorted, es);
    BucketizeSound(sorted, bucket);
    RowsCovered(raw, sorted, es, bucket);
  }

  /** The final sort by date leaves the merged entries as they are. */
  lemma ProcessParts(raw: seq<RawPoint>, bucket: int -> string)
    ensures Process(raw, bucket).0 == SortBy(raw, Time)
    ensures Process(raw, bucket).1 == Bucketize(SortBy(raw, Time), bucket)
  {
    var es := Bucketize(SortBy(raw, Time), bucket);
    BucketizeSound(SortBy(raw, Time), bucket);
    SortSorted(es, Date);
  }

  /** Every caller row's stamp owns an entry, since sorting keeps the rows. */
  lemma RowsCovered(raw: seq<RawPoint>, sorted: seq<RawPoint>, es: seq<Entry>, bucket: int -> string)
    requires multiset(sorted) == multiset(raw)
    requires Covers(es, sorted, bucket)
    ensures forall k :: 0 <= k < |raw| ==> IndexOf(es, bucket(raw[k].time)).Some?
  {
    forall k | 0 <= k < |raw|
      ensures IndexOf(es, bucket(raw[k].time)).Some?
    {
      assert raw[k] in multiset(sorted);
      var j :| 0 <= j < |sorted| && sorted[j] == raw[k];
      FirstTimeOfRow(sorted, bucket, j);
    }
  }

  /** Exactly one entry per stamp: a stamp's entry is the only one. */
  lemma OneEntryPerLabel(es: seq<Entry>, i: int, j: int)
    requires UniqueLabels(es)
    requires 0 <= i < |es| && 0 <= j < |es| && es[i].timestamp == es[j].timestamp
    ensures i == j
  {
  }

  // ---------------------------------------------------------------------
  // Export

  /** The series in export column order, after the timestamp. */
  const Columns: seq<Series> := [Temperature, Humidity, MoistureA, MoistureB, Nitrogen, Phosphorus, Potassium]

  /** `dataToExport`'s element: a missing reading becomes null, N/P/K are
      copied from the nested triple. */
  function FlatRow(e: Entry): (r: ExportCsv.ExportRow)
    ensures r.timestamp == e.timestamp
    ensures forall k :: 0 <= k < |Columns| ==> ExportCsv.Readings(r)[k] == Value(e, Columns[k])
  {
    ExportCsv.ExportRow(e.timestamp, e.temperature, e.humidity, e.moistureA, e.moistureB,
                        Some(e.npk.nitrogen), Some(e.npk.phosphorus), Some(e.npk.potassium))
  }

  datatype Format = CsvFormat | JsonFormat

  datatype ExportOutcome = NothingToExport | CsvFile(text: string) | JsonFile(doc: Json)

  function Flatten(es: seq<Entry>): (rows: seq<ExportCsv.ExportRow>)
    ensures |rows| == |es|
    ensures forall i :: 0 <= i < |es| ==> rows[i] == FlatRow(es[i])
  {
    seq(|es|, i requires 0 <= i < |es| => FlatRow(es[i]))
  }

  /** `handleExport`: an empty history only warns; otherwise the flat rows
      go to the CSV or the JSON writer. */
  function HandleExport(es: seq<Entry>, format: Format, fixed1: real -> string): (r: ExportOutcome)
    ensures r.NothingToExport? <==> |es| == 0
    ensures r.CsvFile? <==> |es| > 0 && format == CsvFormat
    ensures r.JsonFile? <==> |es| > 0 && format == JsonFormat
  {
    var rows := Flatten(es);
    if |rows| == 0 then NothingToExport
    else
      match format
      case CsvFormat => CsvFile(ExportCsv.CsvContent(rows, fixed1))
      case JsonFormat => JsonFile(ExportCsv.ExportJson(rows))
  }

  /** A JSON export reads back as one row per entry, in order, with every
      series value of the entry in its column. */
  lemma JsonExportRows(es: seq<Entry>, fixed1: real -> string, i: int, k: int)
    requires 0 <= i < |es| && 0 <= k < |Columns|
    ensures HandleExport(es, JsonFormat, fixed1).JsonFile?
    ensures ExportCsv.RowFromJson(HandleExport(es, JsonFormat, fixed1).doc.items[i]) == Some(FlatRow(es[i]))
    ensures ExportCsv.Readings(FlatRow(es[i]))[k] == Value(es[i], Columns[k])
    ensures FlatRow(es[i]).timestamp == es[i].timestamp
  {
    ExportCsv.ExportJsonRoundTrip(Flatten(es));
  }

  /** A CSV export has one line per entry after the header, when neither a
      stamp nor a rendered number contains a line break. */
  lemma CsvExportLines(es: seq<Entry>, fixed1: real -> string)
    requires |es| > 0
    requires forall i :: 0 <= i < |es| ==> ExportCsv.CellsAvoid(FlatRow(es[i]), fixed1, '\n')
    ensures HandleExport(es, CsvFormat, fixed1).CsvFile?
    ensures |Csv.Split(HandleExport(es, CsvFormat, fixed1).text, '\n')| == |es| + 1
  {
    ExportCsv.CsvLines(Flatten(es), fixed1);
  }
}

=== FILE: json.dfy ===
/** JSON values as the server and the browser see them after `JSON.parse`,
    with JavaScript's property reading, truthiness and object spread. */
module JsonValue {
  import opened Common

  datatype Json =
    | JNull
    | JBool(b: bool)
    | JNum(n: real)
    | JStr(s: string)
    | JArr(items: seq<Json>)
    | JObj(fields: seq<(string, Json)>)

  /** Reading `obj[key]` from the members of a parsed object: the last
      member with that key (JSON.parse keeps the last duplicate), or
      `undefined` (`None`). */
  function Find(fields: seq<(string, Json)>, key: string): (r: Option<Json>)
    ensures r.Some? <==> exists i :: 0 <= i < |fields| && fields[i].0 == key
    ensures r.Some? ==> exists i :: 0 <= i < |fields| && fields[i] == (key, r.value)
    decreases |fields|
  {
    if |fields| == 0 then None
    else if fields[|fields| - 1].0 == key then Some(fields[|fields| - 1].1)
    else
      var r := Find(fields[..|fields| - 1], key);
      assert forall i :: 0 <= i < |fields| - 1 ==> fields[..|fields| - 1][i] == fields[i];
      r
  }

  /** `v.key` for a value that is not null. Only objects have the keys
      this system reads (none of them is inherited from a prototype), so
      every other value yields `undefined`. Reading from `null` throws in
      JavaScript; callers check `ReadThrows` first where the source can
      meet a null. */
  function Get(v: Json, key: string): (r: Option<Json>)
    ensures r.Some? ==> v.JObj?
  {
    match v
    case JObj(fs) => Find(fs, key)
    case _ => None
  }

  /** `x.key` throws a TypeError exactly when `x` is null or undefined. */
  predicate ReadThrows(x: Option<Json>) {
    x.None? || x.value.JNull?
  }

  /** JavaScript truthiness of a parsed value (JSON cannot produce NaN). */
  predicate Truthy(v: Json) {
    match v
    case JNull => false
    case JBool(b) => b
    case JNum(n) => n != 0.0
    case JStr(s) => s != ""
    case _ => true
  }

  /** Truthiness of a value that may be `undefined`. */
  predicate Present(x: Option<Json>) {
    x.Some? && Truthy(x.value)
  }

  /** `typeof x === 'number'`. */
  predicate IsNumber(x: Option<Json>) {
    x.Some? && x.value.JNum?
  }

  /** The members of `{ ...obj, key: v }`: an existing `key` keeps its
      position and takes the new value, otherwise `key` is appended. */
  function With(fields: seq<(string, Json)>, key: string, v: Json): (r: seq<(string, Json)>)
    ensures Find(r, key) == Some(v)
  {
    if exists i :: 0 <= i < |fields| && fields[i].0 == key then
      ReplaceAll(fields, key, v)
    else
      AppendFind(fields, key, v);
      fields + [(key, v)]
  }

  /** Every member named `key` gets value `v`. */
  function ReplaceAll(fields: seq<(string, Json)>, key: string, v: Json): (r: seq<(string, Json)>)
    ensures |r| == |fields|
    ensures forall i :: 0 <= i < |r| ==> r[i].0 == fields[i].0
    ensures forall i :: 0 <= i < |r| && fields[i].0 == key ==> r[i].1 == v
    ensures forall i :: 0 <= i < |r| && fields[i].0 != key ==> r[i] == fields[i]
    decreases |fields|
  {
    if |fields| == 0 then []
    else
      var last := fields[|fields| - 1];
      ReplaceAll(fields[..|fields| - 1], key, v) + [if last.0 == key then (key, v) else last]
  }

  lemma AppendFind(fields: seq<(string, Json)>, key: string, v: Json)
    ensures Find(fields + [(key, v)], key) == Some(v)
  {
    assert (fields + [(key, v)])[|fields|] == (key, v);
  }

  /** Overriding one key leaves every other key as it was. */
  lemma {:induction false} WithOthers(fields: seq<(string, Json)>, key: string, v: Json, other: string)
    requires other != key
    ensures Find(With(fields, key, v), other) == Find(fields, other)
  {
    if exists i :: 0 <= i < |fields| && fields[i].0 == key {
      ReplaceAllOthers(fields, key, v, other);
    } else {
      var r := fields + [(key, v)];
      assert r[..|r| - 1] == fields;
    }
  }

  lemma {:induction false} ReplaceAllOthers(fields: seq<(string, Json)>, key: string, v: Json, other: string)
    requires other != key
    ensures Find(ReplaceAll(fields, key, v), other) == Find(fields, other)
    decreases |fields|
  {
    if |fields| > 0 {
      var r := ReplaceAll(fields, key, v);
      var init := fields[..|fields| - 1];
      assert r[..|r| - 1] == ReplaceAll(init, key, v);
      ReplaceAllOthers(init, key, v, other);
    }
  }

  /** A value with an object's members read back by key. */
  lemma GetWith(fields: seq<(string, Json)>, key: string, v: Json, k: string)
    ensures Get(JObj(With(fields, key, v)), k) == if k == key then Some(v) else Get(JObj(fields), k)
  {
    if k != key {
      WithOthers(fields, key, v, k);
    }
  }

  /** Members with pairwise distinct keys. */
  predicate DistinctKeys(fields: seq<(string, Json)>) {
    forall i, j :: 0 <= i < j < |fields| ==> fields[i].0 != fields[j].0
  }

  /** In an object with distinct keys every member reads back by its key. */
  lemma {:induction false} FindDistinct(fields: seq<(string, Json)>, i: int)
    requires DistinctKeys(fields) && 0 <= i < |fields|
    ensures Find(fields, fields[i].0) == Some(fields[i].1)
    decreases |fields|
  {
    if i < |fields| - 1 {
      var init := fields[..|fields| - 1];
      assert init[i] == fields[i];
      FindDistinct(init, i);
    }
  }
}

=== FILE: legacy_export.dfy ===
/** The export utilities of the older app (src/utils/exportData.ts): a
    seven-column CSV and a JSON copy whose timestamps are re-rendered. The
    locale rendering `toLocaleString` is the parameter `formatDate`, and
    `toFixed(1)` is `fixed1`. */
module LegacyExport {
  import opened Common
  import opened JsonValue
  import Csv
  import ExportCsv

  /** One record: the stored timestamp text and the readings. */
  datatype ExportPoint = ExportPoint(timestamp: string, temperature: real, humidity: real, moisture: real, npk: Npk)

  /** The header as written in the source file, whose degree sign appears
      as the two characters "Â°". */
  const Header: seq<string> :=
    ["Timestamp", "Temperature (Â°C)", "Humidity (%)", "Moisture (%)",
     "Nitrogen (ppm)", "Phosphorus (ppm)", "Potassium (ppm)"]

  function Cells(p: ExportPoint, formatDate: string -> string, fixed1: real -> string): (cells: seq<string>)
    ensures |cells| == |Header| == 7
    ensures cells[0] == formatDate(p.timestamp)
  {
    [formatDate(p.timestamp), fixed1(p.temperature), fixed1(p.humidity), fixed1(p.moisture),
     fixed1(p.npk.nitrogen), fixed1(p.npk.phosphorus), fixed1(p.npk.potassium)]
  }

  function CellTable(data: seq<ExportPoint>, formatDate: string -> string, fixed1: real -> string)
    : (t: seq<seq<string>>)
    ensures |t| == |data|
    ensures forall i :: 0 <= i < |data| ==> t[i] == Cells(data[i], formatDate, fixed1)
  {
    seq(|data|, i requires 0 <= i < |data| => Cells(data[i], formatDate, fixed1))
  }

  /** `csvContent` of `exportToCSV`. */
  function CsvContent(data: seq<ExportPoint>, formatDate: string -> string, fixed1: real -> string): string {
    Csv.Document(Header, CellTable(data, formatDate, fixed1))
  }

  predicate Avoids(cells: seq<string>, c: char) {
    forall k :: 0 <= k < |cells| ==> c !in cells[k]
  }

  /** Header line then one line per record, in order, when no cell holds a
      line break. */
  lemma CsvLines(data: seq<ExportPoint>, formatDate: string -> string, fixed1: real -> string)
    requires forall i :: 0 <= i < |data| ==> Avoids(Cells(data[i], formatDate, fixed1), '\n')
    ensures Csv.Split(CsvContent(data, formatDate, fixed1), '\n') ==
      [Csv.Join(Header, ',')] + Csv.Lines(CellTable(data, formatDate, fixed1))
    ensures |Csv.Split(CsvContent(data, formatDate, fixed1), '\n')| == |data| + 1
  {
    var table := CellTable(data, formatDate, fixed1);
    forall i, k | 0 <= i < |table| && 0 <= k < |table[i]|
      ensures '\n' !in table[i][k]
    {
      assert table[i] == Cells(data[i], formatDate, fixed1);
    }
    Csv.DocumentLines(Header, table);
  }

  /** A record line reads back as its seven cells when none holds a comma,
      and as more than seven fields when the rendered date does (the
      default `toLocaleString` format, "4/23/2025, 10:50:00 AM", does). */
  lemma RecordFields(p: ExportPoint, formatDate: string -> string, fixed1: real -> string)
    ensures Avoids(Cells(p, formatDate, fixed1), ',') ==>
      Csv.Split(Csv.Join(Cells(p, formatDate, fixed1), ','), ',') == Cells(p, formatDate, fixed1)
    ensures ',' in formatDate(p.timestamp) ==>
      |Csv.Split(Csv.Join(Cells(p, formatDate, fixed1), ','), ',')| > 7
  {
    if Avoids(Cells(p, formatDate, fixed1), ',') {
      Csv.SplitJoin(Cells(p, formatDate, fixed1), ',');
    }
    if ',' in formatDate(p.timestamp) {
      Csv.SplitJoinOverflow(Cells(p, formatDate, fixed1), ',', 0);
    }
  }

  // ---------------------------------------------------------------------
  // JSON

  function PointJson(p: ExportPoint): Json {
    JObj([("timestamp", JStr(p.timestamp)), ("temperature", JNum(p.temperature)),
          ("humidity", JNum(p.humidity)), ("moisture", JNum(p.moisture)),
          ("npk", JObj([("nitrogen", JNum(p.npk.nitrogen)), ("phosphorus", JNum(p.npk.phosphorus)),
                        ("potassium", JNum(p.npk.potassium))]))])
  }

  /** `{ ...point, timestamp: formatDate(point.timestamp) }`. */
  function Formatted(p: ExportPoint, formatDate: string -> string): Json {
    JObj(With(PointJson(p).fields, "timestamp", JStr(formatDate(p.timestamp))))
  }

  /** `formattedData` of `exportToJSON`. */
  function ExportJson(data: seq<ExportPoint>, formatDate: string -> string): (doc: Json)
    ensures doc.JArr? && |doc.items| == |data|
  {
    JArr(seq(|data|, i requires 0 <= i < |data| => Formatted(data[i], formatDate)))
  }

  /** The JSON export keeps the records' number and order, re-renders each
      timestamp and leaves every other member as it was. */
  lemma JsonChangesOnlyTimestamp(data: seq<ExportPoint>, formatDate: string -> string, i: int, key: string)
    requires 0 <= i < |data|
    ensures Get(ExportJson(data, formatDate).items[i], "timestamp") == Some(JStr(formatDate(data[i].timestamp)))
    ensures key != "timestamp" ==> Get(ExportJson(data, formatDate).items[i], key) == Get(PointJson(data[i]), key)
  {
    GetWith(PointJson(data[i]).fields, "timestamp", JStr(formatDate(data[i].timestamp)), key);
    GetWith(PointJson(data[i]).fields, "timestamp", JStr(formatDate(data[i].timestamp)), "timestamp");
  }
}

=== FILE: legacy_history.dfy ===
/** The history hook of the older app (src/hooks/useSensorHistory.ts): pick
    the day count of the range, read the stored points (or sample data in a
    development build, or when storage fails), keep the window, sort, and
    map to chart points. */
module LegacyHistory {
  import opened Common
  import opened Sorting
  import SampleData
  import LegacySample

  type Point = LegacySample.LegacyPoint

  datatype TimeRange = Last24h | Last7d | Last30d

  /** `rangeDays`. */
  function RangeDays(r: TimeRange): (d: int)
    ensures d == 1 || d == 7 || d == 30
  {
    match r
    case Last24h => 1
    case Last7d => 7
    case Last30d => 30
  }

  const DayMs: int := 24 * 60 * 60 * 1000

  /** What `getData()` settles to: it rejects (database not open, request
      error), or resolves with some value that may or may not be an array
      of points. */
  datatype StorageResult = Rejected | NotAnArray | Points(items: seq<Point>)

  function PointTime(p: Point): int {
    p.time
  }

  /** `.filter(point => (now - point.timestamp) <= rangeMs)`: every point
      inside the window is kept as often as it occurs, every other point is
      dropped, and nothing is added. */
  function InWindow(ps: seq<Point>, now: int, rangeMs: int): (out: seq<Point>)
    ensures |out| <= |ps|
    ensures forall q :: q in out <==> q in ps && now - q.time <= rangeMs
    ensures forall q :: multiset(out)[q] == if now - q.time <= rangeMs then multiset(ps)[q] else 0
    decreases |ps|
  {
    if |ps| == 0 then []
    else
      var rest := InWindow(ps[1..], now, rangeMs);
      assert ps == [ps[0]] + ps[1..];
      assert multiset(ps) == multiset{ps[0]} + multiset(ps[1..]);
      if now - ps[0].time <= rangeMs then [ps[0]] + rest else rest
  }

  datatype Loaded = Loaded(data: seq<Point>, fromSample: bool)

  /** One run of `fetchHistory`: a development build always shows sample data; in
      production a non-array result or a rejected read falls back to
      sample data as well, so no storage failure reaches `error`. */
  function Load(range: TimeRange, dev: bool, storage: StorageResult, now: int, noise: SampleData.Noise)
    : (r: Loaded)
    ensures r.fromSample ==> r.data == LegacySample.Generated(RangeDays(range), now, noise)
  {
    var days := RangeDays(range);
    if dev then Loaded(LegacySample.Generated(days, now, noise), true)
    else
      match storage
      case Points(items) => Loaded(SortBy(InWindow(items, now, days * DayMs), PointTime), false)
      case _ => Loaded(LegacySample.Generated(days, now, noise), true)
  }

  /** Development builds never read storage; storage failures fall back to
      samples; otherwise the data is exactly the stored points no older than
      the range, each as often as it is stored, ascending by time. */
  lemma LoadSpec(range: TimeRange, dev: bool, storage: StorageResult, now: int, noise: SampleData.Noise, q: Point)
    ensures dev ==> Load(range, dev, storage, now, noise) == Load(range, dev, Rejected, now, noise)
    ensures Load(range, dev, storage, now, noise).fromSample <==> dev || !storage.Points?
    ensures !dev && storage.Points? ==>
      && SortedBy(Load(range, dev, storage, now, noise).data, PointTime)
      && (q in Load(range, dev, storage, now, noise).data <==>
          q in storage.items && now - q.time <= RangeDays(range) * DayMs)
      && multiset(Load(range, dev, storage, now, noise).data)[q] ==
         (if now - q.time <= RangeDays(range) * DayMs then multiset(storage.items)[q] else 0)
  {
    if !dev && storage.Points? {
      var kept := InWindow(storage.items, now, RangeDays(range) * DayMs);
      SortMembers(kept, PointTime, q);
    }
  }

  // ---------------------------------------------------------------------
  // Chart mapping

  /** A chart point: the range-dependent label and the readings rounded to
      one decimal, the nutrients as the rounded mean of N, P and K. */
  datatype ChartPoint = ChartPoint(timestamp: string, moisture: real, temperature: real, humidity: real, npk: real)

  /** `formatTimestamp`: a clock time for the 24-hour range, a date
      otherwise (both locale renderings, given as parameters). */
  function Label(range: TimeRange, t: int, timeLabel: int -> string, dateLabel: int -> string): string {
    if range == Last24h then timeLabel(t) else dateLabel(t)
  }

  function NpkAverage(n: Npk): real {
    (n.nitrogen + n.phosphorus + n.potassium) / 3.0
  }

  function ChartOf(range: TimeRange, p: Point, timeLabel: int -> string, dateLabel: int -> string): (c: ChartPoint)
    ensures p.moisture - 0.05 <= c.moisture <= p.moisture + 0.05
    ensures p.temperature - 0.05 <= c.temperature <= p.temperature + 0.05
    ensures p.humidity - 0.05 <= c.humidity <= p.humidity + 0.05
    ensures NpkAverage(p.npk) - 0.05 <= c.npk <= NpkAverage(p.npk) + 0.05
    ensures Tenth(c.moisture) && Tenth(c.temperature) && Tenth(c.humidity) && Tenth(c.npk)
  {
    ChartPoint(Label(range, p.time, timeLabel, dateLabel), Round1(p.moisture), Round1(p.temperature),
               Round1(p.humidity), Round1(NpkAverage(p.npk)))
  }

  datatype View = View(chartData: seq<ChartPoint>, isEmpty: bool)

  /** The hook's result: one chart point per loaded point, in order, and
      `isEmpty` exactly when nothing was loaded. */
  function ChartView(range: TimeRange, data: seq<Point>, timeLabel: int -> string, dateLabel: int -> string)
    : (v: View)
    ensures |v.chartData| == |data|
    ensures forall i :: 0 <= i < |data| ==> v.chartData[i] == ChartOf(range, data[i], timeLabel, dateLabel)
    ensures v.isEmpty <==> |v.chartData| == 0
  {
    View(seq(|data|, i requires 0 <= i < |data| => ChartOf(range, data[i], timeLabel, dateLabel)), |data| == 0)
  }

  /** In the 24-hour range the labels are clock times, otherwise dates. */
  lemma LabelsByRange(range: TimeRange, data: seq<Point>, timeLabel: int -> string, dateLabel: int -> string, i: int)
    requires 0 <= i < |data|
    ensures range == Last24h ==> ChartView(range, data, timeLabel, dateLabel).chartData[i].timestamp == timeLabel(data[i].time)
    ensures range != Last24h ==> ChartView(range, data, timeLabel, dateLabel).chartData[i].timestamp == dateLabel(data[i].time)
  {
  }
}

=== FILE: legacy_sample.dfy ===
/** The sample-data generator of the older app
    (src/utils/generateSampleData.ts): two points an hour, with the same
    daily shapes as the current generator but no rounding, and clamps on
    temperature, humidity and moisture only. */
module LegacySample {
  import opened Common
  import SampleData

  datatype LegacyPoint = LegacyPoint(time: int, moisture: real, temperature: real, humidity: real, npk: Npk)

  /** `1000 * 60 * 30`. */
  const IntervalMs: int := 1000 * 60 * 30

  /** `days * 24 * 2`. */
  function Count(days: int): int {
    days * 24 * 2
  }

  /** The loop body for index `i`; the noise is as in the current
      generator (hour of day, daily wave, random draws in call order). */
  function Point(i: int, count: int, now: int, noise: SampleData.Noise): (p: LegacyPoint)
    requires count > 0
    ensures p.time == now - i * IntervalMs
    ensures 18.0 <= p.temperature <= 28.0 && 40.0 <= p.humidity <= 80.0 && 30.0 <= p.moisture <= 90.0
  {
    var t := now - i * IntervalMs;
    var hour := noise.hourOf(t);
    var isDaytime := 6 <= hour <= 18;
    var temperature := 23.0 + noise.wave(hour) * 5.0 + (noise.rand(i, 0) * 2.0 - 1.0);
    var humidity := 60.0 - noise.wave(hour) * 20.0 + (noise.rand(i, 1) * 5.0 - 2.5);
    var moisture := 65.0 - (if isDaytime then 10.0 else 0.0) + (noise.rand(i, 2) * 10.0 - 5.0);
    var base := SampleData.BaseNpk(i, count);
    LegacyPoint(t, Clamp(30.0, 90.0, moisture), Clamp(18.0, 28.0, temperature), Clamp(40.0, 80.0, humidity),
                Npk(base + (noise.rand(i, 3) * 5.0 - 2.5), base + (noise.rand(i, 4) * 5.0 - 2.5),
                    base + (noise.rand(i, 5) * 5.0 - 2.5)))
  }

  /** `generateSampleData(days)`: one point per loop index, from
      `points - 1` down to 0. */
  function Generated(days: int, now: int, noise: SampleData.Noise): (data: seq<LegacyPoint>)
    ensures |data| == if Count(days) > 0 then Count(days) else 0
    ensures forall k :: 0 <= k < |data| ==> data[k] == Point(|data| - 1 - k, Count(days), now, noise)
    ensures forall k :: 0 <= k < |data| ==> data[k].time == now - (|data| - 1 - k) * IntervalMs
  {
    var n := Count(days);
    if n <= 0 then []
    else seq(n, k requires 0 <= k < n => Point(n - 1 - k, n, now, noise))
  }

  /** Timestamps are evenly spaced half an hour apart, strictly increasing,
      and end at `now`; there are 48 points per day. */
  lemma GeneratedTimeline(days: int, now: int, noise: SampleData.Noise)
    ensures forall k :: 0 < k < |Generated(days, now, noise)| ==>
      Generated(days, now, noise)[k].time - Generated(days, now, noise)[k - 1].time == IntervalMs
    ensures forall j, k :: 0 <= j < k < |Generated(days, now, noise)| ==>
      Generated(days, now, noise)[j].time < Generated(days, now, noise)[k].time
    ensures |Generated(days, now, noise)| > 0 ==> Generated(days, now, noise)[|Generated(days, now, noise)| - 1].time == now
    ensures |Generated(days, now, noise)| == (if days > 0 then days * 48 else 0)
  {
    Spaced(Generated(days, now, noise), now);
  }

  /** Times `IntervalMs` apart and ending at `now`: evenly spaced and strictly
      increasing. */
  lemma Spaced(data: seq<LegacyPoint>, now: int)
    requires forall k :: 0 <= k < |data| ==> data[k].time == now - (|data| - 1 - k) * IntervalMs
    ensures forall k :: 0 < k < |data| ==> data[k].time - data[k - 1].time == IntervalMs
    ensures forall j, k :: 0 <= j < k < |data| ==> data[j].time < data[k].time
    ensures |data| > 0 ==> data[|data| - 1].time == now
  {
    var n := |data|;
    forall k | 0 < k < n
      ensures data[k].time - data[k - 1].time == IntervalMs
    {
      assert data[k].time == now - (n - 1 - k) * IntervalMs;
      assert data[k - 1].time == now - (n - k) * IntervalMs;
    }
    forall j, k | 0 <= j < k < n
      ensures data[j].time < data[k].time
    {
      SampleData.MulMono(n - 1 - k, n - 1 - j, IntervalMs);
    }
  }

  /** Nutrients are the base plus the noise with no clamp, unlike the
      current generator. The missing clamp is never observable: for a loop
      index of the run the base lies in (40, 50], and with `Math.random()`
      draws in [0, 1) every nutrient stays strictly between 37.5 and 52.5,
      well inside the [20, 80] the current generator clamps to. */
  lemma NutrientsUnclamped(i: int, count: int, now: int, noise: SampleData.Noise)
    requires 0 <= i < count
    requires forall j :: 3 <= j <= 5 ==> 0.0 <= noise.rand(i, j) < 1.0
    ensures Point(i, count, now, noise).npk.nitrogen == SampleData.BaseNpk(i, count) + noise.rand(i, 3) * 5.0 - 2.5
    ensures var n := Point(i, count, now, noise).npk;
      && 37.5 < n.nitrogen < 52.5
      && 37.5 < n.phosphorus < 52.5
      && 37.5 < n.potassium < 52.5
  {
    assert 0.0 <= i as real / count as real < 1.0 by {
      assert i as real < count as real;
    }
    assert 0.0 <= noise.rand(i, 3) < 1.0 && 0.0 <= noise.rand(i, 4) < 1.0 && 0.0 <= noise.rand(i, 5) < 1.0;
  }
}

=== FILE: legacy_store.dfy ===
/** The client store of the older app (src/contexts/GardenContext.tsx): a
    replace-style reducer over sensor data, two flags and an alert list. */
module LegacyStore {
  import opened Common

  datatype LegacySensorData = LegacySensorData(moisture: real, temperature: real, humidity: real, npk: Npk)

  datatype Priority = LowPriority | MediumPriority | HighPriority

  datatype Alert = Alert(id: string, message: string, priority: Priority, timestamp: int)

  datatype LegacyState = LegacyState(sensorData: LegacySensorData, irrigation: bool, alerts: seq<Alert>,
                                     darkMode: bool)

  /** The four declared actions, and any other type tag (the reducer's
      `default`). */
  datatype LegacyAction =
    | UpdateSensorData(payload: LegacySensorData)
    | ToggleIrrigation
    | AddAlert(alert: Alert)
    | ToggleDarkMode
    | OtherAction(tag: string)

  const ZeroReadings: LegacySensorData := LegacySensorData(0.0, 0.0, 0.0, ZeroNpk)

  const InitialState: LegacyState := LegacyState(ZeroReadings, false, [], false)

  /** `gardenReducer`: each field changes only under its own action. */
  function Reduce(s: LegacyState, a: LegacyAction): (r: LegacyState)
    ensures r.sensorData != s.sensorData ==> a.UpdateSensorData?
    ensures r.irrigation != s.irrigation ==> a == ToggleIrrigation
    ensures r.alerts != s.alerts ==> a.AddAlert?
    ensures r.darkMode != s.darkMode ==> a == ToggleDarkMode
  {
    match a
    case UpdateSensorData(d) => s.(sensorData := d)
    case ToggleIrrigation => s.(irrigation := !s.irrigation)
    case AddAlert(x) => s.(alerts := [x] + s.alerts)
    case ToggleDarkMode => s.(darkMode := !s.darkMode)
    case OtherAction(_) => s
  }

  /** Initial state: zero readings, both flags off, no alerts. */
  lemma InitialStateZero()
    ensures InitialState.sensorData.moisture == 0.0 && InitialState.sensorData.temperature == 0.0
    ensures InitialState.sensorData.humidity == 0.0 && InitialState.sensorData.npk == Npk(0.0, 0.0, 0.0)
    ensures !InitialState.irrigation && !InitialState.darkMode && |InitialState.alerts| == 0
  {
  }

  /** UPDATE_SENSOR_DATA replaces the whole record with the payload, whatever
      it held, and nothing else. */
  lemma UpdateReplaces(s: LegacyState, d: LegacySensorData)
    ensures Reduce(s, UpdateSensorData(d)) == LegacyState(d, s.irrigation, s.alerts, s.darkMode)
  {
  }

  /** Each toggle flips its flag only and undoes itself. */
  lemma TogglesInvolutive(s: LegacyState)
    ensures Reduce(s, ToggleIrrigation).irrigation == !s.irrigation
    ensures Reduce(s, ToggleDarkMode).darkMode == !s.darkMode
    ensures Reduce(Reduce(s, ToggleIrrigation), ToggleIrrigation) == s
    ensures Reduce(Reduce(s, ToggleDarkMode), ToggleDarkMode) == s
  {
  }

  /** ADD_ALERT puts the new alert first and keeps the older ones after it,
      in order. */
  lemma AddAlertPrepends(s: LegacyState, x: Alert)
    ensures |Reduce(s, AddAlert(x)).alerts| == |s.alerts| + 1
    ensures Reduce(s, AddAlert(x)).alerts[0] == x
    ensures Reduce(s, AddAlert(x)).alerts[1..] == s.alerts
  {
  }

  lemma UnknownUnchanged(s: LegacyState, tag: string)
    ensures Reduce(s, OtherAction(tag)) == s
  {
  }

  function ReduceAll(s: LegacyState, actions: seq<LegacyAction>): LegacyState
    decreases |actions|
  {
    if |actions| == 0 then s else ReduceAll(Reduce(s, actions[0]), actions[1..])
  }

  function CountAlerts(actions: seq<LegacyAction>): nat
    decreases |actions|
  {
    if |actions| == 0 then 0 else (if actions[0].AddAlert? then 1 else 0) + CountAlerts(actions[1..])
  }

  /** Alerts are only ever added: after any run of actions the original
      alerts are the tail of the list, preceded by one alert per ADD_ALERT. */
  lemma {:induction false} AlertsAccumulate(s: LegacyState, actions: seq<LegacyAction>)
    ensures |ReduceAll(s, actions).alerts| == |s.alerts| + CountAlerts(actions)
    ensures ReduceAll(s, actions).alerts[CountAlerts(actions)..] == s.alerts
    decreases |actions|
  {
    if |actions| > 0 {
      var s1 := Reduce(s, actions[0]);
      AlertsAccumulate(s1, actions[1..]);
      var n := CountAlerts(actions[1..]);
      var r := ReduceAll(s1, actions[1..]);
      if actions[0].AddAlert? {
        assert s1.alerts[1..] == s.alerts;
        assert r.alerts[n + 1..] == r.alerts[n..][1..];
      }
    }
  }
}

=== FILE: offline_queue.dfy ===
/** The offline action queue of the older app
    (src/hooks/useBackgroundSync.ts) over the IndexedDB store of
    src/hooks/useIndexedDB.ts, whose key path is `timestamp`: an `add`
    with a timestamp already in the store fails. The clock and the outcome
    of each storage request are parameters. */
module OfflineQueue {
  import opened Common
  import opened JsonValue
  import opened Sorting

  datatype ActionKind = Irrigation | SettingsChange

  datatype QueuedAction = QueuedAction(kind: ActionKind, payload: Json, timestamp: int)

  function Stamp(a: QueuedAction): int {
    a.timestamp
  }

  /** The hook's state and the store's contents. `handled` records, in
      order, every action the processing loop visited. */
  datatype Sync = Sync(offline: bool, queue: seq<QueuedAction>, isPending: bool, failed: bool,
                       handled: seq<QueuedAction>)

  datatype QueueError = OnlyWhenOffline | StoreUnavailable | DuplicateKey

  datatype Queued = Queued(state: Sync) | Refused(error: QueueError, after: Sync)

  predicate HasStamp(queue: seq<QueuedAction>, t: int) {
    exists k :: 0 <= k < |queue| && queue[k].timestamp == t
  }

  /** The store's key constraint: no two queued actions share a
      timestamp. */
  ghost predicate KeysDistinct(queue: seq<QueuedAction>) {
    forall i, j :: 0 <= i < j < |queue| ==> queue[i].timestamp != queue[j].timestamp
  }

  /** `queueOfflineAction(type, payload)` at clock time `now`, with
      `dbOpen` telling whether the database has opened: refused online
      without touching `error`; offline the store adds the action stamped
      `now`, unless the database is not open or an action with that key is
      already stored, in which case the request fails, `error` is set and
      the error is rethrown. */
  function Enqueue(s: Sync, dbOpen: bool, kind: ActionKind, payload: Json, now: int): (r: Queued)
    ensures r.Refused? && r.error == OnlyWhenOffline <==> !s.offline
    ensures r.Refused? ==> r.after.queue == s.queue
    ensures r.Refused? && r.error != OnlyWhenOffline ==> r.after == s.(failed := true)
    ensures r.Queued? ==> r.state.queue == s.queue + [QueuedAction(kind, payload, now)]
  {
    if !s.offline then Refused(OnlyWhenOffline, s)
    else if !dbOpen then Refused(StoreUnavailable, s.(failed := true))
    else if HasStamp(s.queue, now) then Refused(DuplicateKey, s.(failed := true))
    else Queued(s.(queue := s.queue + [QueuedAction(kind, payload, now)]))
  }

  /** Enqueueing keeps the key constraint, and with the database open it is
      exactly an existing key that makes an offline enqueue fail. */
  lemma EnqueueKeys(s: Sync, dbOpen: bool, kind: ActionKind, payload: Json, now: int)
    requires KeysDistinct(s.queue)
    ensures Enqueue(s, dbOpen, kind, payload, now).Queued? ==>
      KeysDistinct(Enqueue(s, dbOpen, kind, payload, now).state.queue)
    ensures s.offline && dbOpen ==> (Enqueue(s, dbOpen, kind, payload, now).Refused? <==> HasStamp(s.queue, now))
    ensures Enqueue(s, dbOpen, kind, payload, now).Queued? <==> s.offline && dbOpen && !HasStamp(s.queue, now)
  {
  }

  /** `processQueue`, run when the hook sees the app online. `readOk` is
      the outcome of `getData()` (it rejects when the database is not
      open); `actionOk[k]` is the outcome of handling the `k`-th action in
      timestamp order (a failure is caught and only recorded); `clearOk` is
      the outcome of the final `clearData()`. */
  function Process(s: Sync, readOk: bool, actionOk: seq<bool>, clearOk: bool): (r: Sync)
    ensures s.offline ==> r == s
    ensures !s.offline ==> !r.isPending
    ensures r.offline == s.offline
    ensures !readOk ==> r.queue == s.queue && r.handled == s.handled
  {
    if s.offline then s
    else if !readOk then s.(isPending := false, failed := true)
    else if |s.queue| == 0 then s.(isPending := false)
    else
      var order := SortBy(s.queue, Stamp);
      var anyFailed := exists k :: 0 <= k < |order| && k < |actionOk| && !actionOk[k];
      s.(queue := if clearOk then [] else s.queue,
         isPending := false,
         failed := s.failed || anyFailed || !clearOk,
         handled := s.handled + order)
  }

  /** Nothing is processed offline; a failed read records the error and
      processes nothing; and an empty queue online stays empty and untouched
      apart from the pending flag. */
  lemma ProcessGuards(s: Sync, readOk: bool, actionOk: seq<bool>, clearOk: bool)
    ensures s.offline ==> Process(s, readOk, actionOk, clearOk).queue == s.queue
    ensures s.offline ==> Process(s, readOk, actionOk, clearOk).handled == s.handled
    ensures !s.offline && !readOk ==> Process(s, readOk, actionOk, clearOk) == s.(isPending := false, failed := true)
    ensures !s.offline && readOk && |s.queue| == 0 ==> Process(s, readOk, actionOk, clearOk) == s.(isPending := false)
  {
  }

  /** One run of `processQueue`, online with a readable, non-empty queue:
      every queued action is visited once in that run, in ascending
      timestamp order (overlapping re-runs of the effect are not modelled); the queue is cleared whenever the final
      clear succeeds, whatever the individual actions did; and the pending
      flag ends false. */
  lemma ProcessOnline(s: Sync, readOk: bool, actionOk: seq<bool>, clearOk: bool)
    requires !s.offline && readOk && |s.queue| > 0
    ensures var r := Process(s, readOk, actionOk, clearOk);
      && |r.handled| == |s.handled| + |s.queue|
      && r.handled[..|s.handled|] == s.handled
      && SortedBy(r.handled[|s.handled|..], Stamp)
      && multiset(r.handled[|s.handled|..]) == multiset(s.queue)
      && (clearOk ==> r.queue == [])
      && !r.isPending
  {
    var r := Process(s, readOk, actionOk, clearOk);
    assert r.handled[|s.handled|..] == SortBy(s.queue, Stamp);
  }

  /** The store's key order: with distinct keys the processing order is
      strictly increasing in the timestamp. */
  lemma OrderByTimestamp(s: Sync, readOk: bool, actionOk: seq<bool>, clearOk: bool, i: int, j: int)
    requires !s.offline && readOk && |s.queue| > 0 && KeysDistinct(s.queue)
    requires |s.handled| <= i < j < |s.handled| + |s.queue|
    ensures Process(s, readOk, actionOk, clearOk).handled[i].timestamp < Process(s, readOk, actionOk, clearOk).handled[j].timestamp
  {
    var order := SortBy(s.queue, Stamp);
    var r := Process(s, readOk, actionOk, clearOk);
    assert r.handled[i] == order[i - |s.handled|] && r.handled[j] == order[j - |s.handled|];
    StrictSort(s.queue);
  }

  ghost predicate StrictlySorted(s: seq<QueuedAction>) {
    forall i, j :: 0 <= i < j < |s| ==> s[i].timestamp < s[j].timestamp
  }

  /** Sorting actions with distinct keys orders them strictly. */
  lemma {:induction false} StrictSort(q: seq<QueuedAction>)
    requires KeysDistinct(q)
    ensures StrictlySorted(SortBy(q, Stamp))
    decreases |q|
  {
    if |q| > 0 {
      var rest := q[1..];
      assert KeysDistinct(rest) by {
        forall i, j | 0 <= i < j < |rest| ensures rest[i].timestamp != rest[j].timestamp {
          assert rest[i] == q[i + 1] && rest[j] == q[j + 1];
        }
      }
      StrictSort(rest);
      var sorted := SortBy(rest, Stamp);
      forall e | e in sorted
        ensures e.timestamp != q[0].timestamp
      {
        SortMembers(rest, Stamp, e);
        var k :| 0 <= k < |rest| && rest[k] == e;
        assert q[k + 1] == e;
      }
      InsertStrict(q[0], sorted);
    }
  }

  lemma {:induction false} InsertStrict(x: QueuedAction, s: seq<QueuedAction>)
    requires SortedBy(s, Stamp) && StrictlySorted(s)
    requires forall e :: e in s ==> e.timestamp != x.timestamp
    ensures StrictlySorted(Insert(x, s, Stamp))
    decreases |s|
  {
    if |s| == 0 || x.timestamp <= s[0].timestamp {
      assert s != [] ==> s[0] in s;
      StrictCons(x, s);
    } else {
      var tail := s[1..];
      assert forall e :: e in tail ==> e in s;
      InsertStrict(x, tail);
      var rest := Insert(x, tail, Stamp);
      assert Insert(x, s, Stamp) == [s[0]] + rest;
      forall k | 0 <= k < |rest|
        ensures s[0].timestamp < rest[k].timestamp
      {
        assert rest[k] in multiset(tail) + multiset{x};
        if rest[k] != x {
          var m :| 0 <= m < |tail| && tail[m] == rest[k];
          assert s[m + 1] == rest[k];
        }
      }
      StrictCons(s[0], rest);
    }
  }

  /** A head below every element of a strictly sorted tail. */
  lemma StrictCons(h: QueuedAction, t: seq<QueuedAction>)
    requires StrictlySorted(t)
    requires forall k :: 0 <= k < |t| ==> h.timestamp < t[k].timestamp
    ensures StrictlySorted([h] + t)
  {
    var r := [h] + t;
    forall i, j | 0 <= i < j < |r|
      ensures r[i].timestamp < r[j].timestamp
    {
      assert r[j] == t[j - 1];
      if i > 0 {
        assert r[i] == t[i - 1];
      }
    }
  }
}

=== FILE: pipeline.dfy ===
/** End to end: what the server broadcasts is what the dashboard's socket
    manager routes into its store. Ties Backend/src/server.ts to
    Frontend/src/hooks/useWebSocket.ts and Frontend/src/contexts/GardenContext.tsx. */
module Pipeline {
  import opened Common
  import opened JsonValue
  import opened GardenStore
  import Relay
  import SocketManager

  /** The store update a stored row stands for: the reading the row holds,
      under the kind its type names. */
  function UpdateOf(row: Relay.Row): SensorUpdate
    requires Relay.Complete(row)
  {
    if row.sensorType == "moisture" then MoistureUpdate(row.sensorId, row.value1.value)
    else if row.sensorType == "dht11" then ClimateUpdate(row.value1.value, row.value2.value)
    else NutrientUpdate(row.value1.value, row.value2.value, row.value3.value)
  }

  /** The payload of every broadcast the handler makes decodes on the
      dashboard to exactly the reading it stored: adding `timestamp` hides
      none of the fields the client reads. */
  lemma RelayPayloadDecodes(body: Json, clock: Relay.Clock)
    requires Relay.RowFor(body, clock.ms).Some?
    ensures var row := Relay.RowFor(body, clock.ms).value;
      SocketManager.DecodeUpdate(Get(Relay.SensorUpdateMsg(body.fields, clock), "payload")) == UpdateOf(row)
  {
    Relay.PayloadStamped(body.fields, clock, "type");
    var t := Get(body, "type");
    if t == Some(JStr("moisture")) {
      Relay.PayloadStamped(body.fields, clock, "id");
      Relay.PayloadStamped(body.fields, clock, "value");
    } else if t == Some(JStr("dht11")) {
      Relay.PayloadStamped(body.fields, clock, "temp");
      Relay.PayloadStamped(body.fields, clock, "humidity");
    } else {
      Relay.PayloadStamped(body.fields, clock, "n");
      Relay.PayloadStamped(body.fields, clock, "p");
      Relay.PayloadStamped(body.fields, clock, "k");
    }
  }

  /** The relay's `irrigation_state` message read back by key. */
  lemma StateMessageReads(status: bool)
    ensures Get(Relay.IrrigationStateMsg(Some(JBool(status))), "type") == Some(JStr("irrigation_state"))
    ensures Get(Relay.IrrigationStateMsg(Some(JBool(status))), "status") == Some(JBool(status))
  {
    var r := Relay.IrrigationStateMsg(Some(JBool(status)));
    assert r.fields == [("type", JStr("irrigation_state")), ("status", JBool(status))];
    FindDistinct(r.fields, 0);
  }

  /** Reducing a run of two actions. */
  lemma ReduceTwo(st: GardenState, a: Action, b: Action)
    ensures ReduceAll(st, [a, b]) == Reduce(Reduce(st, a), b)
  {
    assert [a, b][1..] == [b];
    assert [b][1..] == [];
    assert ReduceAll(Reduce(st, a), [b]) == ReduceAll(Reduce(Reduce(st, a), b), []);
  }

  /** A `sensor_update` frame carrying a recognised reading, routed and
      reduced: the reading is applied, then the sync time is set. */
  lemma RouteSensorUpdate(m: Json, u: SensorUpdate, st: GardenState, now: int)
    requires Get(m, "type") == Some(JStr("sensor_update"))
    requires SocketManager.DecodeUpdate(Get(m, "payload")) == u && !u.Unrecognized?
    ensures ReduceAll(st, SocketManager.Route(SocketManager.Text(m), now)) ==
      st.(sensorData := ApplyUpdate(st.sensorData, u), lastSync := Some(now))
  {
    SocketManager.RouteKnown(m, now);
    ReduceTwo(st, UpdateSensorData(u), SetLastSync(now));
  }

  /** Routing the broadcast of an accepted reading applies that reading to
      the store and stamps the sync time; nothing else changes. */
  lemma BroadcastApplies(body: Json, clock: Relay.Clock, st: GardenState, now: int)
    requires Relay.RowFor(body, clock.ms).Some?
    ensures ReduceAll(st, SocketManager.Route(SocketManager.Text(Relay.SensorUpdateMsg(body.fields, clock)), now)) ==
      st.(sensorData := ApplyUpdate(st.sensorData, UpdateOf(Relay.RowFor(body, clock.ms).value)),
          lastSync := Some(now))
  {
    Relay.PayloadStamped(body.fields, clock, "type");
    RelayPayloadDecodes(body, clock);
    RouteSensorUpdate(Relay.SensorUpdateMsg(body.fields, clock), UpdateOf(Relay.RowFor(body, clock.ms).value), st, now);
  }

  /** A moisture, climate or nutrient reading accepted by the server reaches
      every open dashboard as one message, and routing that message into the
      store applies the stored reading and stamps the sync time. */
  lemma SensorUpdateReachesStore(s: Relay.Server, body: Json, clock: Relay.Clock, id: Relay.ClientId,
                                 st: GardenState, now: int)
    requires Relay.RowFor(body, clock.ms).Some?
    requires id in s.clients && s.clients[id].open
    ensures var msg := Relay.SensorUpdateMsg(body.fields, clock);
      var s' := Relay.Ingest(s, Some(body), clock, Relay.InsertOk).1;
      && id in s'.clients
      && s'.clients[id].outbox == s.clients[id].outbox + [msg]
      && ReduceAll(st, SocketManager.Route(SocketManager.Text(msg), now)) ==
         st.(sensorData := ApplyUpdate(st.sensorData, UpdateOf(Relay.RowFor(body, clock.ms).value)),
             lastSync := Some(now))
  {
    Relay.IngestEffect(s, body, clock);
    BroadcastApplies(body, clock, st, now);
  }

  /** A reading from probe "A" ends up as the store's `moistureA` and
      leaves probe B's reading alone. */
  lemma ProbeAReachesStore(body: Json, clock: Relay.Clock, st: GardenState, now: int)
    requires Get(body, "type") == Some(JStr("moisture")) && Get(body, "id") == Some(JStr("A"))
    requires IsNumber(Get(body, "value"))
    ensures var msg := Relay.SensorUpdateMsg(body.fields, clock);
      var r := ReduceAll(st, SocketManager.Route(SocketManager.Text(msg), now));
      && r.sensorData.moistureA == Get(body, "value").value.n
      && r.sensorData.moistureB == st.sensorData.moistureB
      && r.lastSync == Some(now)
  {
    var row := Relay.RowFor(body, clock.ms).value;
    assert UpdateOf(row) == MoistureUpdate(Some(JStr("A")), Get(body, "value").value.n);
    BroadcastApplies(body, clock, st, now);
  }

  /** The irrigation toggle round trip: the command a dashboard sends is
      relayed to every open client as `irrigation_state` with the same
      status, and routing it sets the store's irrigation flag to that
      status. */
  lemma IrrigationRoundTrip(s: Relay.Server, sender: Relay.ClientId, status: bool, c: Relay.ClientId,
                            st: GardenState, now: int)
    requires sender in s.clients && c in s.clients && s.clients[c].open
    ensures var relayed := Relay.IrrigationStateMsg(Some(JBool(status)));
      && c in Relay.Receive(s, sender, Relay.Parsed(SocketManager.IrrigationCommand(status))).clients
      && Relay.Receive(s, sender, Relay.Parsed(SocketManager.IrrigationCommand(status))).clients[c].outbox ==
         s.clients[c].outbox + [relayed]
      && ReduceAll(st, SocketManager.Route(SocketManager.Text(relayed), now)) ==
         st.(irrigation := Some(JBool(status)))
  {
    var command := SocketManager.IrrigationCommand(status);
    SocketManager.IrrigationCommandShape(status);
    Relay.ToggleBroadcast(s, sender, command);
    var relayed := Relay.IrrigationStateMsg(Some(JBool(status)));
    StateMessageReads(status);
    SocketManager.RouteKnown(relayed, now);
    assert [SetIrrigationState(Some(JBool(status)))][1..] == [];
  }
}

=== FILE: raw_history.dfy ===
/** A stored reading as the history endpoint returns it, and the one rule
    both History (Frontend/src/pages/History.tsx) and TrendChart
    (Frontend/src/components/TrendChart.tsx) use to read a series out of
    it. Timestamps are integer milliseconds. */
module RawHistory {
  import opened Common

  /** One `sensor_readings` row. `sensorId` is the moisture probe id or
      null; the three value slots are null when the reading has no such
      component. */
  datatype RawPoint = RawPoint(id: int, time: int, sensorType: string, sensorId: Option<string>,
                               value1: Option<real>, value2: Option<real>, value3: Option<real>)

  /** The seven series the dashboard charts. */
  datatype Series = Temperature | Humidity | MoistureA | MoistureB | Nitrogen | Phosphorus | Potassium

  function Time(p: RawPoint): int {
    p.time
  }

  /** The slot a series occupies in a row: dht11 carries temperature and
      humidity in slots 1 and 2, a moisture row carries its probe's value
      in slot 1, an npk row carries N, P, K in slots 1 to 3. */
  function Reading(p: RawPoint, s: Series): (r: Option<real>)
    ensures r.Some? && (s == Temperature || s == Humidity) ==> p.sensorType == "dht11"
    ensures r.Some? && s == MoistureA ==> p.sensorType == "moisture" && p.sensorId == Some("A")
    ensures r.Some? && s == MoistureB ==> p.sensorType == "moisture" && p.sensorId == Some("B")
    ensures r.Some? && (s == Nitrogen || s == Phosphorus || s == Potassium) ==> p.sensorType == "npk"
    ensures r.Some? ==> r == p.value1 || r == p.value2 || r == p.value3
  {
    match s
    case Temperature => if p.sensorType == "dht11" then p.value1 else None
    case Humidity => if p.sensorType == "dht11" then p.value2 else None
    case MoistureA => if p.sensorType == "moisture" && p.sensorId == Some("A") then p.value1 else None
    case MoistureB => if p.sensorType == "moisture" && p.sensorId == Some("B") then p.value1 else None
    case Nitrogen => if p.sensorType == "npk" then p.value1 else None
    case Phosphorus => if p.sensorType == "npk" then p.value2 else None
    case Potassium => if p.sensorType == "npk" then p.value3 else None
  }

  /** A row of a kind no series reads (or whose slots are null) supplies no
      reading at all. */
  lemma OtherKindsSilent(p: RawPoint, s: Series)
    requires p.sensorType != "dht11" && p.sensorType != "moisture" && p.sensorType != "npk"
    ensures Reading(p, s) == None
  {
  }

  /** A moisture row supplies at most one of the two moisture series, and
      none when its id is neither "A" nor "B". */
  lemma MoistureProbes(p: RawPoint)
    requires p.sensorType == "moisture"
    ensures Reading(p, MoistureA).None? || Reading(p, MoistureB).None?
    ensures p.sensorId != Some("A") && p.sensorId != Some("B") ==>
      forall s :: Reading(p, s) == None
  {
  }
}

=== FILE: relay.dfy ===
/** The backend: the sensor-ingestion handler, the broadcast relay and the
    per-connection message handler (Backend/src/server.ts). The MySQL
    insert is an outcome chosen by the environment; sockets are modelled by
    their ready state and the ordered list of messages sent to them. */
module Relay {
  import opened Common
  import opened JsonValue

  /** The server clock at ingestion: milliseconds for the stored row and the
      ISO text that `JSON.stringify` writes for the `Date`. */
  datatype Clock = Clock(ms: int, iso: string)

  /** One `sensor_readings` row; `sensorId` holds whatever truthy `id` was
      posted. */
  datatype Row = Row(timestamp: int, sensorType: string, sensorId: Option<Json>,
                     value1: Option<real>, value2: Option<real>, value3: Option<real>)

  /** The HTTP replies of the handler. `NotStored` is the 200 reply for an
      unknown type, which the handler can never send (`NotStoredUnreachable`). */
  datatype Reply = Stored | InvalidFormat | InvalidForType(sensorType: Json) | StoreFailed | NotStored

  function StatusCode(r: Reply): int {
    match r
    case Stored => 200
    case InvalidFormat => 400
    case InvalidForType(_) => 400
    case StoreFailed => 500
    case NotStored => 200
  }

  datatype InsertOutcome = InsertOk | InsertFail

  /** What one request does, in order: a durable write, a broadcast, the reply. */
  datatype Effect = Write(row: Row) | Broadcast(msg: Json) | Respond(reply: Reply)

  /** The numeric value of a field known to be a number. */
  function Num(x: Option<Json>): real
    requires IsNumber(x)
  {
    x.value.n
  }

  /** The `switch (sensorData.type)` of the handler: the row to insert, or
      `None` when the type is not one of the three kinds or a required field
      is not a number (or, for moisture, `id` is falsy). */
  function RowFor(body: Json, ms: int): (r: Option<Row>)
    ensures r.Some? ==> body.JObj? && r.value.timestamp == ms && Complete(r.value)
    ensures r.Some? ==> Get(body, "type") == Some(JStr(r.value.sensorType))
  {
    var t := Get(body, "type");
    if t == Some(JStr("moisture")) then
      var id := Get(body, "id");
      var v := Get(body, "value");
      if Present(id) && IsNumber(v) then
        Some(Row(ms, "moisture", id, Some(Num(v)), None, None))
      else None
    else if t == Some(JStr("dht11")) then
      var temp := Get(body, "temp");
      var hum := Get(body, "humidity");
      if IsNumber(temp) && IsNumber(hum) then
        Some(Row(ms, "dht11", None, Some(Num(temp)), Some(Num(hum)), None))
      else None
    else if t == Some(JStr("npk")) then
      var n := Get(body, "n");
      var p := Get(body, "p");
      var k := Get(body, "k");
      if IsNumber(n) && IsNumber(p) && IsNumber(k) then
        Some(Row(ms, "npk", None, Some(Num(n)), Some(Num(p)), Some(Num(k))))
      else None
    else None
  }

  /** A row of one of the three kinds, holding the values its kind needs. */
  predicate Complete(row: Row) {
    || (row.sensorType == "moisture" && row.value1.Some?)
    || (row.sensorType == "dht11" && row.value1.Some? && row.value2.Some?)
    || (row.sensorType == "npk" && row.value1.Some? && row.value2.Some? && row.value3.Some?)
  }

  /** `{ type: 'sensor_update', payload: { ...sensorData, timestamp } }`. */
  function SensorUpdateMsg(fields: seq<(string, Json)>, clock: Clock): Json {
    JObj([("type", JStr("sensor_update")),
          ("payload", JObj(With(fields, "timestamp", JStr(clock.iso))))])
  }

  /** `sensorDataHandler` for a request whose parsed body is `body` (`None`
      when there is none), as the sequence of its effects. */
  function Handle(body: Option<Json>, clock: Clock, outcome: InsertOutcome): (effects: seq<Effect>)
    ensures |effects| >= 1 && effects[|effects| - 1].Respond?
    ensures forall i :: 0 <= i < |effects| - 1 ==> !effects[i].Respond?
  {
    if !Present(body) || !Present(Get(body.value, "type")) then
      [Respond(InvalidFormat)]
    else
      var sensorData := body.value;
      match RowFor(sensorData, clock.ms)
      case Some(row) =>
        if outcome == InsertOk then
          [Write(row), Broadcast(SensorUpdateMsg(sensorData.fields, clock)), Respond(Stored)]
        else
          [Respond(StoreFailed)]
      case None =>
        if Present(Get(sensorData, "type")) then
          [Respond(InvalidForType(Get(sensorData, "type").value))]
        else
          [Respond(NotStored)]
  }

  function ReplyOf(effects: seq<Effect>): Reply
    requires |effects| >= 1 && effects[|effects| - 1].Respond?
  {
    effects[|effects| - 1].reply
  }

  predicate Broadcasts(effects: seq<Effect>) {
    exists i :: 0 <= i < |effects| && effects[i].Broadcast?
  }

  predicate Writes(effects: seq<Effect>) {
    exists i :: 0 <= i < |effects| && effects[i].Write?
  }

  // ---------------------------------------------------------------------
  // Properties of the ingestion handler

  /** A missing body, or one whose `type` is falsy, gets 400 with no write
      and no broadcast. */
  lemma MissingTypeRejected(body: Option<Json>, clock: Clock, outcome: InsertOutcome)
    requires !Present(body) || !Present(Get(body.value, "type"))
    ensures Handle(body, clock, outcome) == [Respond(InvalidFormat)]
    ensures StatusCode(ReplyOf(Handle(body, clock, outcome))) == 400
  {
  }

  /** A moisture post yields a row iff `id` is truthy and `value` is a
      number; the row carries the server time, the id as posted (not only
      'A' or 'B') and the value in `value_1`. */
  lemma MoistureRow(body: Json, ms: int)
    requires Get(body, "type") == Some(JStr("moisture"))
    ensures RowFor(body, ms).Some? <==> Present(Get(body, "id")) && IsNumber(Get(body, "value"))
    ensures RowFor(body, ms).Some? ==>
      RowFor(body, ms).value == Row(ms, "moisture", Get(body, "id"), Some(Get(body, "value").value.n), None, None)
  {
  }

  /** dht11 maps temp and humidity to `value_1`/`value_2`; both must be numbers. */
  lemma ClimateRow(body: Json, ms: int)
    requires Get(body, "type") == Some(JStr("dht11"))
    ensures RowFor(body, ms).Some? <==> IsNumber(Get(body, "temp")) && IsNumber(Get(body, "humidity"))
    ensures RowFor(body, ms).Some? ==>
      RowFor(body, ms).value == Row(ms, "dht11", None, Some(Get(body, "temp").value.n),
                                    Some(Get(body, "humidity").value.n), None)
  {
  }

  /** npk maps n, p, k to `value_1..value_3`; all three must be numbers. */
  lemma NutrientRow(body: Json, ms: int)
    requires Get(body, "type") == Some(JStr("npk"))
    ensures RowFor(body, ms).Some? <==>
      IsNumber(Get(body, "n")) && IsNumber(Get(body, "p")) && IsNumber(Get(body, "k"))
    ensures RowFor(body, ms).Some? ==>
      RowFor(body, ms).value == Row(ms, "npk", None, Some(Get(body, "n").value.n),
                                    Some(Get(body, "p").value.n), Some(Get(body, "k").value.n))
  {
  }

  /** Any other type produces no row. */
  lemma UnknownTypeNoRow(body: Json, ms: int)
    requires Get(body, "type") !in {Some(JStr("moisture")), Some(JStr("dht11")), Some(JStr("npk"))}
    ensures RowFor(body, ms).None?
  {
  }

  /** A truthy type that produced no row, bad fields or an unknown kind
      alike, gets 400 with nothing written or broadcast. */
  lemma NoRowRejected(body: Json, clock: Clock, outcome: InsertOutcome)
    requires Present(Some(body)) && Present(Get(body, "type"))
    requires RowFor(body, clock.ms).None?
    ensures Handle(Some(body), clock, outcome) == [Respond(InvalidForType(Get(body, "type").value))]
  {
  }

  /** The 200 "received but not stored" reply is dead code: every request
      that reaches that `else` already had a truthy type. */
  lemma NotStoredUnreachable(body: Option<Json>, clock: Clock, outcome: InsertOutcome)
    ensures ReplyOf(Handle(body, clock, outcome)) != NotStored
    ensures ReplyOf(Handle(body, clock, outcome)) == Stored ||
            StatusCode(ReplyOf(Handle(body, clock, outcome))) != 200
  {
  }

  /** A valid reading whose insert succeeds is written once, then broadcast
      exactly once as a `sensor_update`, then answered 200; a failed insert
      answers 500 and broadcasts nothing. */
  lemma AcceptedOrdering(body: Json, clock: Clock, outcome: InsertOutcome)
    requires RowFor(body, clock.ms).Some?
    ensures outcome == InsertOk ==>
      Handle(Some(body), clock, outcome) ==
        [Write(RowFor(body, clock.ms).value), Broadcast(SensorUpdateMsg(body.fields, clock)), Respond(Stored)]
    ensures outcome == InsertFail ==>
      Handle(Some(body), clock, outcome) == [Respond(StoreFailed)] &&
      StatusCode(StoreFailed) == 500
  {
    assert Present(Some(body)) && Present(Get(body, "type"));
  }

  /** Broadcasts only follow a successful write. */
  lemma BroadcastNeedsWrite(body: Option<Json>, clock: Clock, outcome: InsertOutcome)
    ensures Broadcasts(Handle(body, clock, outcome)) ==>
      outcome == InsertOk && Handle(body, clock, outcome)[0].Write? && ReplyOf(Handle(body, clock, outcome)) == Stored
    ensures Writes(Handle(body, clock, outcome)) <==> ReplyOf(Handle(body, clock, outcome)) == Stored
  {
    var effects := Handle(body, clock, outcome);
    if ReplyOf(effects) == Stored {
      assert effects[0].Write?;
    }
  }

  /** The broadcast payload is the posted object with `timestamp` replaced
      by the server time; every other key is as posted. */
  lemma PayloadStamped(fields: seq<(string, Json)>, clock: Clock, key: string)
    ensures Get(SensorUpdateMsg(fields, clock), "type") == Some(JStr("sensor_update"))
    ensures Get(SensorUpdateMsg(fields, clock), "payload").Some?
    ensures Get(Get(SensorUpdateMsg(fields, clock), "payload").value, key) ==
      if key == "timestamp" then Some(JStr(clock.iso)) else Find(fields, key)
  {
    var top := SensorUpdateMsg(fields, clock).fields;
    assert DistinctKeys(top);
    FindDistinct(top, 0);
    FindDistinct(top, 1);
    GetWith(fields, "timestamp", JStr(clock.iso), key);
  }

  // ---------------------------------------------------------------------
  // The relay: connected clients and their outgoing messages

  type ClientId = nat

  /** A connection in `wss.clients`: whether its ready state is OPEN and the
      messages sent to it so far, in order. */
  datatype Client = Client(open: bool, outbox: seq<Json>)

  /** Connected clients and the rows written to `sensor_readings`. */
  datatype Server = Server(clients: map<ClientId, Client>, table: seq<Row>)

  const WelcomeMsg: Json :=
    JObj([("type", JStr("info")), ("message", JStr("Welcome to the Vertical Garden WebSocket server!"))])

  const InvalidFormatMsg: Json :=
    JObj([("type", JStr("error")), ("message", JStr("Invalid message format"))])

  /** `broadcast(data)`: the same message to every OPEN client, none to the others. */
  function Fanout(clients: map<ClientId, Client>, msg: Json): (r: map<ClientId, Client>)
    ensures r.Keys == clients.Keys
    ensures forall id :: id in clients && clients[id].open ==>
      r[id] == Client(true, clients[id].outbox + [msg])
    ensures forall id :: id in clients && !clients[id].open ==> r[id] == clients[id]
  {
    map id | id in clients :: if clients[id].open then Client(true, clients[id].outbox + [msg]) else clients[id]
  }

  /** `ws.send(data)` to one client; a socket that is no longer OPEN drops it. */
  function SendTo(clients: map<ClientId, Client>, id: ClientId, msg: Json): (r: map<ClientId, Client>)
    requires id in clients
    ensures r.Keys == clients.Keys
    ensures forall other :: other in clients && other != id ==> r[other] == clients[other]
    ensures r[id].outbox == if clients[id].open then clients[id].outbox + [msg] else clients[id].outbox
  {
    if clients[id].open then clients[id := Client(true, clients[id].outbox + [msg])] else clients
  }

  /** Runs the effects of one request against the server state. */
  function Apply(s: Server, effects: seq<Effect>): Server
    decreases |effects|
  {
    if |effects| == 0 then s
    else
      var s' := match effects[0]
        case Write(row) => s.(table := s.table + [row])
        case Broadcast(msg) => s.(clients := Fanout(s.clients, msg))
        case Respond(_) => s;
      Apply(s', effects[1..])
  }

  /** One POST to `/api/sensor-data`: the reply and the new server state. */
  function Ingest(s: Server, body: Option<Json>, clock: Clock, outcome: InsertOutcome): (Reply, Server) {
    var effects := Handle(body, clock, outcome);
    (ReplyOf(effects), Apply(s, effects))
  }

  /** A new connection starts OPEN and is first sent the welcome `info` message. */
  function Connect(s: Server, id: ClientId): (r: Server)
    requires id !in s.clients
    ensures r.clients.Keys == s.clients.Keys + {id}
    ensures r.clients[id].open && r.clients[id].outbox == [WelcomeMsg]
    ensures Get(r.clients[id].outbox[0], "type") == Some(JStr("info"))
    ensures forall c :: c in s.clients ==> r.clients[c] == s.clients[c]
    ensures r.table == s.table
  {
    s.(clients := s.clients[id := Client(true, [WelcomeMsg])])
  }

  /** The socket starts closing: it stays in the set but is no longer OPEN. */
  function StartClosing(s: Server, id: ClientId): Server
    requires id in s.clients
  {
    s.(clients := s.clients[id := s.clients[id].(open := false)])
  }

  /** The socket has closed and leaves `wss.clients`. */
  function Disconnect(s: Server, id: ClientId): Server {
    s.(clients := s.clients - {id})
  }

  /** A frame as received: text that `JSON.parse` rejects, or a parsed value. */
  datatype Frame = Unparseable | Parsed(value: Json)

  /** `{ type: 'irrigation_state', status }`; `JSON.stringify` omits an
      undefined `status`. */
  function IrrigationStateMsg(status: Option<Json>): Json {
    JObj([("type", JStr("irrigation_state"))] + if status.Some? then [("status", status.value)] else [])
  }

  /** What the `message` handler does with a frame. */
  datatype Reaction = ReplyError | BroadcastMsg(msg: Json) | Ignore

  /** The `try` block of the `message` handler: parse failures and reading a
      property of null or undefined (a null frame, or a control frame with
      no `payload`) end in the `catch`. */
  function React(frame: Frame): Reaction {
    match frame
    case Unparseable => ReplyError
    case Parsed(m) =>
      if m.JNull? then ReplyError
      else if Get(m, "type") == Some(JStr("control")) && Get(m, "action") == Some(JStr("toggle_irrigation")) then
        var payload := Get(m, "payload");
        if ReadThrows(payload) then ReplyError
        else BroadcastMsg(IrrigationStateMsg(Get(payload.value, "status")))
      else Ignore
  }

  /** A frame from client `id`. */
  function Receive(s: Server, id: ClientId, frame: Frame): (r: Server)
    requires id in s.clients
    ensures r.table == s.table && r.clients.Keys == s.clients.Keys
  {
    match React(frame)
    case ReplyError => s.(clients := SendTo(s.clients, id, InvalidFormatMsg))
    case BroadcastMsg(msg) => s.(clients := Fanout(s.clients, msg))
    case Ignore => s
  }

  // ---------------------------------------------------------------------
  // Properties of the relay

  /** A request's state change: the table grows by its write and every open
      client receives its broadcast. */
  lemma IngestEffect(s: Server, body: Json, clock: Clock)
    requires RowFor(body, clock.ms).Some?
    ensures var (reply, s') := Ingest(s, Some(body), clock, InsertOk);
      reply == Stored &&
      s'.table == s.table + [RowFor(body, clock.ms).value] &&
      s'.clients == Fanout(s.clients, SensorUpdateMsg(body.fields, clock))
  {
    AcceptedOrdering(body, clock, InsertOk);
    var row := RowFor(body, clock.ms).value;
    var msg := SensorUpdateMsg(body.fields, clock);
    var effects := Handle(Some(body), clock, InsertOk);
    var s1 := s.(table := s.table + [row]);
    var s2 := s1.(clients := Fanout(s1.clients, msg));
    assert effects[1..] == [Broadcast(msg), Respond(Stored)];
    assert effects[1..][1..] == [Respond(Stored)];
    assert effects[1..][1..][1..] == [];
    assert Apply(s2, effects[1..][1..]) == s2;
    assert Apply(s1, effects[1..]) == s2;
    assert Apply(s, effects) == s2;
  }

  /** Rejected and failed requests leave the server state untouched. */
  lemma IngestRejectUnchanged(s: Server, body: Option<Json>, clock: Clock, outcome: InsertOutcome)
    requires Ingest(s, body, clock, outcome).0 != Stored
    ensures Ingest(s, body, clock, outcome).1 == s
  {
    var effects := Handle(body, clock, outcome);
    if Present(body) && Present(Get(body.value, "type")) && RowFor(body.value, clock.ms).Some? {
      assert outcome == InsertFail;
    }
    assert effects == [Respond(ReplyOf(effects))];
    assert Apply(s, effects) == Apply(s, effects[1..]);
    assert effects[1..] == [];
  }

  /** Broadcasting a list of messages in order. */
  function FanoutAll(clients: map<ClientId, Client>, msgs: seq<Json>): (r: map<ClientId, Client>)
    ensures r.Keys == clients.Keys
    decreases |msgs|
  {
    if |msgs| == 0 then clients else FanoutAll(Fanout(clients, msgs[0]), msgs[1..])
  }

  /** Per-client FIFO: a client that is OPEN receives successive broadcasts
      appended in call order; one that is not OPEN receives none. */
  lemma {:induction false} FanoutAllOrder(clients: map<ClientId, Client>, msgs: seq<Json>, id: ClientId)
    requires id in clients
    ensures FanoutAll(clients, msgs).Keys == clients.Keys
    ensures FanoutAll(clients, msgs)[id] ==
      if clients[id].open then Client(true, clients[id].outbox + msgs) else clients[id]
    decreases |msgs|
  {
    if |msgs| > 0 {
      var next := Fanout(clients, msgs[0]);
      FanoutAllOrder(next, msgs[1..], id);
      if clients[id].open {
        assert clients[id].outbox + [msgs[0]] + msgs[1..] == clients[id].outbox + msgs;
      }
    }
  }

  /** A client that connects before a run of broadcasts receives the welcome
      first and then every broadcast, in call order, as long as it stays OPEN. */
  lemma ConnectThenBroadcasts(s: Server, id: ClientId, msgs: seq<Json>)
    requires id !in s.clients
    ensures id in FanoutAll(Connect(s, id).clients, msgs)
    ensures FanoutAll(Connect(s, id).clients, msgs)[id].outbox == [WelcomeMsg] + msgs
    ensures forall c :: c in s.clients ==>
      FanoutAll(Connect(s, id).clients, msgs)[c] == FanoutAll(s.clients, msgs)[c]
  {
    var r := Connect(s, id);
    FanoutAllOrder(r.clients, msgs, id);
    forall c | c in s.clients
      ensures FanoutAll(r.clients, msgs)[c] == FanoutAll(s.clients, msgs)[c]
    {
      FanoutAllOrder(r.clients, msgs, c);
      FanoutAllOrder(s.clients, msgs, c);
    }
  }

  /** A bad frame is answered with an `error` message to the sender only. */
  lemma BadFrameRepliesToSender(s: Server, id: ClientId, frame: Frame)
    requires id in s.clients && s.clients[id].open
    requires frame.Unparseable? || frame.value.JNull? ||
      (Get(frame.value, "type") == Some(JStr("control")) &&
       Get(frame.value, "action") == Some(JStr("toggle_irrigation")) &&
       ReadThrows(Get(frame.value, "payload")))
    ensures Receive(s, id, frame).clients[id].outbox == s.clients[id].outbox + [InvalidFormatMsg]
    ensures forall other :: other in s.clients && other != id ==> Receive(s, id, frame).clients[other] == s.clients[other]
  {
  }

  /** A toggle command with a payload is re-broadcast to every open client
      as `irrigation_state` carrying `payload.status`. */
  lemma ToggleBroadcast(s: Server, id: ClientId, m: Json)
    requires id in s.clients
    requires Get(m, "type") == Some(JStr("control")) && Get(m, "action") == Some(JStr("toggle_irrigation"))
    requires !ReadThrows(Get(m, "payload"))
    ensures Receive(s, id, Parsed(m)).clients ==
      Fanout(s.clients, IrrigationStateMsg(Get(Get(m, "payload").value, "status")))
  {
  }

  /** Every other parsed, non-null frame changes nothing. */
  lemma OtherFramesIgnored(s: Server, id: ClientId, m: Json)
    requires id in s.clients && !m.JNull?
    requires !(Get(m, "type") == Some(JStr("control")) && Get(m, "action") == Some(JStr("toggle_irrigation")))
    ensures Receive(s, id, Parsed(m)) == s
  {
  }
}

=== FILE: sample.dfy ===
/** The sample-data generator of the current frontend
    (Frontend/src/utils/generateSampleData.ts). The clock is the parameter
    `now`; the hour of a timestamp, the daily sine wave of an hour and the
    random draws are the fields of `Noise`, arbitrary functions, so every
    bound proved here holds whatever they return. */
module SampleData {
  import opened Common

  /** One generated reading. The timestamp is kept as milliseconds (the
      source renders it with `toISOString`). */
  datatype SamplePoint = SamplePoint(time: int, temperature: real, humidity: real, moisture: real, npk: Npk)

  /** `hourOf(t)` is `new Date(t).getHours()`, `wave(h)` is
      `Math.sin(h / 24 * 2π)`, and `rand(i, j)` is the `j`-th call of
      `Math.random()` while building the point with loop index `i`. */
  datatype Noise = Noise(hourOf: int -> int, wave: int -> real, rand: (int, int) -> real)

  /** The `POINTS_PER_HOUR` selection: 1 for any other day count. */
  function PointsPerHour(days: int): (pph: real)
    ensures pph > 0.0
  {
    if days == 1 then 4.0
    else if days == 7 then 1.0
    else if days == 30 then 0.25
    else 1.0
  }

  /** `Math.floor(3600000 / pointsPerHour)`. */
  function IntervalMs(days: int): int {
    (3600000.0 / PointsPerHour(days)).Floor
  }

  /** `Math.floor(days * 24 * pointsPerHour)`. */
  function TotalPoints(days: int): int {
    (days as real * 24.0 * PointsPerHour(days)).Floor
  }

  /** The spacing and the count for each range the app asks for; any other
      positive day count gives hourly points, and a count of zero or less
      gives no points at all. */
  lemma Spacing(days: int)
    ensures days == 1 ==> TotalPoints(days) == 96 && IntervalMs(days) == 900000
    ensures days == 7 ==> TotalPoints(days) == 168 && IntervalMs(days) == 3600000
    ensures days == 30 ==> TotalPoints(days) == 180 && IntervalMs(days) == 14400000
    ensures days != 1 && days != 30 ==> TotalPoints(days) == days * 24 && IntervalMs(days) == 3600000
    ensures days <= 0 ==> TotalPoints(days) <= 0
    ensures IntervalMs(days) > 0
  {
    if days == 30 {
      assert days as real * 24.0 * 0.25 == 180.0;
      assert 3600000.0 / 0.25 == 14400000.0;
    } else if days == 1 {
      assert 3600000.0 / 4.0 == 900000.0;
    } else {
      assert (days as real * 24.0 * 1.0) == (days * 24) as real;
    }
  }

  /** `50 - (i / totalPoints * 10)`. */
  function BaseNpk(i: int, count: int): real
    requires count > 0
  {
    50.0 - (i as real / count as real) * 10.0
  }

  /** `roundToDecimal(Math.max(lo, Math.min(hi, x)))`, with the bounds
      given in tenths: rounding after the clamp stays inside the bounds. */
  function Bounded(loTenths: int, hiTenths: int, x: real): (r: real)
    requires loTenths <= hiTenths
    ensures loTenths as real / 10.0 <= r <= hiTenths as real / 10.0
  {
    var c := Clamp(loTenths as real / 10.0, hiTenths as real / 10.0, x);
    Round1Within(loTenths, hiTenths, c);
    Round1(c)
  }

  /** The loop body for index `i`. */
  function Point(i: int, count: int, interval: int, now: int, noise: Noise): (p: SamplePoint)
    requires count > 0
    ensures p.time == now - i * interval
  {
    var t := now - i * interval;
    var hour := noise.hourOf(t);
    var isDaytime := 6 <= hour <= 18;
    var baseTemp := 23.0 + noise.wave(hour) * 5.0;
    var baseHumidity := 60.0 - noise.wave(hour) * 20.0;
    var baseMoisture := 65.0 - (if isDaytime then 10.0 else 0.0);
    var base := BaseNpk(i, count);
    SamplePoint(t,
      Bounded(180, 280, baseTemp + (noise.rand(i, 0) * 2.0 - 1.0)),
      Bounded(400, 800, baseHumidity + (noise.rand(i, 1) * 5.0 - 2.5)),
      Bounded(300, 900, baseMoisture + (noise.rand(i, 2) * 10.0 - 5.0)),
      Npk(Bounded(200, 800, base + (noise.rand(i, 3) * 5.0 - 2.5)),
          Bounded(200, 800, base + (noise.rand(i, 4) * 5.0 - 2.5)),
          Bounded(200, 800, base + (noise.rand(i, 5) * 5.0 - 2.5))))
  }

  predicate InRanges(p: SamplePoint) {
    && 18.0 <= p.temperature <= 28.0
    && 40.0 <= p.humidity <= 80.0
    && 30.0 <= p.moisture <= 90.0
    && 20.0 <= p.npk.nitrogen <= 80.0
    && 20.0 <= p.npk.phosphorus <= 80.0
    && 20.0 <= p.npk.potassium <= 80.0
  }

  /** Rounding after the clamp stays inside the clamp's bounds, for any
      noise. */
  lemma PointInRanges(i: int, count: int, interval: int, now: int, noise: Noise)
    requires count > 0
    ensures InRanges(Point(i, count, interval, now, noise))
  {
    assert 180 as real / 10.0 == 18.0 && 280 as real / 10.0 == 28.0;
    assert 400 as real / 10.0 == 40.0 && 800 as real / 10.0 == 80.0;
    assert 300 as real / 10.0 == 30.0 && 900 as real / 10.0 == 90.0;
    assert 200 as real / 10.0 == 20.0;
  }

  lemma MulMono(a: int, b: int, c: int)
    requires a < b && c > 0
    ensures a * c < b * c
  {
    assert b * c - a * c == (b - a) * c;
  }

  /** `generateSampleData(days)`: the loop runs `i` from `totalPoints - 1`
      down to 0 and pushes one point per step. */
  method Generate(days: int, now: int, noise: Noise) returns (data: seq<SamplePoint>)
    ensures |data| == if TotalPoints(days) > 0 then TotalPoints(days) else 0
    ensures forall k :: 0 <= k < |data| ==>
      data[k] == Point(|data| - 1 - k, TotalPoints(days), IntervalMs(days), now, noise)
    ensures forall k :: 0 <= k < |data| ==> data[k].time == now - (|data| - 1 - k) * IntervalMs(days)
    ensures forall k :: 0 <= k < |data| ==> InRanges(data[k])
    ensures forall j, k :: 0 <= j < k < |data| ==> data[j].time < data[k].time
    ensures |data| > 0 ==> data[|data| - 1].time == now
  {
    var count := TotalPoints(days);
    data := [];
    if count <= 0 {
      return;
    }
    data := Loop(count, IntervalMs(days), now, noise);
    LoopOutput(data, days, now, noise);
  }

  /** The loop itself: `i` runs from `count - 1` down to 0, and each step
      pushes the point of index `i`. */
  method Loop(count: int, interval: int, now: int, noise: Noise) returns (data: seq<SamplePoint>)
    requires count > 0
    ensures |data| == count
    ensures forall k :: 0 <= k < |data| ==> data[k] == Point(count - 1 - k, count, interval, now, noise)
  {
    data := [];
    var i := count - 1;
    while i >= 0
      invariant -1 <= i < count
      invariant |data| == count - 1 - i
      invariant forall k :: 0 <= k < |data| ==> data[k] == Point(count - 1 - k, count, interval, now, noise)
      decreases i
    {
      data := data + [Point(i, count, interval, now, noise)];
      i := i - 1;
    }
  }

  /** What a run of the loop guarantees about its output. */
  lemma LoopOutput(data: seq<SamplePoint>, days: int, now: int, noise: Noise)
    requires TotalPoints(days) > 0
    requires forall k :: 0 <= k < |data| ==>
      data[k] == Point(|data| - 1 - k, TotalPoints(days), IntervalMs(days), now, noise)
    ensures forall k :: 0 <= k < |data| ==> data[k].time == now - (|data| - 1 - k) * IntervalMs(days)
    ensures forall k :: 0 <= k < |data| ==> InRanges(data[k])
    ensures forall j, k :: 0 <= j < k < |data| ==> data[j].time < data[k].time
    ensures |data| > 0 ==> data[|data| - 1].time == now
  {
    forall k | 0 <= k < |data|
      ensures InRanges(data[k])
    {
      PointInRanges(|data| - 1 - k, TotalPoints(days), IntervalMs(days), now, noise);
    }
    Timeline(data, days, now);
  }

  /** The timestamps: evenly spaced by the interval, strictly increasing,
      the last one `now`. */
  lemma Timeline(data: seq<SamplePoint>, days: int, now: int)
    requires forall k :: 0 <= k < |data| ==> data[k].time == now - (|data| - 1 - k) * IntervalMs(days)
    ensures forall k :: 0 < k < |data| ==> data[k].time - data[k - 1].time == IntervalMs(days)
    ensures forall j, k :: 0 <= j < k < |data| ==> data[j].time < data[k].time
    ensures |data| > 0 ==> data[|data| - 1].time == now
  {
    var iv := IntervalMs(days);
    Spacing(days);
    forall k | 0 < k < |data|
      ensures data[k].time - data[k - 1].time == iv
    {
      assert (|data| - k) * iv == (|data| - 1 - k) * iv + iv;
    }
    forall j, k | 0 <= j < k < |data|
      ensures data[j].time < data[k].time
    {
      MulMono(|data| - 1 - k, |data| - 1 - j, iv);
    }
  }

  /** The nutrient base rises along the output (the loop index falls),
      although the source's comment speaks of a decrease. */
  lemma BaseNpkRises(count: int, j: int, k: int)
    requires 0 <= j < k < count
    ensures BaseNpk(count - 1 - j, count) < BaseNpk(count - 1 - k, count)
  {
    var c := count as real;
    assert (count - 1 - j) as real - (count - 1 - k) as real == (k - j) as real;
    assert (count - 1 - j) as real / c - (count - 1 - k) as real / c == (k - j) as real / c;
  }
}

=== FILE: socket.dfy ===
/** The client's socket manager (Frontend/src/hooks/useWebSocket.ts) as an
    explicit state machine. Browser callbacks and timers are events; the
    hook's React state (`isConnected`) and the socket held in `wsRef` are
    fields. */
module SocketManager {
  import opened Common
  import opened JsonValue
  import opened GardenStore

  /** Close code passed on unmount: normal closure, section 7.4.1 of RFC 6455. */
  const NormalClosure: int := 1000

  /** Delay before a reconnect attempt, in milliseconds. */
  const ReconnectDelayMs: int := 3000

  /** Ready state of the socket held in `wsRef.current`. The hook itself
      only closes a socket while detaching it, so a held socket is never
      seen CLOSING. */
  datatype ReadyState = Connecting | Open | Closed

  datatype Phase = Fresh | Mounted | Unmounted

  /** `held` is `wsRef.current`; `detached` counts sockets closed by the
      effect's cleanup (on unmount, or on StrictMode's re-run) whose close
      event is still due; `timers` counts
      pending `setTimeout(connect, 3000)` callbacks; `dispatched` and `sent`
      record the store actions and the outgoing frames. */
  datatype Hook = Hook(phase: Phase, held: Option<ReadyState>, detached: nat, isConnected: bool,
                       timers: nat, closeCodes: seq<int>, dispatched: seq<Action>, sent: seq<Json>)

  const FreshHook: Hook := Hook(Fresh, None, 0, false, 0, [], [], [])

  /** An incoming frame: text `JSON.parse` rejects, or a parsed value. */
  datatype Frame = Garbage | Text(value: Json)

  /** `Rerun` is React's development-mode StrictMode check (the app is
      rendered under `<React.StrictMode>`): the effect's cleanup and then its
      setup run again on the same, still mounted, hook instance. */
  datatype Event =
    | Mount
    | Rerun
    | SocketOpened
    | FrameIn(frame: Frame, now: int)
    | SocketClosed(wasClean: bool)
    | DetachedClosed(wasClean: bool)
    | TimerFired
    | Unmount
    | SendCommand(command: Json)
    | SendIrrigation(status: bool)

  predicate Live(h: Hook) {
    h.held == Some(Connecting) || h.held == Some(Open)
  }

  /** Events the browser and React can deliver in a state. */
  predicate Enabled(h: Hook, e: Event) {
    match e
    case Mount => h.phase == Fresh
    case Rerun => h.phase == Mounted
    case SocketOpened => h.held == Some(Connecting)
    case FrameIn(_, _) => h.held == Some(Open)
    case SocketClosed(_) => Live(h)
    case DetachedClosed(_) => h.detached > 0
    case TimerFired => h.timers > 0
    case Unmount => h.phase == Mounted
    case _ => true
  }

  /** `connect`: a no-op while the held socket is not CLOSED, otherwise a
      new socket that starts CONNECTING. */
  function Connect(h: Hook): (r: Hook)
    ensures Live(r)
    ensures r.(held := h.held) == h
    ensures Live(h) ==> r.held == h.held
    ensures !Live(h) ==> r.held == Some(Connecting)
  {
    if Live(h) then h else h.(held := Some(Connecting))
  }

  /** Calling `connect` twice opens at most one socket: the second call
      finds the first one live and does nothing. */
  lemma ConnectIdempotent(h: Hook)
    ensures Connect(Connect(h)) == Connect(h)
  {
  }

  /** `setIsConnected`: ignored once the component has unmounted. */
  function SetConnected(h: Hook, b: bool): Hook {
    if h.phase == Mounted then h.(isConnected := b) else h
  }

  /** The sensor payload as the reducer reads it. A payload of a known kind
      without numeric fields is `Unrecognized` here (see README). */
  function DecodeUpdate(p: Option<Json>): SensorUpdate {
    if ReadThrows(p) then Unrecognized
    else
      var v := p.value;
      var t := Get(v, "type");
      if t == Some(JStr("moisture")) then
        if IsNumber(Get(v, "value")) then MoistureUpdate(Get(v, "id"), Get(v, "value").value.n)
        else Unrecognized
      else if t == Some(JStr("dht11")) then
        if IsNumber(Get(v, "temp")) && IsNumber(Get(v, "humidity")) then
          ClimateUpdate(Get(v, "temp").value.n, Get(v, "humidity").value.n)
        else Unrecognized
      else if t == Some(JStr("npk")) then
        if IsNumber(Get(v, "n")) && IsNumber(Get(v, "p")) && IsNumber(Get(v, "k")) then
          NutrientUpdate(Get(v, "n").value.n, Get(v, "p").value.n, Get(v, "k").value.n)
        else Unrecognized
      else Unrecognized
  }

  /** `onmessage`: the actions dispatched for one frame. A frame that does
      not parse, or parses to null (reading `.type` throws), is caught and
      dispatches nothing. */
  function Route(frame: Frame, now: int): (actions: seq<Action>)
    ensures |actions| <= 2
  {
    match frame
    case Garbage => []
    case Text(m) =>
      if m.JNull? then []
      else
        var t := Get(m, "type");
        if t == Some(JStr("sensor_update")) then
          [UpdateSensorData(DecodeUpdate(Get(m, "payload"))), SetLastSync(now)]
        else if t == Some(JStr("irrigation_state")) then
          [SetIrrigationState(Get(m, "status"))]
        else []
  }

  /** `{ type: 'control', action: 'toggle_irrigation', payload: { status } }`. */
  function IrrigationCommand(status: bool): Json {
    JObj([("type", JStr("control")), ("action", JStr("toggle_irrigation")),
          ("payload", JObj([("status", JBool(status))]))])
  }

  /** `sendCommand`: transmitted only while the held socket is OPEN. */
  function Send(h: Hook, command: Json): Hook {
    if h.held == Some(Open) then h.(sent := h.sent + [command]) else h
  }

  /** The effect's cleanup: close the held socket with code 1000 and drop
      the reference; a socket still connecting or open is detached and its
      close event is still due. */
  function Cleanup(h: Hook): (r: Hook)
    ensures r.held.None? && r.phase == h.phase && r.isConnected == h.isConnected
    ensures r.detached == if Live(h) then h.detached + 1 else h.detached
  {
    h.(held := None,
       detached := if Live(h) then h.detached + 1 else h.detached,
       closeCodes := if h.held.Some? then h.closeCodes + [NormalClosure] else h.closeCodes)
  }

  function Step(h: Hook, e: Event): Hook
    requires Enabled(h, e)
  {
    match e
    case Mount => Connect(h).(phase := Mounted)
    case Rerun => Connect(Cleanup(h))
    case SocketOpened => SetConnected(h.(held := Some(Open)), true)
    case FrameIn(frame, now) => h.(dispatched := h.dispatched + Route(frame, now))
    case SocketClosed(clean) =>
      SetConnected(h.(held := Some(Closed), timers := if clean then h.timers else h.timers + 1), false)
    case DetachedClosed(clean) =>
      SetConnected(h.(detached := h.detached - 1, timers := if clean then h.timers else h.timers + 1), false)
    case TimerFired => Connect(h.(timers := h.timers - 1))
    case Unmount => Cleanup(h).(phase := Unmounted)
    case SendCommand(command) => Send(h, command)
    case SendIrrigation(status) => Send(h, IrrigationCommand(status))
  }

  // ---------------------------------------------------------------------
  // Properties

  /** What holds in every reachable state of a production build, where
      the effect runs once per mount: before mounting nothing exists; while
      mounted `isConnected` is exactly "the held socket is OPEN" and no
      socket has been detached. */
  ghost predicate Inv(h: Hook) {
    && (h.phase == Fresh ==> h.held.None? && h.detached == 0 && h.timers == 0 && !h.isConnected)
    && (h.phase == Mounted ==> (h.isConnected <==> h.held == Some(Open)) && h.detached == 0)
  }

  /** What survives StrictMode's re-run as well: while mounted, the hook
      reports a connection only when its held socket is OPEN or a detached
      socket, which may still be open, has not yet reported its close. */
  ghost predicate WeakInv(h: Hook) {
    && (h.phase == Fresh ==> h.held.None? && h.detached == 0 && h.timers == 0 && !h.isConnected)
    && (h.phase == Mounted && h.isConnected ==> h.held == Some(Open) || h.detached > 0)
  }

  /** Every event but the development re-run keeps the exact invariant;
      every event, the re-run included, keeps the weak one, which the exact
      one implies. */
  lemma StepInv(h: Hook, e: Event)
    requires Enabled(h, e)
    ensures Inv(h) && !e.Rerun? ==> Inv(Step(h, e))
    ensures Inv(h) ==> WeakInv(h)
    ensures WeakInv(h) ==> WeakInv(Step(h, e))
  {
  }

  /** Replaying events from the fresh hook. */
  ghost predicate Run(h: Hook, events: seq<Event>, h': Hook)
    decreases |events|
  {
    if |events| == 0 then h' == h
    else Enabled(h, events[0]) && Run(Step(h, events[0]), events[1..], h')
  }

  /** Over any run the weak invariant holds; over a run without the
      development re-run (a production build) the exact one does. */
  lemma {:induction false} RunInv(h: Hook, events: seq<Event>, h': Hook)
    requires Run(h, events, h')
    ensures Inv(h) && (forall k :: 0 <= k < |events| ==> !events[k].Rerun?) ==> Inv(h')
    ensures WeakInv(h) ==> WeakInv(h')
    decreases |events|
  {
    if |events| > 0 {
      StepInv(h, events[0]);
      RunInv(Step(h, events[0]), events[1..], h');
      assert forall k :: 1 <= k < |events| ==> events[1..][k - 1] == events[k];
    }
  }

  /** The re-run breaks the exact invariant in both directions. The first
      socket is detached while still connecting and a second one is made;
      if the second opens before the first reports its (unclean) close, the
      hook ends up with an OPEN socket, `isConnected` false and a reconnect
      timer pending. And a socket that was already OPEN at the re-run leaves
      `isConnected` true while the new socket is only connecting. */
  lemma RerunDesyncs()
    ensures var h := Step(Step(Step(Step(FreshHook, Mount), Rerun), SocketOpened), DetachedClosed(false));
      && h.phase == Mounted && h.held == Some(Open) && !h.isConnected && h.timers == 1
    ensures var h := Step(Step(Step(FreshHook, Mount), SocketOpened), Rerun);
      && h.phase == Mounted && h.held == Some(Connecting) && h.isConnected && h.detached == 1
  {
  }

  /** The guard of `connect`: a reconnect while the held socket is
      CONNECTING or OPEN changes nothing, so the hook never replaces a live
      socket with a second one. */
  lemma ConnectGuard(h: Hook)
    requires h.timers > 0 && Live(h)
    ensures Step(h, TimerFired) == h.(timers := h.timers - 1)
  {
  }

  /** onopen sets `isConnected`; onclose clears it (while mounted). */
  lemma OpenAndCloseFlag(h: Hook, clean: bool)
    requires h.phase == Mounted
    ensures h.held == Some(Connecting) ==> Step(h, SocketOpened).isConnected
    ensures Live(h) ==> !Step(h, SocketClosed(clean)).isConnected
  {
  }

  /** An unclean close schedules exactly one reconnect; a clean close none. */
  lemma CloseSchedules(h: Hook, clean: bool)
    requires Live(h)
    ensures Step(h, SocketClosed(clean)).timers == if clean then h.timers else h.timers + 1
    ensures Step(h, SocketClosed(clean)).held == Some(Closed)
  {
  }

  /** `sensor_update` dispatches UPDATE_SENSOR_DATA and then SET_LAST_SYNC
      with the receive time; `irrigation_state` dispatches its status. */
  lemma RouteKnown(m: Json, now: int)
    ensures Get(m, "type") == Some(JStr("sensor_update")) ==>
      Route(Text(m), now) == [UpdateSensorData(DecodeUpdate(Get(m, "payload"))), SetLastSync(now)]
    ensures Get(m, "type") == Some(JStr("irrigation_state")) ==>
      Route(Text(m), now) == [SetIrrigationState(Get(m, "status"))]
  {
  }

  /** `info`, `error`, unknown types and bad frames dispatch nothing and keep
      the socket. */
  lemma RouteOthers(h: Hook, frame: Frame, now: int)
    requires h.held == Some(Open)
    requires frame.Garbage? || frame.value.JNull? ||
      (Get(frame.value, "type") != Some(JStr("sensor_update")) &&
       Get(frame.value, "type") != Some(JStr("irrigation_state")))
    ensures Step(h, FrameIn(frame, now)) == h
  {
    assert h.dispatched + [] == h.dispatched;
  }

  /** Unmount closes the held socket with code 1000 and drops the reference. */
  lemma UnmountCloses(h: Hook)
    requires h.phase == Mounted && h.held.Some?
    ensures Step(h, Unmount).closeCodes == h.closeCodes + [NormalClosure]
    ensures Step(h, Unmount).held.None? && Step(h, Unmount).phase == Unmounted
  {
  }

  /** The reconnect timer is never cleared: one pending at unmount survives
      it, and when it fires it opens a new socket for a component that is
      gone. */
  lemma ReconnectAfterUnmount(h: Hook)
    requires h.phase == Mounted && h.timers > 0
    ensures Enabled(Step(h, Unmount), TimerFired)
    ensures var after := Step(Step(h, Unmount), TimerFired);
      after.phase == Unmounted && after.held == Some(Connecting) && after.timers == h.timers - 1
  {
  }

  /** A socket that was still connecting when unmounted may end uncleanly,
      which schedules a reconnect after unmount as well. */
  lemma DetachedUncleanReconnects(h: Hook)
    requires h.phase == Mounted && h.held == Some(Connecting)
    ensures var u := Step(h, Unmount);
      u.detached == h.detached + 1 &&
      Step(u, DetachedClosed(false)).timers == h.timers + 1
  {
  }

  /** Commands go out only on an OPEN socket; otherwise they are dropped,
      never queued. */
  lemma SendOnlyWhenOpen(h: Hook, command: Json)
    ensures h.held == Some(Open) ==> Step(h, SendCommand(command)).sent == h.sent + [command]
    ensures h.held != Some(Open) ==> Step(h, SendCommand(command)) == h
  {
  }

  /** The irrigation command has the shape the relay acts on. */
  lemma IrrigationCommandShape(status: bool)
    ensures Get(IrrigationCommand(status), "type") == Some(JStr("control"))
    ensures Get(IrrigationCommand(status), "action") == Some(JStr("toggle_irrigation"))
    ensures Get(IrrigationCommand(status), "payload") == Some(JObj([("status", JBool(status))]))
    ensures Get(Get(IrrigationCommand(status), "payload").value, "status") == Some(JBool(status))
  {
    var fs := [("type", JStr("control")), ("action", JStr("toggle_irrigation")),
               ("payload", JObj([("status", JBool(status))]))];
    var two := fs[..2];
    assert two == [("type", JStr("control")), ("action", JStr("toggle_irrigation"))];
    assert two[..1] == [("type", JStr("control"))];
    assert Find(two, "action") == Some(JStr("toggle_irrigation"));
    assert Find(two[..1], "type") == Some(JStr("control"));
    assert Find(two, "type") == Find(two[..1], "type");
    assert Find(fs, "type") == Find(two, "type");
    assert Find(fs, "action") == Find(two, "action");
  }
}

=== FILE: sorting.dfy ===
/** Sorting by an integer key, as `array.sort((a, b) => key(a) - key(b))`
    does for the timestamp sorts of this system: the result is ordered by
    the key and is a permutation of the input. Elements with equal keys
    keep their input order (JavaScript's sort is stable), which this
    insertion sort also does. */
module Sorting {

  ghost predicate SortedBy<T>(s: seq<T>, key: T -> int) {
    forall i, j :: 0 <= i < j < |s| ==> key(s[i]) <= key(s[j])
  }

  /** Puts `x` in front of the first element whose key is not smaller. */
  function Insert<T>(x: T, s: seq<T>, key: T -> int): (r: seq<T>)
    requires SortedBy(s, key)
    ensures SortedBy(r, key)
    ensures multiset(r) == multiset(s) + multiset{x}
    ensures |r| == |s| + 1
    decreases |s|
  {
    if |s| == 0 || key(x) <= key(s[0]) then
      [x] + s
    else
      var tail := s[1..];
      var rest := Insert(x, tail, key);
      assert s == [s[0]] + tail;
      forall i | 0 <= i < |rest|
        ensures key(s[0]) <= key(rest[i])
      {
        assert rest[i] in multiset(tail) + multiset{x};
        if rest[i] != x {
          var k :| 0 <= k < |tail| && tail[k] == rest[i];
          assert s[k + 1] == rest[i];
        }
      }
      [s[0]] + rest
  }

  /** The ascending, stable sort by `key`. */
  function SortBy<T>(s: seq<T>, key: T -> int): (r: seq<T>)
    ensures SortedBy(r, key)
    ensures multiset(r) == multiset(s)
    ensures |r| == |s|
    decreases |s|
  {
    if |s| == 0 then []
    else
      assert s == [s[0]] + s[1..];
      Insert(s[0], SortBy(s[1..], key), key)
  }

  /** A sorted sequence is its own sort: sorting twice changes nothing. */
  lemma {:induction false} SortSorted<T>(s: seq<T>, key: T -> int)
    requires SortedBy(s, key)
    ensures SortBy(s, key) == s
    decreases |s|
  {
    if |s| > 0 {
      assert SortedBy(s[1..], key);
      SortSorted(s[1..], key);
      assert s == [s[0]] + s[1..];
    }
  }

  /** The elements whose key is `k`, in their order in `s`. */
  function WithKey<T>(s: seq<T>, key: T -> int, k: int): (r: seq<T>)
    ensures forall i :: 0 <= i < |r| ==> key(r[i]) == k
    ensures |r| <= |s|
    decreases |s|
  {
    if |s| == 0 then []
    else (if key(s[0]) == k then [s[0]] else []) + WithKey(s[1..], key, k)
  }

  /** `Insert` puts `x` before every element of equal key. */
  lemma {:induction false} InsertWithKey<T>(x: T, s: seq<T>, key: T -> int, k: int)
    requires SortedBy(s, key)
    ensures WithKey(Insert(x, s, key), key, k) ==
      (if key(x) == k then [x] else []) + WithKey(s, key, k)
    decreases |s|
  {
    if |s| == 0 || key(x) <= key(s[0]) {
      assert ([x] + s)[1..] == s;
    } else {
      var tail := s[1..];
      assert SortedBy(tail, key);
      InsertWithKey(x, tail, key, k);
      var r := Insert(x, s, key);
      assert r == [s[0]] + Insert(x, tail, key);
      assert r[1..] == Insert(x, tail, key);
      assert WithKey(s, key, k) == (if key(s[0]) == k then [s[0]] else []) + WithKey(tail, key, k);
    }
  }

  /** Stability: sorting keeps the input order among elements of equal key. */
  lemma {:induction false} SortStable<T>(s: seq<T>, key: T -> int, k: int)
    ensures WithKey(SortBy(s, key), key, k) == WithKey(s, key, k)
    decreases |s|
  {
    if |s| > 0 {
      SortStable(s[1..], key, k);
      InsertWithKey(s[0], SortBy(s[1..], key), key, k);
    }
  }

  /** Membership is preserved by sorting. */
  lemma SortMembers<T>(s: seq<T>, key: T -> int, x: T)
    ensures x in SortBy(s, key) <==> x in s
  {
    var r := SortBy(s, key);
    assert x in r <==> x in multiset(r);
    assert x in s <==> x in multiset(s);
  }
}

=== FILE: status.dfy ===
/** The threshold classifiers and the freshness label of the dashboard
    cards: SensorCard, NPKTile (Frontend/src/components/SensorCard.tsx,
    NPKTile.tsx) and VisualGarden (Frontend/src/components/VisualGarden.tsx).
    The store's state has no `thresholds` or `advicePopup` member, so both
    are parameters here: thresholds as a map from key to number (a missing
    key reads as `undefined`), the popup as the nutrient it shows, if any. */
module Status {
  import opened Common
  import GardenStore

  type Thresholds = map<string, real>

  function Lookup(th: Thresholds, key: string): Option<real> {
    if key in th then Some(th[key]) else None
  }

  /** `value < t` and `value > t`; any comparison with `undefined` is
      false. */
  predicate Below(value: real, t: Option<real>) {
    t.Some? && value < t.value
  }

  predicate Above(value: real, t: Option<real>) {
    t.Some? && value > t.value
  }

  // ---------------------------------------------------------------------
  // Status colour of SensorCard and NPKTile

  datatype Tone = Red | Yellow | Green

  /** `getStatusColor`: the low test first, then the high test. */
  function StatusColor(value: real, low: Option<real>, high: Option<real>): Tone {
    if Below(value, low) then Red
    else if Above(value, high) then Yellow
    else Green
  }

  /** Red exactly below the low threshold, yellow exactly above the high
      one and not below the low one, green otherwise; the bounds themselves
      are green, and with low above high a value in between is red. */
  lemma StatusColorCases(value: real, low: real, high: real)
    ensures StatusColor(value, Some(low), Some(high)) == Red <==> value < low
    ensures StatusColor(value, Some(low), Some(high)) == Yellow <==> low <= value && high < value
    ensures StatusColor(value, Some(low), Some(high)) == Green <==> low <= value <= high
    ensures value == low && low <= high ==> StatusColor(value, Some(low), Some(high)) == Green
    ensures value == high && low <= high ==> StatusColor(value, Some(low), Some(high)) == Green
  {
  }

  /** A missing threshold never fires. */
  lemma MissingThresholds(value: real)
    ensures StatusColor(value, None, None) == Green
  {
  }

  datatype CardKind = MoistureCard | TemperatureCard | HumidityCard

  /** The threshold keys each SensorCard kind reads. */
  function CardKeys(kind: CardKind): (keys: (string, string))
    ensures keys.0 != keys.1
  {
    match kind
    case MoistureCard => ("moistureLow", "moistureHigh")
    case TemperatureCard => ("tempLow", "tempHigh")
    case HumidityCard => ("humidityLow", "humidityHigh")
  }

  function CardColor(kind: CardKind, value: real, th: Thresholds): Tone {
    StatusColor(value, Lookup(th, CardKeys(kind).0), Lookup(th, CardKeys(kind).1))
  }

  /** Each kind reads its own pair of keys, no two kinds share one, so a
      threshold change of one kind never recolours a card of another. */
  lemma CardKeysDistinct(a: CardKind, b: CardKind)
    requires a != b
    ensures CardKeys(a).0 != CardKeys(b).0 && CardKeys(a).1 != CardKeys(b).1
    ensures CardKeys(a).0 != CardKeys(b).1
  {
  }

  lemma CardColorReads(kind: CardKind, value: real, th: Thresholds, key: string, t: real)
    requires key != CardKeys(kind).0 && key != CardKeys(kind).1
    ensures CardColor(kind, value, th[key := t]) == CardColor(kind, value, th)
  {
  }

  // ---------------------------------------------------------------------
  // NPKTile keys and advice

  function NutrientName(n: GardenStore.Nutrient): string {
    match n
    case Nitrogen => "Nitrogen"
    case Phosphorus => "Phosphorus"
    case Potassium => "Potassium"
  }

  /** `toLowerCase` on ASCII letters. */
  function LowerChar(c: char): char {
    if 'A' <= c <= 'Z' then (c as int + 32) as char else c
  }

  function ToLower(s: string): (r: string)
    ensures |r| == |s|
    ensures forall i :: 0 <= i < |s| ==> r[i] == LowerChar(s[i])
  {
    seq(|s|, i requires 0 <= i < |s| => LowerChar(s[i]))
  }

  function AdviceKey(n: GardenStore.Nutrient): string {
    ToLower(NutrientName(n)) + "AdviceLow"
  }

  function LowKey(n: GardenStore.Nutrient): string {
    ToLower(NutrientName(n)) + "Low"
  }

  function HighKey(n: GardenStore.Nutrient): string {
    ToLower(NutrientName(n)) + "High"
  }

  /** The derived keys spelled out. */
  lemma NutrientKeys()
    ensures AdviceKey(GardenStore.Nitrogen) == "nitrogenAdviceLow"
    ensures LowKey(GardenStore.Phosphorus) == "phosphorusLow"
    ensures HighKey(GardenStore.Potassium) == "potassiumHigh"
    ensures LowKey(GardenStore.Nitrogen) == "nitrogenLow" && HighKey(GardenStore.Nitrogen) == "nitrogenHigh"
  {
    assert ToLower("Nitrogen") == "nitrogen";
    assert ToLower("Phosphorus") == "phosphorus";
    assert ToLower("Potassium") == "potassium";
  }

  function TileColor(n: GardenStore.Nutrient, value: real, th: Thresholds): Tone {
    StatusColor(value, Lookup(th, LowKey(n)), Lookup(th, HighKey(n)))
  }

  /** The advice effect: SHOW_ADVICE_POPUP for this nutrient when the value
      is below its advice threshold and the popup does not already show
      this nutrient. */
  function Advice(n: GardenStore.Nutrient, value: real, th: Thresholds, shown: Option<GardenStore.Nutrient>)
    : (r: Option<GardenStore.Action>)
    ensures r.Some? ==> r.value == GardenStore.ShowAdvicePopup(n)
  {
    if Below(value, Lookup(th, AdviceKey(n))) && shown != Some(n) then
      Some(GardenStore.ShowAdvicePopup(n))
    else None
  }

  /** The effect fires exactly below the advice threshold while the popup
      is not on this nutrient; another nutrient's popup does not stop it. */
  lemma AdviceFires(n: GardenStore.Nutrient, value: real, th: Thresholds, shown: Option<GardenStore.Nutrient>)
    ensures Advice(n, value, th, shown).Some? <==>
      AdviceKey(n) in th && value < th[AdviceKey(n)] && shown != Some(n)
    ensures AdviceKey(n) in th && value >= th[AdviceKey(n)] ==> Advice(n, value, th, shown).None?
    ensures Advice(n, value, th, Some(n)).None?
  {
  }

  lemma NoSingleSlot(n: GardenStore.Nutrient, other: GardenStore.Nutrient, value: real, th: Thresholds)
    requires n != other
    requires AdviceKey(n) in th && value < th[AdviceKey(n)]
    ensures Advice(n, value, th, Some(other)) == Some(GardenStore.ShowAdvicePopup(n))
  {
  }

  // ---------------------------------------------------------------------
  // Freshness label, identical in SensorCard and NPKTile

  datatype SyncLabel = Never | JustNow | MinutesAgo(m: int) | HoursAgo(h: int) | DaysAgo(d: int)

  const MinuteMs: int := 60000

  /** `formatLastSync`: `Math.floor` of a division by a positive constant
      is Dafny's `/`. */
  function FormatLastSync(lastSync: Option<int>, now: int): SyncLabel {
    if lastSync.None? || lastSync.value == 0 then Never
    else
      var diff := now - lastSync.value;
      var minutes := diff / MinuteMs;
      if minutes < 1 then JustNow
      else if minutes < 60 then MinutesAgo(minutes)
      else
        var hours := minutes / 60;
        if hours < 24 then HoursAgo(hours)
        else DaysAgo(hours / 24)
  }

  /** The label as a function of the elapsed time: a diff under a minute
      (negative ones included) is "Just now"; after that each label holds
      the whole number of elapsed minutes, hours or days, where that number
      is the largest one not over the diff. */
  lemma FormatLastSyncIntervals(t: int, now: int)
    requires t != 0
    ensures FormatLastSync(Some(t), now) == JustNow <==> now - t < MinuteMs
    ensures FormatLastSync(Some(t), now).MinutesAgo? <==> MinuteMs <= now - t < 60 * MinuteMs
    ensures FormatLastSync(Some(t), now).HoursAgo? <==> 60 * MinuteMs <= now - t < 24 * 60 * MinuteMs
    ensures FormatLastSync(Some(t), now).DaysAgo? <==> 24 * 60 * MinuteMs <= now - t
    ensures FormatLastSync(Some(t), now).MinutesAgo? ==>
      var m := FormatLastSync(Some(t), now).m; m * MinuteMs <= now - t < (m + 1) * MinuteMs
    ensures FormatLastSync(Some(t), now).HoursAgo? ==>
      var h := FormatLastSync(Some(t), now).h; h * 3600000 <= now - t < (h + 1) * 3600000
    ensures FormatLastSync(Some(t), now).DaysAgo? ==>
      var d := FormatLastSync(Some(t), now).d; d >= 1 && d * 86400000 <= now - t < (d + 1) * 86400000
  {
    var diff := now - t;
    var m := diff / MinuteMs;
    var h := m / 60;
    var d := h / 24;
    assert m * 60000 <= diff < m * 60000 + 60000;
    assert h * 60 <= m < h * 60 + 60;
    assert d * 24 <= h < d * 24 + 24;
    assert h * 3600000 <= diff < h * 3600000 + 3600000;
    assert d * 86400000 <= diff < d * 86400000 + 86400000;
  }

  lemma NeverSynced(now: int)
    ensures FormatLastSync(None, now) == Never
    ensures FormatLastSync(Some(0), now) == Never
  {
  }

  /** The text the card shows. */
  function SyncText(l: SyncLabel): string {
    match l
    case Never => "Never"
    case JustNow => "Just now"
    case MinutesAgo(m) => Decimal(m) + "m ago"
    case HoursAgo(h) => Decimal(h) + "h ago"
    case DaysAgo(d) => Decimal(d) + "d ago"
  }

  /** The decimal rendering of a non-negative integer: digits only, with no
      leading zero unless the number is zero itself. */
  function Decimal(n: int): (s: string)
    ensures |s| >= 1
    ensures forall i :: 0 <= i < |s| ==> '0' <= s[i] <= '9'
    ensures n >= 10 ==> s[0] != '0'
    decreases if n < 0 then 0 else n
  {
    if n < 10 then [Digit(if n < 0 then 0 else n)]
    else Decimal(n / 10) + [Digit(n % 10)]
  }

  function Digit(d: int): (c: char)
    requires 0 <= d < 10
    ensures '0' <= c <= '9'
  {
    ('0' as int + d) as char
  }

  function DigitValue(c: char): int {
    c as int - '0' as int
  }

  function DecimalValue(s: string): int
    decreases |s|
  {
    if |s| == 0 then 0 else DecimalValue(s[..|s| - 1]) * 10 + DigitValue(s[|s| - 1])
  }

  /** The rendering reads back as the number. */
  lemma {:induction false} DecimalRoundTrip(n: int)
    requires n >= 0
    ensures DecimalValue(Decimal(n)) == n
    decreases n
  {
    if n >= 10 {
      DecimalRoundTrip(n / 10);
      var s := Decimal(n);
      assert s[..|s| - 1] == Decimal(n / 10);
    } else {
      assert Decimal(n)[..0] == [];
    }
  }

  // ---------------------------------------------------------------------
  // VisualGarden

  datatype Section = RedSection | BlueSection | GreenSection

  /** `getSectionColor`, whose thresholds read `undefined` when the key is
      missing. */
  function SectionColor(value: real, low: Option<real>, high: Option<real>): Section {
    if Below(value, low) then RedSection
    else if Above(value, high) then BlueSection
    else GreenSection
  }

  /** The garden view agrees with a moisture SensorCard on red and green
      and uses blue where the card uses yellow. */
  lemma SectionMatchesCard(value: real, th: Thresholds)
    ensures SectionColor(value, Lookup(th, "moistureLow"), Lookup(th, "moistureHigh")) == RedSection <==>
      CardColor(MoistureCard, value, th) == Red
    ensures SectionColor(value, Lookup(th, "moistureLow"), Lookup(th, "moistureHigh")) == BlueSection <==>
      CardColor(MoistureCard, value, th) == Yellow
    ensures SectionColor(value, Lookup(th, "moistureLow"), Lookup(th, "moistureHigh")) == GreenSection <==>
      CardColor(MoistureCard, value, th) == Green
  {
  }

  /** The two sections read the same pair of thresholds, so equal moisture
      readings get equal colours; a section is red exactly below a present
      low threshold. */
  function GardenColors(d: GardenStore.SensorData, th: Thresholds): (colors: (Section, Section))
    ensures d.moistureA == d.moistureB ==> colors.0 == colors.1
    ensures colors.0 == RedSection <==> "moistureLow" in th && d.moistureA < th["moistureLow"]
    ensures colors.1 == RedSection <==> "moistureLow" in th && d.moistureB < th["moistureLow"]
  {
    (SectionColor(d.moistureA, Lookup(th, "moistureLow"), Lookup(th, "moistureHigh")),
     SectionColor(d.moistureB, Lookup(th, "moistureLow"), Lookup(th, "moistureHigh")))
  }
}

=== FILE: store.dfy ===
/** The client state store of the current frontend
    (Frontend/src/contexts/GardenContext.tsx): the state record, its initial
    value and the reducer. */
module GardenStore {
  import opened Common
  import opened JsonValue

  datatype SensorData = SensorData(moistureA: real, moistureB: real, temperature: real,
                                   humidity: real, npk: Npk)

  /** `irrigation` holds what SET_IRRIGATION_STATE was given: the relay
      passes a client's `status` through unchecked, so it is kept as a
      JavaScript value (`None` is `undefined`). */
  datatype GardenState = GardenState(irrigation: Option<Json>, darkMode: bool,
                                     sensorData: SensorData, lastSync: Option<int>)

  /** A `sensor_update` payload as the reducer's inner switch reads it. */
  datatype SensorUpdate =
    | MoistureUpdate(id: Option<Json>, value: real)
    | ClimateUpdate(temp: real, humidity: real)
    | NutrientUpdate(n: real, p: real, k: real)
    | Unrecognized

  datatype Nutrient = Nitrogen | Phosphorus | Potassium

  /** Every action that is dispatched to this store. SHOW_ADVICE_POPUP and
      HIDE_ADVICE_POPUP are dispatched by components although the reducer
      has no case for them; `OtherAction` stands for any other type tag. */
  datatype Action =
    | ToggleIrrigation
    | SetIrrigationState(status: Option<Json>)
    | ToggleDarkMode
    | UpdateSensorData(payload: SensorUpdate)
    | SetLastSync(at: int)
    | ShowAdvicePopup(nutrient: Nutrient)
    | HideAdvicePopup
    | OtherAction(tag: string)

  const InitialState: GardenState :=
    GardenState(Some(JBool(false)), false, SensorData(0.0, 0.0, 0.0, 0.0, ZeroNpk), None)

  /** The inner `switch (payload.type)` of UPDATE_SENSOR_DATA. */
  function ApplyUpdate(d: SensorData, p: SensorUpdate): SensorData {
    match p
    case MoistureUpdate(id, v) =>
      d.(moistureA := if id == Some(JStr("A")) then v else d.moistureA,
         moistureB := if id == Some(JStr("B")) then v else d.moistureB)
    case ClimateUpdate(t, h) => d.(temperature := t, humidity := h)
    case NutrientUpdate(n, p, k) => d.(npk := Npk(n, p, k))
    case Unrecognized => d
  }

  /** `gardenReducer`. Each field is changed only by the actions named in
      its clause. */
  function Reduce(s: GardenState, a: Action): (r: GardenState)
    ensures r.darkMode != s.darkMode ==> a == ToggleDarkMode
    ensures r.lastSync != s.lastSync ==> a.SetLastSync?
    ensures r.irrigation != s.irrigation ==> a == ToggleIrrigation || a.SetIrrigationState?
    ensures r.sensorData != s.sensorData ==> a.UpdateSensorData?
  {
    match a
    case ToggleIrrigation => s.(irrigation := Some(JBool(!Present(s.irrigation))))
    case SetIrrigationState(status) => s.(irrigation := status)
    case ToggleDarkMode => s.(darkMode := !s.darkMode)
    case UpdateSensorData(p) => if p.Unrecognized? then s else s.(sensorData := ApplyUpdate(s.sensorData, p))
    case SetLastSync(t) => s.(lastSync := Some(t))
    case _ => s
  }

  /** Dispatching a list of actions in order. */
  function ReduceAll(s: GardenState, actions: seq<Action>): GardenState
    decreases |actions|
  {
    if |actions| == 0 then s else ReduceAll(Reduce(s, actions[0]), actions[1..])
  }

  // ---------------------------------------------------------------------
  // Properties

  /** Initial state: both flags off, every reading zero, never synced. */
  lemma InitialStateZero()
    ensures !Present(InitialState.irrigation) && InitialState.irrigation == Some(JBool(false))
    ensures !InitialState.darkMode && InitialState.lastSync.None?
    ensures var d := InitialState.sensorData;
      d.moistureA == d.moistureB == d.temperature == d.humidity == 0.0 &&
      d.npk.nitrogen == d.npk.phosphorus == d.npk.potassium == 0.0
  {
  }

  predicate IsBoolean(x: Option<Json>) {
    x.Some? && x.value.JBool?
  }

  /** TOGGLE_IRRIGATION negates the flag and nothing else; on a boolean flag
      applying it twice restores the state. */
  lemma ToggleIrrigationInvolution(s: GardenState)
    requires IsBoolean(s.irrigation)
    ensures Reduce(s, ToggleIrrigation) == s.(irrigation := Some(JBool(!s.irrigation.value.b)))
    ensures Reduce(Reduce(s, ToggleIrrigation), ToggleIrrigation) == s
  {
  }

  /** SET_IRRIGATION_STATE stores its payload, changes nothing else, and
      applying it twice is the same as once. */
  lemma SetIrrigationIdempotent(s: GardenState, status: Option<Json>)
    ensures Reduce(s, SetIrrigationState(status)).irrigation == status
    ensures Reduce(s, SetIrrigationState(status)) == s.(irrigation := status)
    ensures Reduce(Reduce(s, SetIrrigationState(status)), SetIrrigationState(status)) ==
            Reduce(s, SetIrrigationState(status))
  {
  }

  /** TOGGLE_DARK_MODE is an involution that changes only `darkMode`. */
  lemma ToggleDarkModeInvolution(s: GardenState)
    ensures Reduce(s, ToggleDarkMode) == s.(darkMode := !s.darkMode)
    ensures Reduce(Reduce(s, ToggleDarkMode), ToggleDarkMode) == s
  {
  }

  /** Moisture with id 'A' changes only moistureA, 'B' only moistureB, any
      other id no reading at all. */
  lemma MoistureTargets(s: GardenState, id: Option<Json>, v: real)
    ensures var r := Reduce(s, UpdateSensorData(MoistureUpdate(id, v)));
      r.irrigation == s.irrigation && r.darkMode == s.darkMode && r.lastSync == s.lastSync &&
      (id == Some(JStr("A")) ==> r.sensorData == s.sensorData.(moistureA := v)) &&
      (id == Some(JStr("B")) ==> r.sensorData == s.sensorData.(moistureB := v)) &&
      (id != Some(JStr("A")) && id != Some(JStr("B")) ==> r == s)
  {
  }

  /** dht11 writes temperature and humidity together; npk replaces the three
      nutrients together; neither touches moisture. */
  lemma ClimateAndNutrientTargets(s: GardenState, t: real, h: real, n: real, p: real, k: real)
    ensures Reduce(s, UpdateSensorData(ClimateUpdate(t, h))) ==
            s.(sensorData := s.sensorData.(temperature := t, humidity := h))
    ensures Reduce(s, UpdateSensorData(NutrientUpdate(n, p, k))) ==
            s.(sensorData := s.sensorData.(npk := Npk(n, p, k)))
  {
  }

  /** An unknown payload kind, an unknown action, and the popup actions the
      reducer has no case for all return the state unchanged. */
  lemma Unhandled(s: GardenState, nutrient: Nutrient, tag: string)
    ensures Reduce(s, UpdateSensorData(Unrecognized)) == s
    ensures Reduce(s, OtherAction(tag)) == s
    ensures Reduce(s, ShowAdvicePopup(nutrient)) == s
    ensures Reduce(s, HideAdvicePopup) == s
  {
  }

  /** SET_LAST_SYNC changes only `lastSync`. */
  lemma SetLastSyncOnly(s: GardenState, t: int)
    ensures Reduce(s, SetLastSync(t)) == s.(lastSync := Some(t))
  {
  }

  /** The irrigation flag stays a boolean as long as every
      SET_IRRIGATION_STATE carries a boolean. */
  lemma {:induction false} IrrigationStaysBoolean(s: GardenState, actions: seq<Action>)
    requires IsBoolean(s.irrigation)
    requires forall i :: 0 <= i < |actions| && actions[i].SetIrrigationState? ==> IsBoolean(actions[i].status)
    ensures IsBoolean(ReduceAll(s, actions).irrigation)
    decreases |actions|
  {
    if |actions| > 0 {
      IrrigationStaysBoolean(Reduce(s, actions[0]), actions[1..]);
    }
  }

  /** A non-boolean status from the relay is stored as is. */
  lemma NonBooleanStatusStored()
    ensures Reduce(InitialState, SetIrrigationState(Some(JStr("on")))).irrigation == Some(JStr("on"))
    ensures !IsBoolean(Reduce(InitialState, SetIrrigationState(None)).irrigation)
  {
  }
}

=== FILE: trend.dfy ===
/** The single-series trend chart (Frontend/src/components/TrendChart.tsx):
    `processRawData` selects one series from the raw rows and sorts it by
    time, and `filteredData` keeps the points inside the chosen window. */
module Trend {
  import opened Common
  import opened RawHistory
  import opened Sorting

  /** A chart point: the row's own timestamp and the selected value. */
  datatype TrendPoint = TrendPoint(time: int, value: real)

  function PointTime(q: TrendPoint): int {
    q.time
  }

  /** The chart point a row supplies when its selected slot is not null. */
  function PointOf(row: RawPoint, target: Series): TrendPoint
    requires Reading(row, target).Some?
  {
    TrendPoint(row.time, Reading(row, target).value)
  }

  /** Which rows carry a non-null reading of the target. */
  function Flags(raw: seq<RawPoint>, target: Series): (f: seq<bool>)
    ensures |f| == |raw|
    ensures forall k :: 0 <= k < |raw| ==> f[k] == Reading(raw[k], target).Some?
  {
    seq(|raw|, k requires 0 <= k < |raw| => Reading(raw[k], target).Some?)
  }

  /** `idx` lists, in ascending order, each position where `flags` holds,
      and only those. */
  ghost predicate Lists(idx: seq<int>, flags: seq<bool>) {
    && (forall j :: 0 <= j < |idx| ==> 0 <= idx[j] < |flags| && flags[idx[j]])
    && (forall i, j :: 0 <= i < j < |idx| ==> idx[i] < idx[j])
    && (forall k :: 0 <= k < |flags| && flags[k] ==> k in idx)
  }

  function Shift(s: seq<int>): (r: seq<int>)
    ensures |r| == |s|
    ensures forall j :: 0 <= j < |s| ==> r[j] == s[j] + 1
  {
    seq(|s|, j requires 0 <= j < |s| => s[j] + 1)
  }

  /** The positions where `flags` holds. */
  ghost function Positions(flags: seq<bool>): (idx: seq<int>)
    ensures Lists(idx, flags)
    decreases |flags|
  {
    if |flags| == 0 then []
    else
      var rest := Positions(flags[1..]);
      PositionsStep(flags, rest);
      if flags[0] then [0] + Shift(rest) else Shift(rest)
  }

  lemma PositionsStep(flags: seq<bool>, rest: seq<int>)
    requires |flags| > 0 && Lists(rest, flags[1..])
    ensures Lists(if flags[0] then [0] + Shift(rest) else Shift(rest), flags)
  {
    var idx := if flags[0] then [0] + Shift(rest) else Shift(rest);
    var off := if flags[0] then 1 else 0;
    assert |idx| == |rest| + off;
    assert forall j :: off <= j < |idx| ==> idx[j] == rest[j - off] + 1;
    PositionsInRange(flags, rest, idx, off);
    PositionsAscend(rest, idx, off);
    PositionsCover(flags, rest, idx, off);
  }

  lemma PositionsInRange(flags: seq<bool>, rest: seq<int>, idx: seq<int>, off: int)
    requires |flags| > 0 && Lists(rest, flags[1..])
    requires off == (if flags[0] then 1 else 0) && |idx| == |rest| + off
    requires off == 1 ==> idx[0] == 0
    requires forall j :: off <= j < |idx| ==> idx[j] == rest[j - off] + 1
    ensures forall j :: 0 <= j < |idx| ==> 0 <= idx[j] < |flags| && flags[idx[j]]
  {
    forall j | off <= j < |idx|
      ensures 0 <= idx[j] < |flags| && flags[idx[j]]
    {
      assert flags[1..][rest[j - off]] == flags[idx[j]];
    }
  }

  lemma PositionsAscend(rest: seq<int>, idx: seq<int>, off: int)
    requires forall j :: 0 <= j < |rest| ==> 0 <= rest[j]
    requires forall i, j :: 0 <= i < j < |rest| ==> rest[i] < rest[j]
    requires 0 <= off <= 1 && |idx| == |rest| + off
    requires off == 1 ==> idx[0] == 0
    requires forall j :: off <= j < |idx| ==> idx[j] == rest[j - off] + 1
    ensures forall i, j :: 0 <= i < j < |idx| ==> idx[i] < idx[j]
  {
    forall i, j | 0 <= i < j < |idx|
      ensures idx[i] < idx[j]
    {
      if i >= off {
        assert rest[i - off] < rest[j - off];
      }
    }
  }

  lemma PositionsCover(flags: seq<bool>, rest: seq<int>, idx: seq<int>, off: int)
    requires |flags| > 0 && Lists(rest, flags[1..])
    requires off == (if flags[0] then 1 else 0) && |idx| == |rest| + off
    requires off == 1 ==> idx[0] == 0
    requires forall j :: off <= j < |idx| ==> idx[j] == rest[j - off] + 1
    ensures forall k :: 0 <= k < |flags| && flags[k] ==> k in idx
  {
    forall k | 0 <= k < |flags| && flags[k]
      ensures k in idx
    {
      if k == 0 {
        assert idx[0] == 0;
      } else {
        assert flags[1..][k - 1] == flags[k];
        var j :| 0 <= j < |rest| && rest[j] == k - 1;
        assert idx[j + off] == k;
      }
    }
  }

  /** The points of the rows at positions `idx`, in that order. */
  ghost function Gather(raw: seq<RawPoint>, target: Series, idx: seq<int>): (out: seq<TrendPoint>)
    requires forall j :: 0 <= j < |idx| ==> 0 <= idx[j] < |raw| && Reading(raw[idx[j]], target).Some?
    ensures |out| == |idx|
  {
    seq(|idx|, j requires 0 <= j < |idx| => PointOf(raw[idx[j]], target))
  }

  /** The reference series: one point per row with a reading, in row order. */
  ghost function Expected(raw: seq<RawPoint>, target: Series): seq<TrendPoint> {
    Gather(raw, target, Positions(Flags(raw, target)))
  }

  /** The `forEach`: rows whose selected slot is null (including every row
      of another kind) are skipped, the rest are pushed in input order, so
      the result is exactly the reference series. */
  function Select(raw: seq<RawPoint>, target: Series): (out: seq<TrendPoint>)
    ensures |out| <= |raw|
    ensures out == Expected(raw, target)
    ensures forall k :: 0 <= k < |raw| && Reading(raw[k], target).Some? ==>
      TrendPoint(raw[k].time, Reading(raw[k], target).value) in out
    ensures forall q :: q in out ==>
      exists k :: 0 <= k < |raw| && raw[k].time == q.time && Reading(raw[k], target) == Some(q.value)
    decreases |raw|
  {
    if |raw| == 0 then []
    else
      var rest := Select(raw[1..], target);
      assert forall k :: 1 <= k < |raw| ==> raw[k] == raw[1..][k - 1];
      var r := Reading(raw[0], target);
      SelectStep(raw, target, rest);
      if r.Some? then [TrendPoint(raw[0].time, r.value)] + rest else rest
  }

  /** One step of the loop agrees with the reference series. */
  lemma SelectStep(raw: seq<RawPoint>, target: Series, rest: seq<TrendPoint>)
    requires |raw| > 0 && rest == Expected(raw[1..], target)
    ensures Reading(raw[0], target).Some? ==> [PointOf(raw[0], target)] + rest == Expected(raw, target)
    ensures Reading(raw[0], target).None? ==> rest == Expected(raw, target)
  {
    var flags := Flags(raw, target);
    FlagsTail(raw, target);
    var tail := Positions(flags[1..]);
    assert Positions(flags) == if flags[0] then [0] + Shift(tail) else Shift(tail);
    GatherShift(raw, target, tail);
    if flags[0] {
      GatherCons(raw, target, Shift(tail));
    }
  }

  lemma FlagsTail(raw: seq<RawPoint>, target: Series)
    requires |raw| > 0
    ensures Flags(raw[1..], target) == Flags(raw, target)[1..]
  {
  }

  /** Shifting positions by one reads the same rows one place further on. */
  lemma GatherShift(raw: seq<RawPoint>, target: Series, idx: seq<int>)
    requires |raw| > 0
    requires forall j :: 0 <= j < |idx| ==> 0 <= idx[j] < |raw| - 1 && Reading(raw[1..][idx[j]], target).Some?
    ensures forall j :: 0 <= j < |idx| ==> 0 <= Shift(idx)[j] < |raw| && Reading(raw[Shift(idx)[j]], target).Some?
    ensures Gather(raw, target, Shift(idx)) == Gather(raw[1..], target, idx)
  {
    forall j | 0 <= j < |idx|
      ensures raw[Shift(idx)[j]] == raw[1..][idx[j]]
    {
    }
  }

  lemma GatherCons(raw: seq<RawPoint>, target: Series, idx: seq<int>)
    requires |raw| > 0 && Reading(raw[0], target).Some?
    requires forall j :: 0 <= j < |idx| ==> 0 <= idx[j] < |raw| && Reading(raw[idx[j]], target).Some?
    ensures Gather(raw, target, [0] + idx) == [PointOf(raw[0], target)] + Gather(raw, target, idx)
  {
    var l := Gather(raw, target, [0] + idx);
    var r := [PointOf(raw[0], target)] + Gather(raw, target, idx);
    forall j | 0 <= j < |l|
      ensures l[j] == r[j]
    {
      if j > 0 {
        assert ([0] + idx)[j] == idx[j - 1];
      }
    }
  }

  /** `processRawData(rawData, sensorType)`. */
  function Process(raw: seq<RawPoint>, target: Series): seq<TrendPoint> {
    SortBy(Select(raw, target), PointTime)
  }

  /** The processed series holds exactly the non-null readings of the
      target, one point per such row with that row's timestamp, in ascending
      time order, and is no longer than the input. */
  lemma ProcessSpec(raw: seq<RawPoint>, target: Series, q: TrendPoint)
    ensures |Process(raw, target)| <= |raw|
    ensures SortedBy(Process(raw, target), PointTime)
    ensures multiset(Process(raw, target)) == multiset(Expected(raw, target))
    ensures q in Process(raw, target) <==>
      exists k :: 0 <= k < |raw| && raw[k].time == q.time && Reading(raw[k], target) == Some(q.value)
  {
    SortMembers(Select(raw, target), PointTime, q);
    if exists k :: 0 <= k < |raw| && raw[k].time == q.time && Reading(raw[k], target) == Some(q.value) {
      var k :| 0 <= k < |raw| && raw[k].time == q.time && Reading(raw[k], target) == Some(q.value);
      assert TrendPoint(raw[k].time, Reading(raw[k], target).value) == q;
    }
  }

  // ---------------------------------------------------------------------
  // The time window

  datatype TimeRange = OneDay | SevenDays | ThirtyDays

  const DayMs: int := 24 * 60 * 60 * 1000

  function Days(r: TimeRange): (d: int)
    ensures d == 1 || d == 7 || d == 30
  {
    match r
    case SevenDays => 7
    case ThirtyDays => 30
    case OneDay => 1
  }

  /** `startTime` of `filteredData`. */
  function StartTime(now: int, r: TimeRange): int {
    now - Days(r) * DayMs
  }

  function KeepFrom(data: seq<TrendPoint>, start: int): (out: seq<TrendPoint>)
    ensures |out| <= |data|
    decreases |data|
  {
    if |data| == 0 then []
    else if data[0].time >= start then [data[0]] + KeepFrom(data[1..], start)
    else KeepFrom(data[1..], start)
  }

  /** `filteredData`. */
  function Window(data: seq<TrendPoint>, now: int, r: TimeRange): seq<TrendPoint> {
    KeepFrom(data, StartTime(now, r))
  }

  /** The filter keeps a point exactly when its time is at or after the
      start, and keeps the order of the points it keeps. */
  lemma {:induction false} KeepFromSpec(data: seq<TrendPoint>, start: int)
    ensures forall q :: q in KeepFrom(data, start) <==> q in data && q.time >= start
    ensures SortedBy(data, PointTime) ==> SortedBy(KeepFrom(data, start), PointTime)
    decreases |data|
  {
    if |data| > 0 {
      KeepFromSpec(data[1..], start);
      assert data == [data[0]] + data[1..];
      if SortedBy(data, PointTime) {
        assert SortedBy(data[1..], PointTime);
      }
    }
  }

  /** On time-sorted data the window is a suffix: everything from the first
      point inside it. */
  lemma {:induction false} WindowSuffix(data: seq<TrendPoint>, start: int)
    requires SortedBy(data, PointTime)
    ensures KeepFrom(data, start) == data[|data| - |KeepFrom(data, start)|..]
    decreases |data|
  {
    if |data| > 0 {
      assert SortedBy(data[1..], PointTime);
      WindowSuffix(data[1..], start);
      if data[0].time >= start {
        assert forall k :: 0 <= k < |data| ==> data[k].time >= start;
        KeepAll(data, start);
      }
    }
  }

  lemma {:induction false} KeepAll(data: seq<TrendPoint>, start: int)
    requires forall k :: 0 <= k < |data| ==> data[k].time >= start
    ensures KeepFrom(data, start) == data
    decreases |data|
  {
    if |data| > 0 {
      KeepAll(data[1..], start);
    }
  }

  /** The window of a range keeps exactly the points no older than that
      many days, and the one-day window lies inside the seven-day window,
      which lies inside the thirty-day window. */
  lemma WindowsNested(data: seq<TrendPoint>, now: int, q: TrendPoint)
    ensures q in Window(data, now, OneDay) <==> q in data && q.time >= now - DayMs
    ensures q in Window(data, now, SevenDays) <==> q in data && q.time >= now - 7 * DayMs
    ensures q in Window(data, now, ThirtyDays) <==> q in data && q.time >= now - 30 * DayMs
    ensures q in Window(data, now, OneDay) ==> q in Window(data, now, SevenDays)
    ensures q in Window(data, now, SevenDays) ==> q in Window(data, now, ThirtyDays)
  {
    KeepFromSpec(data, StartTime(now, OneDay));
    KeepFromSpec(data, StartTime(now, SevenDays));
    KeepFromSpec(data, StartTime(now, ThirtyDays));
  }

  // ---------------------------------------------------------------------
  // The `timeRange` state

  /** The component's two state slots: `shown` is the `timeRange` that
      `filteredData` reads (its setter is dropped) and `spare` is the state
      of the second `useState` call, the one the selector buttons set. */
  datatype Chart = Chart(shown: TimeRange, spare: TimeRange)

  const Mounted: Chart := Chart(OneDay, OneDay)

  /** A click on a range button; without the selector the setter is a
      no-op. */
  function Click(c: Chart, r: TimeRange, showSelector: bool): (c': Chart)
    ensures c'.shown == c.shown
  {
    if showSelector then c.(spare := r) else c
  }

  function Clicks(c: Chart, rs: seq<TimeRange>, showSelector: bool): Chart
    decreases |rs|
  {
    if |rs| == 0 then c else Clicks(Click(c, rs[0], showSelector), rs[1..], showSelector)
  }

  /** Whatever the user clicks, the chart filters with the one-day window,
      though the last click is recorded in the other slot. */
  lemma {:induction false} AlwaysOneDay(rs: seq<TimeRange>, showSelector: bool, c: Chart)
    requires c.shown == OneDay
    ensures Clicks(c, rs, showSelector).shown == OneDay
    ensures showSelector && |rs| > 0 ==> Clicks(c, rs, showSelector).spare == rs[|rs| - 1]
    decreases |rs|
  {
    if |rs| > 0 {
      AlwaysOneDay(rs[1..], showSelector, Click(c, rs[0], showSelector));
      if |rs| > 1 {
        assert rs[1..][|rs[1..]| - 1] == rs[|rs| - 1];
      }
    }
  }

  /** So the data shown after any clicks is the one-day window. */
  lemma ShownWindow(data: seq<TrendPoint>, now: int, rs: seq<TimeRange>, showSelector: bool)
    ensures Window(data, now, Clicks(Mounted, rs, showSelector).shown) == KeepFrom(data, now - DayMs)
  {
    AlwaysOneDay(rs, showSelector, Mounted);
  }
}
